=== FILE: README.md ===
# Swift-Notebook: the SQLite CRUD core and the small tutorial cores, in Dafny

Swift-Notebook is a set of Swift tutorials run from the command line. This project models:

- **The relational persistence tutorial.** This is `Databases/SQLite.swift`, built on GRDB. Four record types live in four tables plus a `user_group` junction table:
  - `QLSettings` in `settings`;
  - `QLUser` in `users`;
  - `QLVehicle` in `vehicles`;
  - `QLGroup` in `groups`.

  One migration, `createTables`, declares the schema, including the foreign keys:
  - `users.settingsId → settings`, with `ON DELETE SET NULL`;
  - `vehicles.ownerId → users`, with `ON DELETE CASCADE`;
  - `user_group`, which has a composite key and cascades on both sides.

  Four repositories work over these tables. Settings have add / update / delete. Users have add / all / get / fetch / update / delete, the only name search. Vehicles have add / all(by:) owner / get / update / delete. Groups have add / all / get / update / delete, plus `addUser` / `removeUser` over the junction table.
- **The small, self-contained tutorial cores:**
  - the generic FIFO `Queue`, a class in the source, modelled as a value: the runner holds its only reference, so mutating through it and replacing the value agree;
  - the `GameCharacter` / `Enemy` / `Dragon` classes and the `Goblin` struct, with their combat run;
  - the pizza calculator with its property setter and lazy flag;
  - `divide` and its error handling;
  - the `User` whose equality, ordering and hashing look at the id only;
  - the closures tutorial;
  - the CSV splitting of `readCSV` and the suffix dispatch of `createFile`;
  - the conditional classifiers;
  - the loops.

How the database is modelled:

- **The store.** The database is an immutable `Persistence.Store`:
  - one sequence of rows per entity table, in rowid (insertion) order;
  - a set of `UserGroup` pairs for the junction table.

  `Persistence.Valid` is the invariant the schema makes the engine keep: keys are unique, and every foreign key resolves.
- **Operations.** Every repository method is a pure function from a store to a `Result`. A `Result` is either the value with the new store, or a `DbError`:
  - `PrimaryKeyViolation`;
  - `ForeignKeyViolation`;
  - `RecordNotFound`.

  A failed write leaves the caller's store unchanged.
- **Ids.** Ids are parameters (the source draws them from `UUID()`). An id already in use therefore yields a primary-key violation instead of being assumed away.
- **Updates.** `update` takes the caller's copy. It returns that copy, patched, together with the outcome of the write. This is the Swift `inout` parameter, which is patched before the write whether or not the write succeeds.

## Model

| member | source | states |
|---|---|---|
| Persistence.EmptyValid | Sources/NotebookTerminalApp/Databases/SQLite.swift:84-119 | the schema's invariant (unique keys, every foreign key resolving) holds of the freshly created empty tables |
| Rows.Find | Sources/NotebookTerminalApp/Databases/SQLite.swift:175-179 | `fetchOne(key:)` returns a stored row with that key, and returns nil exactly when no row has it |
| Rows.FindMember | Sources/NotebookTerminalApp/Databases/SQLite.swift:175-179 | when keys are unique, looking up a stored row's key returns that very row |
| Rows.Filter | Sources/NotebookTerminalApp/Databases/SQLite.swift:223-227 | a filtered read holds a stored row exactly when it satisfies the condition |
| Rows.FilterCounts | Sources/NotebookTerminalApp/Databases/SQLite.swift:223-227 | a kept row appears in the read as often as it is stored, a dropped row never, so the read is a sub-multiset of the table |
| Rows.FilterCons | Sources/NotebookTerminalApp/Databases/SQLite.swift:223-227 | the read keeps table order: the first row leads the result exactly when it satisfies the condition |
| Rows.EmptyWithoutMembers | Sources/NotebookTerminalApp/Databases/SQLite.swift:223-227 | a read that holds no row is empty |
| Rows.FilterUnique | Sources/NotebookTerminalApp/Databases/SQLite.swift:223-227 | filtering a table with unique keys leaves keys unique |
| Rows.Replace | Sources/NotebookTerminalApp/Databases/SQLite.swift:194 | an UPDATE by primary key keeps the number of rows |
| Rows.ReplaceKeys | Sources/NotebookTerminalApp/Databases/SQLite.swift:194 | an UPDATE of an existing key keeps the key set and key uniqueness |
| Rows.ReplaceMembers | Sources/NotebookTerminalApp/Databases/SQLite.swift:194 | after an UPDATE the table holds the new row and every other row whose key differs, and nothing else |
| Rows.ReplaceSame | Sources/NotebookTerminalApp/Databases/SQLite.swift:194 | writing back an unchanged stored row leaves the table as it was |
| Rows.FindAfterReplace | Sources/NotebookTerminalApp/Databases/SQLite.swift:194 | after an UPDATE, the updated key reads back the new row and every other key reads back what it did before |
| Rows.FilterFilter | Sources/NotebookTerminalApp/Databases/SQLite.swift:116-117 | two cascading deletes in a row equal the stricter one alone |
| SqlText.Fold | Sources/NotebookTerminalApp/Databases/SQLite.swift:184 | LIKE's ASCII case folding maps each character on its own and keeps the length |
| SqlText.Like | Sources/NotebookTerminalApp/Databases/SQLite.swift:184 | `name LIKE %pattern%`: the folded pattern occurs somewhere in the folded name; EmptyPatternMatchesAll and LikeReflexive state what it accepts, Scenarios.LikeFacts what it rejects |
| SqlText.EmptyPatternMatchesAll | Sources/NotebookTerminalApp/Databases/SQLite.swift:184 | `name LIKE '%' \|\| '' \|\| '%'` matches every name |
| SqlText.LikeReflexive | Sources/NotebookTerminalApp/Databases/SQLite.swift:184 | every name matches a search for itself |
| SqlText.TextLeTotal | Sources/NotebookTerminalApp/Databases/SQLite.swift:185 | the ORDER BY collation relates any two names one way or the other |
| SqlText.TextLeTransitive | Sources/NotebookTerminalApp/Databases/SQLite.swift:185 | the ORDER BY collation is transitive |
| SqlText.Insert | Sources/NotebookTerminalApp/Databases/SQLite.swift:185 | inserting one row into a sorted result keeps it sorted and adds exactly that row |
| SqlText.OrderBy | Sources/NotebookTerminalApp/Databases/SQLite.swift:185 | `.order(Column("name"))` returns a permutation of its input sorted by name |
| SettingsRepository.Stored | Sources/NotebookTerminalApp/Databases/SQLite.swift:23-28 | a settings lookup by id returns a stored row with that id, or none exactly when the id is absent |
| SettingsRepository.Add | Sources/NotebookTerminalApp/Databases/SQLite.swift:131-140 | inserts settings with volume `volume ?? 0` and the given lang; fails with a primary-key violation exactly when the id is taken; touches no other table |
| SettingsRepository.Update | Sources/NotebookTerminalApp/Databases/SQLite.swift:142-148 | patches only the non-nil fields of the caller's copy, whether or not the write succeeds; the write fails with RecordNotFound exactly when the row is gone; other tables unchanged |
| SettingsRepository.Detach | Sources/NotebookTerminalApp/Databases/SQLite.swift:97 | ON DELETE SET NULL clears exactly the users' references to the deleted settings and changes nothing else in them |
| SettingsRepository.DetachKeys | Sources/NotebookTerminalApp/Databases/SQLite.swift:97 | setting references to null keeps the user table's keys and their uniqueness |
| SettingsRepository.DetachNoop | Sources/NotebookTerminalApp/Databases/SQLite.swift:97 | when no user references the settings, SET NULL changes nothing |
| SettingsRepository.Delete | Sources/NotebookTerminalApp/Databases/SQLite.swift:150-154 | never throws; returns true exactly when the row existed; removes only that id; keeps every user and nulls their references to it |
| SettingsRepository.AddValid | Sources/NotebookTerminalApp/Databases/SQLite.swift:131-140 | a successful add keeps the store valid and the new row reads back |
| SettingsRepository.UpdateValid | Sources/NotebookTerminalApp/Databases/SQLite.swift:142-148 | a successful update keeps the store valid, the patched copy reads back, and other ids read as before |
| SettingsRepository.UpdateWithNothingIsIdentity | Sources/NotebookTerminalApp/Databases/SQLite.swift:142-148 | updating a current copy with nil arguments changes neither the copy nor the store |
| SettingsRepository.LangNeverCleared | Sources/NotebookTerminalApp/Databases/SQLite.swift:145 | since nil means "keep", a lang that is set can never be cleared through `update` |
| SettingsRepository.CopyPatchedOnFailedWrite | Sources/NotebookTerminalApp/Databases/SQLite.swift:142-148 | when the row is gone, the write fails with RecordNotFound but the caller's copy has already taken the new volume |
| SettingsRepository.DeleteValid | Sources/NotebookTerminalApp/Databases/SQLite.swift:150-154 | deleting settings keeps the store valid and leaves no user pointing at them |
| SettingsRepository.AddThenDelete | Sources/NotebookTerminalApp/Databases/SQLite.swift:131-154 | deleting freshly added settings returns true and restores the store exactly |
| UserRepository.Add | Sources/NotebookTerminalApp/Databases/SQLite.swift:161-167 | inserts the user; fails with a primary-key violation on a taken id, and with a foreign-key violation when a non-null settingsId names no settings |
| UserRepository.Get | Sources/NotebookTerminalApp/Databases/SQLite.swift:175-179 | returns the stored user with that id, or nil exactly when there is none |
| UserRepository.All | Sources/NotebookTerminalApp/Databases/SQLite.swift:169-173 | `all()` lists the users table in stored order; UserRepository.AllMatchesGet ties it to `get(by:)` |
| UserRepository.AllMatchesGet | Sources/NotebookTerminalApp/Databases/SQLite.swift:169-179 | in a valid store a user is in `all()` exactly when `get(by:)` of its id returns it |
| UserRepository.NameMatches | Sources/NotebookTerminalApp/Databases/SQLite.swift:184 | the filter of `fetch(by:)`: the user's name is LIKE the argument; UserRepository.Fetch states that exactly the matching users come back |
| UserRepository.Fetch | Sources/NotebookTerminalApp/Databases/SQLite.swift:181-188 | returns exactly the stored users whose name contains the argument (LIKE, ASCII case-insensitive), each as often as stored, sorted by name |
| UserRepository.FetchEmptyListsAll | Sources/NotebookTerminalApp/Databases/SQLite.swift:181-188 | fetching with the empty string lists every user |
| UserRepository.Update | Sources/NotebookTerminalApp/Databases/SQLite.swift:190-196 | patches only the non-nil name and document and never the id or settingsId; fails with RecordNotFound when the row is gone and with a foreign-key violation when the copy's settings are gone |
| UserRepository.Delete | Sources/NotebookTerminalApp/Databases/SQLite.swift:198-202 | never throws; returns true exactly when the user existed; cascades to exactly that user's vehicles and memberships; settings and groups unchanged |
| UserRepository.AddValid | Sources/NotebookTerminalApp/Databases/SQLite.swift:161-167 | a successful add keeps the store valid and the new user reads back |
| UserRepository.UpdateValid | Sources/NotebookTerminalApp/Databases/SQLite.swift:190-196 | a successful update keeps the store valid, the patched copy reads back, and other ids read as before |
| UserRepository.UpdateWithNothingIsIdentity | Sources/NotebookTerminalApp/Databases/SQLite.swift:190-196 | updating a current copy with nil arguments changes neither the copy nor the store |
| UserRepository.DeleteValid | Sources/NotebookTerminalApp/Databases/SQLite.swift:198-202 | deleting a user keeps the store valid |
| UserRepository.AddThenDelete | Sources/NotebookTerminalApp/Databases/SQLite.swift:161-202 | deleting a freshly added user returns true and restores the store exactly |
| VehicleRepository.Add | Sources/NotebookTerminalApp/Databases/SQLite.swift:209-221 | inserts a vehicle owned by the given user; fails with a primary-key violation on a taken id and with a foreign-key violation when the owner is absent |
| VehicleRepository.AllBy | Sources/NotebookTerminalApp/Databases/SQLite.swift:223-227 | returns exactly the vehicles whose ownerId is the user's id, each as often as stored, and no others |
| VehicleRepository.Get | Sources/NotebookTerminalApp/Databases/SQLite.swift:229-233 | returns the stored vehicle with that id, or nil exactly when there is none |
| VehicleRepository.Update | Sources/NotebookTerminalApp/Databases/SQLite.swift:235-243 | patches only the non-nil fields and never the id or ownerId; fails with RecordNotFound when the row is gone and with a foreign-key violation when the owner is gone |
| VehicleRepository.Delete | Sources/NotebookTerminalApp/Databases/SQLite.swift:245-249 | never throws; returns true exactly when the vehicle existed; removes only that vehicle |
| VehicleRepository.AddValid | Sources/NotebookTerminalApp/Databases/SQLite.swift:209-221 | a successful add keeps the store valid and the new vehicle reads back |
| VehicleRepository.UpdateValid | Sources/NotebookTerminalApp/Databases/SQLite.swift:235-243 | a successful update keeps the store valid, the patched copy reads back, and other ids read as before |
| VehicleRepository.DeleteValid | Sources/NotebookTerminalApp/Databases/SQLite.swift:245-249 | deleting a vehicle keeps the store valid |
| VehicleRepository.AddThenDelete | Sources/NotebookTerminalApp/Databases/SQLite.swift:209-249 | deleting a freshly added vehicle returns true and restores the store exactly |
| GroupRepository.Add | Sources/NotebookTerminalApp/Databases/SQLite.swift:256-262 | inserts the group; fails with a primary-key violation exactly when the id is taken |
| GroupRepository.Get | Sources/NotebookTerminalApp/Databases/SQLite.swift:270-274 | returns the stored group with that id, or nil exactly when there is none |
| GroupRepository.All | Sources/NotebookTerminalApp/Databases/SQLite.swift:264-268 | `all()` lists the groups table in stored order; GroupRepository.AllMatchesGet ties it to `get(by:)` |
| GroupRepository.AllMatchesGet | Sources/NotebookTerminalApp/Databases/SQLite.swift:264-274 | in a valid store a group is in `all()` exactly when `get(by:)` of its id returns it |
| GroupRepository.Update | Sources/NotebookTerminalApp/Databases/SQLite.swift:276-282 | patches only the non-nil name and description; the write fails with RecordNotFound exactly when the row is gone |
| GroupRepository.Delete | Sources/NotebookTerminalApp/Databases/SQLite.swift:284-288 | never throws; returns true exactly when the group existed; cascades to exactly the memberships of that group; users and vehicles unchanged |
| GroupRepository.AddUser | Sources/NotebookTerminalApp/Databases/SQLite.swift:290-295 | adds the pair; fails with a primary-key violation when it is already present and with a foreign-key violation when the user or group is absent |
| GroupRepository.RemoveUser | Sources/NotebookTerminalApp/Databases/SQLite.swift:297-307 | removes exactly the matching pair, and is a silent no-op when the pair is absent |
| GroupRepository.AddValid | Sources/NotebookTerminalApp/Databases/SQLite.swift:256-262 | a successful add keeps the store valid and the new group reads back |
| GroupRepository.UpdateValid | Sources/NotebookTerminalApp/Databases/SQLite.swift:276-282 | a successful update keeps the store valid, the patched copy reads back, and other ids read as before |
| GroupRepository.DescriptionNeverCleared | Sources/NotebookTerminalApp/Databases/SQLite.swift:279 | since nil means "keep", a description that is set can never be cleared through `update` |
| GroupRepository.DeleteValid | Sources/NotebookTerminalApp/Databases/SQLite.swift:284-288 | deleting a group keeps the store valid |
| GroupRepository.AddUserValid | Sources/NotebookTerminalApp/Databases/SQLite.swift:290-295 | a successful link keeps the store valid, and linking the same pair again fails |
| GroupRepository.RemoveUserUndoesAddUser | Sources/NotebookTerminalApp/Databases/SQLite.swift:290-307 | unlinking a freshly linked pair restores the store exactly |
| Referential.DeleteUserCascades | Sources/NotebookTerminalApp/Databases/SQLite.swift:198-202 | after deleting a user, the user is gone, it owns no vehicle and no membership names it, while every other user reads as before |
| Referential.DeleteSettingsSetsNull | Sources/NotebookTerminalApp/Databases/SQLite.swift:150-154 | after deleting settings, every user still exists, and its settingsId is null if it named them and unchanged otherwise |
| Referential.StaleUserCopyAfterSettingsDelete | Sources/NotebookTerminalApp/Databases/SQLite.swift:190-196 | updating a user copy taken before its settings were deleted fails with a foreign-key violation, because `update` writes the stale settingsId back |
| Referential.DeleteGroupCascades | Sources/NotebookTerminalApp/Databases/SQLite.swift:284-288 | after deleting a group, it is gone, exactly its memberships are removed, and users and vehicles read as before |
| Referential.Apply | Sources/NotebookTerminalApp/Databases/SQLite.swift:128-308 | one repository call on the store, where a call that throws leaves the store as it was; Referential.ApplyValid proves it keeps the store valid |
| Referential.Run | Sources/NotebookTerminalApp/Databases/SQLite.swift:128-308 | a sequence of repository calls applied in order; Referential.RunValid proves validity survives any such sequence |
| Referential.ApplyValid | Sources/NotebookTerminalApp/Databases/SQLite.swift:128-308 | every repository call, successful or failed, keeps the store valid |
| Referential.RunValid | Sources/NotebookTerminalApp/Databases/SQLite.swift:128-308 | any sequence of repository calls keeps a valid store valid |
| Referential.ReachableValid | Sources/NotebookTerminalApp/Databases/SQLite.swift:128-308 | every store reachable from the empty database by repository calls is valid |
| Migrations.CreateTables | Sources/NotebookTerminalApp/Databases/SQLite.swift:85-120 | creating the tables succeeds exactly on a database without them, and yields the empty valid store |
| Migrations.Migrate | Sources/NotebookTerminalApp/Databases/SQLite.swift:84-121 | after a successful migration every registered step is recorded and none is forgotten; a failure names an unrecorded step |
| Migrations.AllAppliedIsNoop | Sources/NotebookTerminalApp/Databases/SQLite.swift:121 | migrating when every step is recorded changes nothing |
| Migrations.MigrateIdempotent | Sources/NotebookTerminalApp/Databases/SQLite.swift:121 | migrating twice is the same as migrating once |
| Migrations.FreshDatabase | Sources/NotebookTerminalApp/Databases/SQLite.swift:84-121 | a fresh file ends with `createTables` recorded and empty tables |
| Migrations.RelaunchKeepsData | Sources/NotebookTerminalApp/Databases/SQLite.swift:84-121 | reopening a migrated database keeps every row |
| Migrations.UnrecordedTablesFail | Sources/NotebookTerminalApp/Databases/SQLite.swift:87 | tables present without the step recorded make `createTables` fail |
| Scenarios.DeleteOwnerKeepsSettings | Sources/NotebookTerminalApp/Databases/SQLite.swift:319-333 | the walkthrough's settings, user and first vehicle; deleting the user (line 385) while the vehicle and settings still exist removes user and vehicle and keeps the settings |
| Scenarios.FetchOfTheWalkthrough | Sources/NotebookTerminalApp/Databases/SQLite.swift:360-367 | after the rename, the walkthrough's search for "Alice" over its one user "Alice Santos" returns that user |
| Scenarios.FetchByName | Sources/NotebookTerminalApp/Databases/SQLite.swift:181-188 | on illustrative users, searching "Alice" among "Bob", "Alice Santos" and "Alice" gives the two Alices, "Alice" first |
| Scenarios.MatchingAlices | Sources/NotebookTerminalApp/Databases/SQLite.swift:184 | the LIKE filter keeps "Alice Santos" and "Alice" and drops "Bob" |
| Scenarios.SortedAlices | Sources/NotebookTerminalApp/Databases/SQLite.swift:185 | ordering by name puts "Alice" before "Alice Santos" |
| Scenarios.LikeFacts | Sources/NotebookTerminalApp/Databases/SQLite.swift:184 | "Bob" does not match "Alice"; "Alice" and "Alice Santos" do |
| Scenarios.LinkTwice | Sources/NotebookTerminalApp/Databases/SQLite.swift:346-371 | linking a pair twice fails the second time; unlinking an absent pair changes nothing |
| SwiftInt.Div | Sources/NotebookTerminalApp/Intermediary/Exceptions.swift:19 | Swift's `Int` division truncates toward zero: the remainder is smaller than the divisor and is zero or has the dividend's sign |
| SwiftInt.Rem | Sources/NotebookTerminalApp/Advanced/Closures.swift:113 | Swift's `%` is the remainder of the truncating division, with the dividend's sign |
| SwiftInt.TruncatedQuotientUnique | Sources/NotebookTerminalApp/Intermediary/Exceptions.swift:19 | the truncated quotient is unique, so `Div` is the only function meeting that characterisation |
| SwiftInt.DivAgreesOnNaturals | Sources/NotebookTerminalApp/Intermediary/Exceptions.swift:19 | on non-negative dividends and positive divisors the Swift and Euclidean operators agree |
| SwiftInt.DivOddInDividend | Sources/NotebookTerminalApp/Intermediary/Exceptions.swift:19 | negating the dividend negates the Swift quotient |
| SwiftInt.NegatedQuotient | Sources/NotebookTerminalApp/Intermediary/Exceptions.swift:19 | if q is the truncated quotient of n by d, then -q is that of -n by d |
| SwiftInt.RemByTwoIsZeroIffEven | Sources/NotebookTerminalApp/Advanced/Closures.swift:113 | Swift's `n % 2` is zero exactly when n is even, negative n included |
| SwiftInt.NegativeDividendExample | Sources/NotebookTerminalApp/Intermediary/Exceptions.swift:19 | -7 / 2 is -3 with remainder -1 in Swift, not -4 with remainder 1 |
| Exceptions.Divide | Sources/NotebookTerminalApp/Intermediary/Exceptions.swift:10-20 | throws exactly when the denominator is 0, and then `divisionPerZero`; otherwise returns the truncated quotient |
| Exceptions.DivideOnlyThrowsDivisionPerZero | Sources/NotebookTerminalApp/Intermediary/Exceptions.swift:4-20 | `divide` never throws `invalidInput` or `other` |
| Exceptions.DivideIsSwiftDivision | Sources/NotebookTerminalApp/Intermediary/Exceptions.swift:19 | for a non-zero denominator, `divide` returns the one truncated quotient |
| Exceptions.Handle | Sources/NotebookTerminalApp/Intermediary/Exceptions.swift:22-33 | the handlers: a value is printed; `divisionPerZero` and `invalidInput` share the "cannot divide" message; `other` prints its message |
| Exceptions.RunnerTakesDivisionPath | Sources/NotebookTerminalApp/Intermediary/Exceptions.swift:22-27 | `divide(10, por: 0)` lands in the division-by-zero handler |
| Exceptions.NonZeroDenominatorShowsResult | Sources/NotebookTerminalApp/Intermediary/Exceptions.swift:22-25 | any non-zero denominator prints a result |
| Generics.MergeTogether | Sources/NotebookTerminalApp/Advanced/Generics.swift:44-46 | `mergeTogether(a, b)` is `[a, b]` |
| Generics.CreateDict | Sources/NotebookTerminalApp/Advanced/Generics.swift:48-50 | `createDict(a, b)` is the one-entry dictionary mapping a to b |
| Generics.IsTheSame | Sources/NotebookTerminalApp/Advanced/Generics.swift:53-55 | `isTheSame` compares with the `==` of the `Equatable` type, passed in as `equals`; Generics.IsTheSameIsEquivalence states what that comparison satisfies |
| Generics.IsTheSameIsEquivalence | Sources/NotebookTerminalApp/Advanced/Generics.swift:53-55 | whenever the type's `==` is an equivalence, as `Equatable` requires, `isTheSame` is reflexive, symmetric and transitive |
| Generics.IsTheSameOnInt | Sources/NotebookTerminalApp/Advanced/Generics.swift:53-55 | on `Int`, as the runner calls it, `isTheSame(a, b)` holds exactly when `a == b` |
| Generics.NewQueue | Sources/NotebookTerminalApp/Advanced/Generics.swift:60-62 | a new queue peeks its head and is empty after one dequeue |
| Generics.Enqueue | Sources/NotebookTerminalApp/Advanced/Generics.swift:64-66 | `enqueue` appends at the back, grows the length by one and keeps the earlier elements |
| Generics.Peek | Sources/NotebookTerminalApp/Advanced/Generics.swift:68-71 | `peek` is nil exactly on an empty queue and otherwise the front element |
| Generics.Dequeue | Sources/NotebookTerminalApp/Advanced/Generics.swift:73-76 | `dequeue` returns what `peek` would and removes exactly that front element; on an empty queue it changes nothing |
| Generics.EnqueueAll | Sources/NotebookTerminalApp/Advanced/Generics.swift:64-66 | repeated `enqueue` of a list; Generics.EnqueueAllAppends states that it appends the list to the storage |
| Generics.Drain | Sources/NotebookTerminalApp/Advanced/Generics.swift:73-76 | repeated `dequeue` until nil; Generics.DrainYieldsStorage states that it yields the storage in order |
| Generics.EnqueueAllAppends | Sources/NotebookTerminalApp/Advanced/Generics.swift:64-66 | enqueuing a sequence appends it in order |
| Generics.DrainYieldsStorage | Sources/NotebookTerminalApp/Advanced/Generics.swift:73-76 | dequeuing until empty yields the stored elements front to back |
| Generics.Fifo | Sources/NotebookTerminalApp/Advanced/Generics.swift:57-77 | elements leave the queue in the order they entered, the head first |
| Generics.JoinAppend | Sources/NotebookTerminalApp/Advanced/Generics.swift:84-86 | joining one more element string adds `", "` and that string at the end |
| Generics.Description | Sources/NotebookTerminalApp/Advanced/Generics.swift:81-88 | the description is bracketed, is `[]` for an empty queue, and starts with the front element's string right after `[` |
| Generics.DescriptionEnqueue | Sources/NotebookTerminalApp/Advanced/Generics.swift:81-88 | enqueuing onto a non-empty queue turns its description's closing `]` into `", "`, the new element's string and `]` |
| Generics.Decimal | Sources/NotebookTerminalApp/Advanced/Generics.swift:84 | `String(describing:)` on an `Int`, the decimal digits with a leading minus when negative; Generics.DecimalsOfTheTutorial states its value on the runner's numbers |
| Generics.DebugDescription | Sources/NotebookTerminalApp/Advanced/Generics.swift:90-94 | `debugDescription` wraps `description` in `Queue(` and `)`; Generics.DescriptionOfSingleton states both for a one-element queue |
| Generics.DescriptionOfSingleton | Sources/NotebookTerminalApp/Advanced/Generics.swift:81-94 | a one-element queue prints `[h]` and debug-prints `Queue([h])`; emptied, it prints `[]` |
| Generics.TutorialRun | Sources/NotebookTerminalApp/Advanced/Generics.swift:20-39 | the runner: queue `[10, 5, 9, 20]`, printed as `[10, 5, 9, 20]`; dequeue 10 leaving `[5, 9, 20]`, printed as such; peek 5; the merge, dictionary and equality results |
| Generics.QueuesOfTheTutorialPrint | Sources/NotebookTerminalApp/Advanced/Generics.swift:33-35 | with Swift's decimal rendering of `Int`, the two queues print as `[10, 5, 9, 20]` and `[5, 9, 20]` |
| Combat.NewCharacter | Sources/NotebookTerminalApp/Advanced/ObjectOrientation.swift:86-100 | a plain character keeps its name and health and attacks for 5 |
| Combat.NewEnemy | Sources/NotebookTerminalApp/Advanced/ObjectOrientation.swift:125-136 | an enemy attacks for its strength; defaults health 100 and strength 10 |
| Combat.NewDragon | Sources/NotebookTerminalApp/Advanced/ObjectOrientation.swift:144-150 | a dragon attacks with the inherited `Enemy` override; defaults health 300 and strength 50 |
| Combat.Damaged | Sources/NotebookTerminalApp/Advanced/ObjectOrientation.swift:103 | damage gives the larger of `health - amount` and 0 |
| Combat.TakeDamage | Sources/NotebookTerminalApp/Advanced/ObjectOrientation.swift:102-105 | `takeDamage` never changes name or class and never leaves health negative |
| Combat.GoblinTakeDamage | Sources/NotebookTerminalApp/Advanced/ObjectOrientation.swift:182-185 | the struct's `takeDamage` keeps name and strength; damage at least the health leaves 0, smaller damage subtracts exactly |
| Combat.GoblinDamagedLikeCharacter | Sources/NotebookTerminalApp/Advanced/ObjectOrientation.swift:102-105 | the struct and the classes apply the same `max(health - amount, 0)` rule, so equal healths stay equal after the same hit |
| Combat.AttackDispatch | Sources/NotebookTerminalApp/Advanced/ObjectOrientation.swift:97-157 | dispatch: 5 for the base class, 10 for a default enemy, 50 for a default dragon; `attack(withFire: i)` is `2 * i` |
| Combat.EqualityIgnoresName | Sources/NotebookTerminalApp/Advanced/ObjectOrientation.swift:117-121 | `==` holds exactly when health is equal, whatever the names or classes |
| Combat.IsTheSameComparesHealth | Sources/NotebookTerminalApp/Advanced/ObjectOrientation.swift:117-121 | `isTheSame` over characters compares health only, is an equivalence, and equates two differently named characters of equal health |
| Combat.TakeDamageClamps | Sources/NotebookTerminalApp/Advanced/ObjectOrientation.swift:102-105 | damage at least the health leaves 0; smaller damage subtracts exactly |
| Combat.Attack | Sources/NotebookTerminalApp/Advanced/ObjectOrientation.swift:97-100 | `attack()` with dynamic dispatch: 5 for the base class, the attack strength for `Enemy` and the `Dragon` that inherits it; Combat.AttackDispatch states it |
| Combat.FireAttack | Sources/NotebookTerminalApp/Advanced/ObjectOrientation.swift:153-157 | `attack(withFire:)` deals twice the intensity; Combat.AttackDispatch states it |
| Combat.Fight | Sources/NotebookTerminalApp/Advanced/ObjectOrientation.swift:204-208 | one loop body: an instance is damaged in the heap through its reference, a struct only in the loop's copy |
| Combat.Round | Sources/NotebookTerminalApp/Advanced/ObjectOrientation.swift:204-208 | the round as written: instances not in the array are untouched, every instance keeps its class, one report per element |
| Combat.RoundWriteBack | Sources/NotebookTerminalApp/Advanced/ObjectOrientation.swift:204-208 | the round with the damage carried back: every instance keeps its class and its place in the array, and struct elements stay structs |
| Combat.WriteBackKeepsRound | Sources/NotebookTerminalApp/Advanced/ObjectOrientation.swift:204-208 | carrying the damage back changes only the array: the heap and the reports equal those of the round as written |
| Combat.RoundHitsEachOnce | Sources/NotebookTerminalApp/Advanced/ObjectOrientation.swift:204-208 | in a round each instance listed once takes half its own attack, and a struct reports its copy's health after half its attack |
| Combat.RoundOfTheTutorial | Sources/NotebookTerminalApp/Advanced/ObjectOrientation.swift:197-215 | Esqueleto 100→95, Goblin reports 60→56, Drako 300→275 |
| Combat.Execute | Sources/NotebookTerminalApp/Advanced/ObjectOrientation.swift:194-248 | the runner with its struct copies, as written; Combat.ExecuteAsWritten states the healths it prints |
| Combat.ExecuteWriteBack | Sources/NotebookTerminalApp/Advanced/ObjectOrientation.swift:242-246 | the runner with each struct written back after its hit; Combat.ExecuteIntended states the healths it then prints |
| Combat.ExecuteAsWritten | Sources/NotebookTerminalApp/Advanced/ObjectOrientation.swift:194-248 | as written, the alias takes the skeleton to 75, but the goblin copy goes 60→50 and the original stays at 60 |
| Combat.ExecuteIntended | Sources/NotebookTerminalApp/Advanced/ObjectOrientation.swift:242-246 | with the round's damage kept, the copy goes 56→46 and the original stays at 56, as the comments say |
| Pizza.CeilDiv | Sources/NotebookTerminalApp/Advanced/Properties.swift:84 | the exact ceiling of t / b: the least count of b covering t (for b > 0), and the mirror bound for b < 0; it equals the source's `Int(ceil(Double(t) / Double(b)))` only when t and b both lie within ±2^53 |
| Pizza.NewCalculator | Sources/NotebookTerminalApp/Advanced/Properties.swift:51-75 | a new calculator starts with no leftover slices and the lazy flag unevaluated |
| Pizza.TotalNeeded | Sources/NotebookTerminalApp/Advanced/Properties.swift:82 | the slices the party eats; Pizza.PizzasNeeded states that enough pizzas cover it |
| Pizza.PizzasNeeded | Sources/NotebookTerminalApp/Advanced/Properties.swift:79-86 | the getter gives the fewest pizzas covering every person's slices |
| Pizza.SetPizzasNeeded | Sources/NotebookTerminalApp/Advanced/Properties.swift:87-91 | the setter makes leftover plus slices needed equal the slices bought, and changes no other stored field |
| Pizza.TemDesperdicio | Sources/NotebookTerminalApp/Advanced/Properties.swift:64-70 | the lazy flag is computed once as `leftoverSlices > 0` and then cached, the rest of the struct unchanged |
| Pizza.LeftoverBelowOnePizza | Sources/NotebookTerminalApp/Advanced/Properties.swift:79-101 | setting the computed value leaves between 0 and one pizza less a slice over |
| Pizza.LeftoverWithNegativeSize | Sources/NotebookTerminalApp/Advanced/Properties.swift:79-101 | with a negative pizza size the leftover ends between the size and 0 |
| Pizza.WasteIffLeftover | Sources/NotebookTerminalApp/Advanced/Properties.swift:95-103 | the printed waste flag is true exactly when slices are left over |
| Pizza.PrintResults | Sources/NotebookTerminalApp/Advanced/Properties.swift:95-103 | the three values `printResults()` prints; Pizza.WasteIffLeftover states that waste is reported exactly when slices are left over |
| Pizza.LazyFlagIsSticky | Sources/NotebookTerminalApp/Advanced/Properties.swift:64-70 | once read, the flag keeps its value after the setter removes the leftover |
| Pizza.DefaultRun | Sources/NotebookTerminalApp/Advanced/Properties.swift:29-47 | 8 slices, 5 people, 3 each: 2 pizzas, 1 slice over, waste true |
| IdentifiedUser.DebugDescription | Sources/NotebookTerminalApp/Intermediary/Extensions.swift:101-105 | the debug string is `User(` + name + `)` |
| IdentifiedUser.EqualityByIdOnly | Sources/NotebookTerminalApp/Intermediary/Extensions.swift:83-91 | `==` is an equivalence on ids that ignores names, and `!=` is its negation |
| IdentifiedUser.OrderingByIdOnly | Sources/NotebookTerminalApp/Intermediary/Extensions.swift:111-127 | the orderings compare ids, form a total order, and tie exactly on `==` users |
| IdentifiedUser.HashAgreesWithEquality | Sources/NotebookTerminalApp/Intermediary/Extensions.swift:131-136 | whatever the hasher, `==` users hash alike, and a user's name never affects its hash |
| IdentifiedUser.HashMayCollide | Sources/NotebookTerminalApp/Intermediary/Extensions.swift:131-136 | the converse fails: a hasher may give users that are not `==` the same hash |
| IdentifiedUser.IdsAppend | Sources/NotebookTerminalApp/Intermediary/Extensions.swift:56 | appending a user adds its id to the ids |
| IdentifiedUser.SetOf | Sources/NotebookTerminalApp/Intermediary/Extensions.swift:56 | `Set<User>(users)` keeps the first user of each id: no two members `==`, all from the input, every id represented |
| IdentifiedUser.SetCountIsDistinctIds | Sources/NotebookTerminalApp/Intermediary/Extensions.swift:56-57 | the set's count is the number of distinct ids |
| IdentifiedUser.DistinctIdsCount | Sources/NotebookTerminalApp/Intermediary/Extensions.swift:56-57 | users with pairwise distinct ids have as many ids as users |
| IdentifiedUser.TutorialRun | Sources/NotebookTerminalApp/Intermediary/Extensions.swift:39-57 | id 1 against id 1: `==` true, `!=` false, `<` and `>` false, `<=` and `>=` true, the set keeps one, the debug string `User(Usuario 02)` |
| IdentifiedUser.Eq | Sources/NotebookTerminalApp/Intermediary/Extensions.swift:84-86 | `==` compares ids; IdentifiedUser.EqualityByIdOnly states it is an equivalence that ignores the name |
| IdentifiedUser.Ne | Sources/NotebookTerminalApp/Intermediary/Extensions.swift:88-90 | `!=` is the negation of `==`; IdentifiedUser.EqualityByIdOnly states it |
| IdentifiedUser.Lt | Sources/NotebookTerminalApp/Intermediary/Extensions.swift:112-114 | `<` orders by id; IdentifiedUser.OrderingByIdOnly states it is a strict total order up to `==` |
| IdentifiedUser.Gt | Sources/NotebookTerminalApp/Intermediary/Extensions.swift:116-118 | `>` is `<` with the arguments swapped; IdentifiedUser.OrderingByIdOnly states it |
| IdentifiedUser.Le | Sources/NotebookTerminalApp/Intermediary/Extensions.swift:120-122 | `<=` is `<` or `==`; IdentifiedUser.OrderingByIdOnly states it |
| IdentifiedUser.Ge | Sources/NotebookTerminalApp/Intermediary/Extensions.swift:124-126 | `>=` compares ids, and holds exactly when `<` does not; IdentifiedUser.OrderingByIdOnly states it |
| IdentifiedUser.Hash | Sources/NotebookTerminalApp/Intermediary/Extensions.swift:133-135 | `hash(into:)` feeds only the id; IdentifiedUser.HashAgreesWithEquality states equal users hash alike |
| IdentifiedUser.Description | Sources/NotebookTerminalApp/Intermediary/Extensions.swift:95-97 | `description` prints the name; IdentifiedUser.DebugDescription states how the debug form embeds it |
| Closures.CalculatorApplies | Sources/NotebookTerminalApp/Advanced/Closures.swift:58-68 | `calculator` applies the operation in argument order; `add` is symmetric and `sub` antisymmetric under it |
| Closures.Calculator | Sources/NotebookTerminalApp/Advanced/Closures.swift:58-60 | `calculator` applies the operation to its two values in order; Closures.CalculatorApplies states it |
| Closures.Add | Sources/NotebookTerminalApp/Advanced/Closures.swift:66 | the sum; Closures.CalculatorApplies states it is symmetric under `calculator` |
| Closures.Sub | Sources/NotebookTerminalApp/Advanced/Closures.swift:67 | the second value minus the first; Closures.CalculatorApplies states it is antisymmetric under `calculator` |
| Closures.Mul | Sources/NotebookTerminalApp/Advanced/Closures.swift:68 | the product; Closures.TutorialResults states the value the runner prints |
| Closures.Exec | Sources/NotebookTerminalApp/Advanced/Closures.swift:80-82 | the closure `exec()` returns; Closures.ExecIsAdd states it adds |
| Closures.ExecIsAdd | Sources/NotebookTerminalApp/Advanced/Closures.swift:66-82 | the closure `exec()` returns behaves as `add`, on its own and under `calculator` |
| Closures.Subtracao | Sources/NotebookTerminalApp/Advanced/Closures.swift:97 | the closure stored in `subtração`; Closures.SubtracaoIsSub states it subtracts |
| Closures.SubtracaoIsSub | Sources/NotebookTerminalApp/Advanced/Closures.swift:67-97 | the closure in `subtração` behaves as `sub`, and is antisymmetric under `calculator` |
| Closures.TutorialResults | Sources/NotebookTerminalApp/Advanced/Closures.swift:47-98 | the printed results 5, 5, 6, 1, 10, 1, 5 and -6 |
| Closures.MakeIncrementer | Sources/NotebookTerminalApp/Advanced/Closures.swift:128-134 | the captured total starts at 0 with the given step |
| Closures.Invoke | Sources/NotebookTerminalApp/Advanced/Closures.swift:130-133 | each call adds the step to the captured total and returns the new total |
| Closures.InvokeTimes | Sources/NotebookTerminalApp/Advanced/Closures.swift:136-140 | k calls give k results; their values are stated by Closures.InvokeTimesCounts |
| Closures.InvokeTimesCounts | Sources/NotebookTerminalApp/Advanced/Closures.swift:128-140 | the i-th call returns the starting total plus i times the step |
| Closures.KthCallOfFreshIncrementer | Sources/NotebookTerminalApp/Advanced/Closures.swift:128-140 | the k-th call of a fresh incrementer returns k times the step |
| Closures.IncrementByTwo | Sources/NotebookTerminalApp/Advanced/Closures.swift:136-140 | `incByTwo` returns 2, 4, 6, 8 |
| Closures.PlusOne | Sources/NotebookTerminalApp/Advanced/Closures.swift:109 | `map { $0 + 1 }` adds one to each element in place |
| Closures.Evens | Sources/NotebookTerminalApp/Advanced/Closures.swift:113 | `filter { $0 % 2 == 0 }` keeps exactly the even elements of the list; Closures.EvensCounts and Closures.EvensAppend add counts and order |
| Closures.EvensCounts | Sources/NotebookTerminalApp/Advanced/Closures.swift:113 | each even value is kept as often as it occurs, each odd value never |
| Closures.EvensAppend | Sources/NotebookTerminalApp/Advanced/Closures.swift:113 | the filter keeps list order: a trailing element is appended to the result exactly when it is even |
| Closures.EvensKeepsSwiftEvens | Sources/NotebookTerminalApp/Advanced/Closures.swift:113 | an element is kept exactly when it is in the list and its Swift remainder by 2 is zero |
| Closures.SumAppend | Sources/NotebookTerminalApp/Advanced/Closures.swift:117-119 | the front-first sum grows by the appended element |
| Closures.TotalIsSum | Sources/NotebookTerminalApp/Advanced/Closures.swift:117-119 | `reduce(0) { acum + item }`, folding from the left, equals the ordinary sum |
| Closures.Total | Sources/NotebookTerminalApp/Advanced/Closures.swift:117-119 | `reduce(0) { $0 + $1 }`; Closures.TotalIsSum states it is the sum of the list |
| Closures.CollectionResults | Sources/NotebookTerminalApp/Advanced/Closures.swift:106-120 | on `[6, 2, 3, 9, 4, 1]`: `[7, 3, 4, 10, 5, 2]`, `[6, 2, 4]` and 25 |
| Csv.FieldLength | Sources/NotebookTerminalApp/Advanced/Archives.swift:196 | a field runs up to the first separator, or to the end of the text |
| Csv.Split | Sources/NotebookTerminalApp/Advanced/Archives.swift:195-196 | `split(separator:)` gives fields that are non-empty and free of the separator; Csv.SplitAtSeparator and Csv.SplitJoin say which fields |
| Csv.SplitAtSeparator | Sources/NotebookTerminalApp/Advanced/Archives.swift:195-196 | splitting at a separator splits each side on its own and concatenates the results |
| Csv.DoubledSeparatorSkipped | Sources/NotebookTerminalApp/Advanced/Archives.swift:195-196 | two adjacent separators produce no empty field between the fields on either side |
| Csv.Without | Sources/NotebookTerminalApp/Advanced/Archives.swift:195-196 | removing every separator leaves none |
| Csv.SplitKeepsEveryOtherCharacter | Sources/NotebookTerminalApp/Advanced/Archives.swift:195-196 | the fields, concatenated, are the text with every separator removed: nothing else is lost or reordered |
| Csv.SplitJoin | Sources/NotebookTerminalApp/Advanced/Archives.swift:195-196 | splitting the joined non-empty, separator-free fields returns those fields |
| Csv.Join | Sources/NotebookTerminalApp/Advanced/Archives.swift:239-240 | `joined(separator:)`; Csv.SplitJoin states `split` undoes it for non-empty separator-free fields |
| Csv.ReadCsv | Sources/NotebookTerminalApp/Advanced/Archives.swift:192-197 | one row per non-empty line; each row holds exactly that line's characters apart from delimiters; no field is empty or contains a newline or the delimiter; Csv.RowsAtLineBreak and Csv.BlankLineSkipped give the rows in line order |
| Csv.SplitEach | Sources/NotebookTerminalApp/Advanced/Archives.swift:195-196 | the row of each line is that line split at the delimiter |
| Csv.RowsAtLineBreak | Sources/NotebookTerminalApp/Advanced/Archives.swift:192-197 | the rows of text joined at a line break are the rows of the first part followed by those of the second |
| Csv.BlankLineSkipped | Sources/NotebookTerminalApp/Advanced/Archives.swift:192-197 | a blank line between two parts of the text contributes no row |
| Csv.EmptyInputs | Sources/NotebookTerminalApp/Advanced/Archives.swift:195-196 | empty text and blank lines give no rows; a line of delimiters gives one empty row |
| Csv.RenderRows | Sources/NotebookTerminalApp/Advanced/Archives.swift:239-240 | each written line is its row joined with the delimiter |
| Csv.Render | Sources/NotebookTerminalApp/Advanced/Archives.swift:239-240 | the file text: each row joined by the delimiter, rows joined by newlines; Csv.ReadRendered states `readCSV` reads it back |
| Csv.ReadRendered | Sources/NotebookTerminalApp/Advanced/Archives.swift:192-197 | reading back a table written with `joined(separator:)` returns the table, when no field is empty or contains a separator |
| Csv.CsvFileReadsBack | Sources/NotebookTerminalApp/Advanced/Archives.swift:103-108 | the CSV that `createFile` writes reads back as `[["nome", "idade"], ["João", "25"]]` |
| Csv.CsvSuffixExcludesOthers | Sources/NotebookTerminalApp/Advanced/Archives.swift:224-238 | a `.csv` path ends in none of the earlier tested suffixes |
| Csv.PlistSuffixExcludesOthers | Sources/NotebookTerminalApp/Advanced/Archives.swift:224-237 | a `.plist` path ends in neither of the suffixes tested before it |
| Csv.CreateFile | Sources/NotebookTerminalApp/Advanced/Archives.swift:213-248 | an existing file is left alone; otherwise `.txt` writes the greeting, `.json` and `.plist` the encoded person, `.csv` the CSV lines, tested in that order; anything else is a fatal error |
| Csv.TutorialFiles | Sources/NotebookTerminalApp/Advanced/Archives.swift:224-245 | `teste.csv` gets the CSV text, `teste.txt` the greeting, and a `.md` path is fatal |
| Conditionals.IfChain | Sources/NotebookTerminalApp/Basic/Conditionals.swift:17-23 | the chain: too old above 70, may drive from 19 to 70, too young up to 18 |
| Conditionals.Switch | Sources/NotebookTerminalApp/Basic/Conditionals.swift:25-34 | the switch: too old for 70 to 120, may drive for 18 to 69, too young up to 17, invalid above 120 |
| Conditionals.IfChainMessage | Sources/NotebookTerminalApp/Basic/Conditionals.swift:17-23 | the line the `if`/`else if` chain prints for an age; Conditionals.MessagesAgree states it matches the `switch`'s line exactly when the verdicts agree and are not "too old", whose line alone ends with a period |
| Conditionals.SwitchMessage | Sources/NotebookTerminalApp/Basic/Conditionals.swift:25-34 | the line the `switch` over ranges prints for an age; Conditionals.MessagesAgree compares it with the chain's line, Conditionals.AgeTwenty gives the runner's |
| Conditionals.ClassifiersAgree | Sources/NotebookTerminalApp/Basic/Conditionals.swift:17-34 | the classifiers agree exactly away from 18, 70 and ages above 120, and how they differ there |
| Conditionals.MessagesAgree | Sources/NotebookTerminalApp/Basic/Conditionals.swift:17-34 | the printed lines agree exactly where the verdicts agree and are not "too old", whose line differs by a period |
| Conditionals.AgeTwenty | Sources/NotebookTerminalApp/Basic/Conditionals.swift:15-34 | at age 20 both print "Pode dirigir" |
| Conditionals.Hardness | Sources/NotebookTerminalApp/Basic/Conditionals.swift:36-47 | the three known hardnesses get their messages and every other string the invalid-option message |
| Loops.PrintedMembers | Sources/NotebookTerminalApp/Basic/Loops.swift:42-51 | the visited indices are exactly those in range other than 3, strictly increasing |
| Loops.LoopRange | Sources/NotebookTerminalApp/Basic/Loops.swift:37-61 | the first loop visits exactly the indices from start to 5 other than 3, increasing (1, 2, 4, 5 from 1); the second greets `end - start` times |
| Loops.LoopWhile | Sources/NotebookTerminalApp/Basic/Loops.swift:96-107 | visits 0, 1, 2 and stops with the index at 3 |
| Loops.LoopMatrix | Sources/NotebookTerminalApp/Basic/Loops.swift:122-133 | fills a 3 x 3 matrix with `line * 3 + column` |
| Loops.LoopWhere | Sources/NotebookTerminalApp/Basic/Loops.swift:147-155 | visits exactly the entry with the wanted key, or nothing when absent, whatever the dictionary order |
| Loops.LoopDict | Sources/NotebookTerminalApp/Basic/Loops.swift:135-145 | prints every entry exactly once, in some order |
| Loops.LoopWhereRun | Sources/NotebookTerminalApp/Basic/Loops.swift:147-155 | the tutorial's contacts print only `James: 987654` |
| Loops.SetLiteralDropsDuplicates | Sources/NotebookTerminalApp/Basic/Loops.swift:109-120 | the set literal with three "banana"s holds three fruits |

## Left out

- The storage engine is not modelled: GRDB and SQLite internals, `DatabaseQueue` serialisation, `@MainActor`, and the file path and `try!` crashes of `DatabaseManager`. The store is an in-memory value, and the migration runs on a `Database` value.
- Ids drawn from `UUID()` are parameters. A reused id is modelled as a primary-key violation.
- `UserRepository.Fetch`: characters `%` and `_` in the search argument are matched literally, not as wildcards. LIKE's ASCII case folding is modelled, since SQLite applies it by default. The order of equal names is taken to be rowid order, which SQLite leaves unspecified. Non-ASCII case folding is not modelled.
- Every `print` is left out: the repositories' progress lines, the `willSet`/`didSet` messages of the pizza calculator, and the `move()` and `roar()` output.
- `Int` is unbounded here. Swift's 64-bit overflow traps are not modelled: in `+`, in `*`, in `-` (`health - amount` in both `takeDamage` methods) and in `/` (`Int.min / -1`).
- Exceptions.Divide: where Swift traps on `Int.min / -1`, the model returns 2^63.
- `Pizza.PizzasNeeded`: the source computes `ceil` on `Double`. The model uses exact integer ceiling division. The two agree when `numberOfPeople * slicesPerPerson` and `slicesPerPizza` both lie within ±2^53: there the rounded quotient stays strictly between the two integers around the exact one. Above that bound they can differ even when both operands are exact doubles: 2^60 slices at 3 per pizza give 384307168202282326 in the model, while the `Double` quotient is rounded to a multiple of 64 before `ceil`. A zero pizza size, which makes the source divide by zero and trap on the infinite result, is excluded by a precondition.
- `healthPercentage` and the `rounded(to:)` extension on `Double` are floating-point only.
- The `Game` protocol's `fatalError` defaults are never reached. `move()` is overridden by `GameCharacter.move()`. `attack()` is not: `GameCharacter.attack() -> Int` does not satisfy `Game`'s `attack()`, which returns nothing, so `Game.attack` stays the `fatalError` default. Nothing calls `attack()` through `Game`, so that default never runs.
- The catch-all clause of `exceptionRunner` cannot be reached, because `divide` throws only `MathError`. `Exceptions.Handle` has no case for it.
- The description functions take the element's string conversion as a parameter. This affects `Generics.Description` and `Generics.DebugDescription`. `String(describing:)` is modelled only for `Int` (`Generics.Decimal`), which is what the runner prints.
- `Csv.ReadCsv` reads its text as a parameter. File reading, writing, deleting, permissions, the existence check and JSON/plist encoding are left out. The JSON and plist branches of `createFile` are reduced to which branch runs. The delimiter is one character, and `"\r\n"` (a single Swift `Character`) is not modelled.
- `LoopString` and `LoopArray` only print the elements of a literal in order; they have no logic beyond iteration.
- The `EscapingClosures` network request, and everything outside the files above: other data stores, networking, cryptography, logging, dates, processes, SwiftUI, and the design-pattern demos. None of these has logic in the modelled files.
- `Extensions.swift` line 46 has a comment saying the debug string is `User10(...)`. The code at lines 101-105 produces `User(...)`, and the model follows the code.

## Findings

| source | as written | input that shows it | evidently intended | confidence | as-written member | corrected member |
|---|---|---|---|---|---|---|
| Sources/NotebookTerminalApp/Advanced/ObjectOrientation.swift:204-246 | `for var char in combatants` damages a copy of the `Goblin` struct, so the `goblin` variable keeps 60 health; `goblinCopy` then drops 60→50 and the original stays at 60 | the runner's own data: `Goblin(name: "Goblin", health: 60, attackStrength: 8)` | the comments at lines 245-246 expect the round's damage on `goblin`: copy 56→46, original 56 | not executed | Combat.ExecuteAsWritten | Combat.ExecuteIntended |

=== FILE: closures.dfy ===
/**
 The closures tutorial: a calculator taking its operation as a closure,
 closures returned from functions, and an incrementer that captures a
 running total.
 */
module Closures {
  import SwiftInt

  /** `calculator(_:_:operation:)`: applies the operation to the two values. */
  function Calculator(value1: int, value2: int, operation: (int, int) -> int): int
  {
    operation(value1, value2)
  }

  function Add(value1: int, value2: int): int { value1 + value2 }

  /** The tutorial's `sub` takes the first value from the second. */
  function Sub(value1: int, value2: int): int { value2 - value1 }

  function Mul(value1: int, value2: int): int { value1 * value2 }

  /** `exec()`: returns a closure adding its two arguments. */
  function Exec(): (int, int) -> int
  {
    (n1: int, n2: int) => n1 + n2
  }

  /** `{ $1 - $0 }`, the shorthand closure used as `subtração`. */
  function Subtracao(): (int, int) -> int
  {
    (a: int, b: int) => b - a
  }

  /** Any closure handed to the calculator is applied to the values in the order given. */
  lemma CalculatorApplies(value1: int, value2: int, operation: (int, int) -> int)
    ensures Calculator(value1, value2, operation) == operation(value1, value2)
    ensures Calculator(value1, value2, Add) == Calculator(value2, value1, Add)
    ensures Calculator(value1, value2, Sub) == -Calculator(value2, value1, Sub)
  {
  }

  /** The closure `exec()` returns adds like `add`, and so does the calculator given it. */
  lemma ExecIsAdd(a: int, b: int)
    ensures Exec()(a, b) == Add(a, b)
    ensures Calculator(a, b, Exec()) == Calculator(a, b, Add)
  {
  }

  /** The shorthand `{ $1 - $0 }` takes its first argument from its second, exactly as `sub` does. */
  lemma SubtracaoIsSub(a: int, b: int)
    ensures Subtracao()(a, b) == Sub(a, b)
    ensures Calculator(a, b, Subtracao()) == -Calculator(b, a, Subtracao())
  {
  }

  /**
   The printed results: `closureExemplo(2, 3)` 5, add 5, mul 6, the inline and
   trailing subtractions 1, the trailing sum 5, `subtração(10, 4)` -6 and
   `exec()(5, 5)` 10.
   */
  lemma TutorialResults()
    ensures ((value1: int, value2: int) => value1 + value2)(2, 3) == 5
    ensures Calculator(2, 3, Add) == 5
    ensures Calculator(2, 3, Mul) == 6
    ensures Calculator(2, 3, (value1: int, value2: int) => value2 - value1) == 1
    ensures Calculator(2, 3, Subtracao()) == 1
    ensures Calculator(2, 3, (n1: int, n2: int) => n1 + n2) == 5
    ensures Subtracao()(10, 4) == -6
    ensures Exec()(5, 5) == 10
  {
  }

  /** The state a `makeIncrementer(by:)` closure captures: its step and the running `total`. */
  datatype Incrementer = Incrementer(amount: int, total: int)

  /** `makeIncrementer(by:)`: the captured total starts at 0. */
  function MakeIncrementer(amount: int): (inc: Incrementer)
    ensures inc.amount == amount && inc.total == 0
  {
    Incrementer(amount, 0)
  }

  /** One call of the returned closure and the capture it leaves behind. */
  datatype Call = Call(result: int, after: Incrementer)

  /** Calling the closure: `total += amount; return total`. */
  function Invoke(inc: Incrementer): (c: Call)
    ensures c.after.amount == inc.amount
    ensures c.result == c.after.total && c.after.total - inc.total == inc.amount
  {
    var total := inc.total + inc.amount;
    Call(total, inc.(total := total))
  }

  /** The results of `k` successive calls. */
  function InvokeTimes(inc: Incrementer, k: nat): (r: seq<int>)
    ensures |r| == k
    decreases k
  {
    if k == 0 then []
    else
      var c := Invoke(inc);
      [c.result] + InvokeTimes(c.after, k - 1)
  }

  /** The `i`-th call (from 1) after the capture's total is `t` returns `t + i * amount`. */
  lemma {:induction false} InvokeTimesCounts(inc: Incrementer, k: nat)
    ensures forall i :: 0 <= i < k ==> InvokeTimes(inc, k)[i] == inc.total + (i + 1) * inc.amount
    decreases k
  {
    if k > 0 {
      var c := Invoke(inc);
      InvokeTimesCounts(c.after, k - 1);
      forall i | 0 <= i < k
        ensures InvokeTimes(inc, k)[i] == inc.total + (i + 1) * inc.amount
      {
        if i > 0 {
          assert InvokeTimes(inc, k)[i] == InvokeTimes(c.after, k - 1)[i - 1];
        }
      }
    }
  }

  /** The `k`-th call of a fresh incrementer returns `k * amount`. */
  lemma KthCallOfFreshIncrementer(amount: int, k: nat)
    requires k >= 1
    ensures InvokeTimes(MakeIncrementer(amount), k)[k - 1] == k * amount
  {
    InvokeTimesCounts(MakeIncrementer(amount), k);
  }

  /** `incByTwo` called four times prints 2, 4, 6, 8. */
  lemma IncrementByTwo()
    ensures InvokeTimes(MakeIncrementer(2), 4) == [2, 4, 6, 8]
  {
    InvokeTimesCounts(MakeIncrementer(2), 4);
  }

  /** `números.map { $0 + 1 }`. */
  function PlusOne(xs: seq<int>): (r: seq<int>)
    ensures |r| == |xs| && forall i :: 0 <= i < |xs| ==> r[i] == xs[i] + 1
  {
    seq(|xs|, i requires 0 <= i < |xs| => xs[i] + 1)
  }

  /**
   `números.filter { $0 % 2 == 0 }`. Swift's `%` and Dafny's differ on negative
   operands but agree on whether the remainder by 2 is zero
   (`SwiftInt.RemByTwoIsZeroIffEven`), so the test is written with Dafny's.
   */
  function Evens(xs: seq<int>): (r: seq<int>)
    ensures forall x :: x in r ==> x in xs && x % 2 == 0
    ensures forall x :: x in xs && x % 2 == 0 ==> x in r
    decreases |xs|
  {
    if |xs| == 0 then []
    else if xs[0] % 2 == 0 then [xs[0]] + Evens(xs[1..])
    else Evens(xs[1..])
  }

  /** The filter keeps each even element as often as it occurs, and no odd one. */
  lemma {:induction false} EvensCounts(xs: seq<int>)
    ensures forall x :: multiset(Evens(xs))[x] == if x % 2 == 0 then multiset(xs)[x] else 0
    decreases |xs|
  {
    if |xs| > 0 {
      EvensCounts(xs[1..]);
      assert xs == [xs[0]] + xs[1..];
      assert multiset(xs) == multiset{xs[0]} + multiset(xs[1..]);
    }
  }

  /** The filter keeps the list's order: an element appended at the back is kept at the back, if even. */
  lemma {:induction false} EvensAppend(xs: seq<int>, x: int)
    ensures Evens(xs + [x]) == Evens(xs) + (if x % 2 == 0 then [x] else [])
    decreases |xs|
  {
    if |xs| == 0 {
      assert xs + [x] == [x];
      assert [x][1..] == [];
    } else {
      assert (xs + [x])[0] == xs[0];
      assert (xs + [x])[1..] == xs[1..] + [x];
      EvensAppend(xs[1..], x);
    }
  }

  /** The filter keeps exactly the elements whose Swift remainder by 2 is zero. */
  lemma EvensKeepsSwiftEvens(xs: seq<int>, x: int)
    ensures x in Evens(xs) <==> x in xs && SwiftInt.Rem(x, 2) == 0
  {
    SwiftInt.RemByTwoIsZeroIffEven(x);
  }

  /** `números.reduce(0) { acum, item in acum + item }`. */
  function Total(xs: seq<int>): int
    decreases |xs|
  {
    if |xs| == 0 then 0 else Total(xs[..|xs| - 1]) + xs[|xs| - 1]
  }

  /** The sum taken from the front, an independent definition of the total. */
  function Sum(xs: seq<int>): int
    decreases |xs|
  {
    if |xs| == 0 then 0 else xs[0] + Sum(xs[1..])
  }

  lemma {:induction false} SumAppend(xs: seq<int>, x: int)
    ensures Sum(xs + [x]) == Sum(xs) + x
    decreases |xs|
  {
    if |xs| > 0 {
      assert (xs + [x])[1..] == xs[1..] + [x];
      SumAppend(xs[1..], x);
    }
  }

  /** `reduce(0, +)` folds from the left, yet gives the ordinary sum of the elements. */
  lemma {:induction false} TotalIsSum(xs: seq<int>)
    ensures Total(xs) == Sum(xs)
    decreases |xs|
  {
    if |xs| > 0 {
      var init := xs[..|xs| - 1];
      TotalIsSum(init);
      assert xs == init + [xs[|xs| - 1]];
      SumAppend(init, xs[|xs| - 1]);
    }
  }

  /** On `[6, 2, 3, 9, 4, 1]`: map gives `[7, 3, 4, 10, 5, 2]`, filter `[6, 2, 4]`, reduce 25. */
  lemma CollectionResults()
    ensures PlusOne([6, 2, 3, 9, 4, 1]) == [7, 3, 4, 10, 5, 2]
    ensures Evens([6, 2, 3, 9, 4, 1]) == [6, 2, 4]
    ensures Total([6, 2, 3, 9, 4, 1]) == 25
  {
    EvensOfTheTutorial();
    TotalOfTheTutorial();
  }

  lemma EvensOfTheTutorial()
    ensures Evens([6, 2, 3, 9, 4, 1]) == [6, 2, 4]
  {
    assert [6, 2, 3, 9, 4, 1][1..] == [2, 3, 9, 4, 1];
    assert [2, 3, 9, 4, 1][1..] == [3, 9, 4, 1];
    assert [3, 9, 4, 1][1..] == [9, 4, 1];
    assert [9, 4, 1][1..] == [4, 1];
    assert [4, 1][1..] == [1];
    assert [1][1..] == [];
  }

  lemma TotalOfTheTutorial()
    ensures Total([6, 2, 3, 9, 4, 1]) == 25
  {
    assert [6, 2, 3, 9, 4, 1][..5] == [6, 2, 3, 9, 4];
    assert [6, 2, 3, 9, 4][..4] == [6, 2, 3, 9];
    assert [6, 2, 3, 9][..3] == [6, 2, 3];
    assert [6, 2, 3][..2] == [6, 2];
    assert [6, 2][..1] == [6];
    assert [6][..0] == [];
  }
}

=== FILE: combat.dfy ===
/**
 The characters of the object-orientation tutorial: the `GameCharacter`
 class hierarchy (`Enemy`, `Dragon`), the `Goblin` struct, and the combat
 run that contrasts reference and value semantics.
 */
module Combat {
  import SwiftInt
  import Generics

  /** Which class an instance belongs to, with the stored properties that class adds. */
  datatype Role = Plain | Enemy(attackStrength: int) | Dragon(attackStrength: int, wingSpan: int)

  /** The state of a `GameCharacter` instance. */
  datatype Character = Character(name: string, health: int, role: Role)

  /** `GameCharacter(name:health:)`. */
  function NewCharacter(name: string, health: int): (c: Character)
    ensures c.name == name && c.health == health
    ensures Attack(c) == 5
  {
    Character(name, health, Plain)
  }

  /** `Enemy(name:health:attackStrength:)` with its default arguments. */
  function NewEnemy(name: string, health: int := 100, attackStrength: int := 10): (c: Character)
    ensures c.name == name && c.health == health
    ensures Attack(c) == attackStrength
  {
    Character(name, health, Enemy(attackStrength))
  }

  /** `Dragon(name:health:attackStrength:wingSpan:)` with its default arguments. */
  function NewDragon(name: string, health: int := 300, attackStrength: int := 50, wingSpan: int := 5): (c: Character)
    ensures c.name == name && c.health == health && c.role.Dragon?
    ensures Attack(c) == attackStrength
  {
    Character(name, health, Dragon(attackStrength, wingSpan))
  }

  /**
   `attack()`, dynamically dispatched: the base class hits for 5, `Enemy`
   overrides it with its attack strength, and `Dragon` inherits that override.
   */
  function Attack(c: Character): int
  {
    match c.role
    case Plain => 5
    case Enemy(s) => s
    case Dragon(s, _) => s
  }

  /** `Dragon.attack(withFire:)`, the overload only dragons have. */
  function FireAttack(c: Character, intensity: int): int
    requires c.role.Dragon?
  {
    intensity * 2
  }

  /** The damage both classes and the struct take away: `max(health - amount, 0)`. */
  function Damaged(health: int, amount: int): (h: int)
    ensures h >= 0 && h >= health - amount
    ensures h == 0 || h == health - amount
  {
    if health - amount > 0 then health - amount else 0
  }

  /** `GameCharacter.takeDamage(_:)`: only the health changes, and it never goes negative. */
  function TakeDamage(c: Character, amount: int): (r: Character)
    ensures r.name == c.name && r.role == c.role
    ensures r.health >= 0
    ensures amount >= 0 ==> r.health <= c.health || r.health == 0
  {
    c.(health := Damaged(c.health, amount))
  }

  /** `==` on `GameCharacter`: compares health and nothing else. */
  predicate SameHealth(a: Character, b: Character)
  {
    a.health == b.health
  }

  /** The `Goblin` struct. */
  datatype Goblin = Goblin(name: string, health: int, attackStrength: int)

  function GoblinAttack(g: Goblin): int
  {
    g.attackStrength
  }

  /** `Goblin.takeDamage(_:)`, a `mutating` method: the same rule as the classes. */
  function GoblinTakeDamage(g: Goblin, amount: int): (r: Goblin)
    ensures r.name == g.name && r.attackStrength == g.attackStrength
    ensures amount >= g.health ==> r.health == 0
    ensures amount < g.health ==> r.health == g.health - amount
  {
    g.(health := Damaged(g.health, amount))
  }

  /** The struct and the classes take damage alike: equal healths stay equal after the same hit. */
  lemma GoblinDamagedLikeCharacter(g: Goblin, c: Character, amount: int)
    requires g.health == c.health
    ensures GoblinTakeDamage(g, amount).health == TakeDamage(c, amount).health
    ensures GoblinTakeDamage(g, amount).health == (if g.health - amount > 0 then g.health - amount else 0)
  {
  }

  /** Base characters hit for 5, enemies and dragons for their strength; fire doubles the intensity. */
  lemma AttackDispatch(name: string, intensity: int)
    ensures Attack(NewCharacter(name, 1)) == 5
    ensures Attack(NewEnemy(name)) == 10 && NewEnemy(name).health == 100
    ensures Attack(NewDragon(name)) == 50 && NewDragon(name).health == 300
    ensures FireAttack(NewDragon(name), intensity) == 2 * intensity
  {
  }

  /** Characters are `==` exactly when their healths are, whatever their names or classes. */
  lemma EqualityIgnoresName(a: Character, b: Character)
    ensures SameHealth(a, b) <==> a.health == b.health
    ensures SameHealth(a, b) ==> SameHealth(a.(name := b.name), b)
    ensures SameHealth(NewEnemy("x"), NewCharacter("y", 100))
  {
  }

  /**
   `isTheSame` on characters calls their `==`: two characters with equal
   health are the same to it whatever their names, though not equal as values.
   */
  lemma IsTheSameComparesHealth(a: Character, b: Character)
    ensures Generics.IsTheSame(a, b, SameHealth) <==> a.health == b.health
    ensures Generics.Equivalence(SameHealth)
    ensures Generics.IsTheSame(NewCharacter("a", 100), NewCharacter("b", 100), SameHealth)
    ensures NewCharacter("a", 100) != NewCharacter("b", 100)
  {
  }

  /** Damage past zero stops at zero; a smaller amount is subtracted exactly. */
  lemma TakeDamageClamps(c: Character, amount: int)
    ensures amount >= c.health ==> TakeDamage(c, amount).health == 0
    ensures amount < c.health ==> TakeDamage(c, amount).health == c.health - amount
  {
  }

  /** Class instances live in a heap and are shared through references; structs are plain values. */
  type Ref = nat
  type Heap = map<Ref, Character>

  /** An element of `[Attackable]`: a reference to an instance, or a copy of a struct. */
  datatype Combatant = Instance(ref: Ref) | Value(goblin: Goblin)

  predicate Resolves(heap: Heap, combatants: seq<Combatant>)
  {
    forall i :: 0 <= i < |combatants| && combatants[i].Instance? ==> combatants[i].ref in heap
  }

  /** The state after one `char.takeDamage(char.attack() / 2)`, and the health it reported. */
  datatype Turn = Turn(heap: Heap, element: Combatant, reported: int)

  function Fight(heap: Heap, c: Combatant): (t: Turn)
    requires c.Instance? ==> c.ref in heap
    ensures t.heap.Keys == heap.Keys
    ensures c.Value? ==> t.heap == heap && t.element.Value?
    ensures c.Instance? ==> t.element == c && t.heap == heap[c.ref := t.heap[c.ref]]
    ensures c.Instance? ==> t.heap[c.ref].role == heap[c.ref].role && t.heap[c.ref].name == heap[c.ref].name
  {
    match c
    case Instance(ref) =>
      var hit := TakeDamage(heap[ref], SwiftInt.Div(Attack(heap[ref]), 2));
      Turn(heap[ref := hit], c, hit.health)
    case Value(g) =>
      var hit := GoblinTakeDamage(g, SwiftInt.Div(GoblinAttack(g), 2));
      Turn(heap, Value(hit), hit.health)
  }

  /**
   `for var char in combatants { ... }` AS WRITTEN: `char` is a copy of each
   element, so an instance is damaged through the shared reference while a
   struct's damage lands on the copy and is lost with it. Gives the heap
   after the round and the health each `takeDamage` reported.
   */
  function Round(heap: Heap, combatants: seq<Combatant>): (r: (Heap, seq<int>))
    requires Resolves(heap, combatants)
    ensures r.0.Keys == heap.Keys
    ensures |r.1| == |combatants|
    ensures forall ref :: ref in heap && Instance(ref) !in combatants ==> r.0[ref] == heap[ref]
    ensures forall ref :: ref in heap ==> r.0[ref].role == heap[ref].role
    decreases |combatants|
  {
    if |combatants| == 0 then (heap, [])
    else
      var t := Fight(heap, combatants[0]);
      assert Resolves(t.heap, combatants[1..]);
      var rest := Round(t.heap, combatants[1..]);
      assert forall ref :: Instance(ref) !in combatants ==> Instance(ref) != combatants[0] && Instance(ref) !in combatants[1..];
      (rest.0, [t.reported] + rest.1)
  }

  /**
   The round with the damage written back into the array
   (`for i in combatants.indices { combatants[i].takeDamage(...) }`): the same
   heap and reports, and the damaged struct values in place of the originals.
   */
  function RoundWriteBack(heap: Heap, combatants: seq<Combatant>): (r: (Heap, seq<Combatant>, seq<int>))
    requires Resolves(heap, combatants)
    ensures r.0.Keys == heap.Keys && |r.2| == |combatants|
    ensures forall ref :: ref in heap ==> r.0[ref].role == heap[ref].role
    ensures |r.1| == |combatants|
    ensures forall i :: 0 <= i < |combatants| ==> (r.1[i].Value? <==> combatants[i].Value?)
    ensures forall i :: 0 <= i < |combatants| && combatants[i].Instance? ==> r.1[i] == combatants[i]
    decreases |combatants|
  {
    if |combatants| == 0 then (heap, [], [])
    else
      var t := Fight(heap, combatants[0]);
      assert Resolves(t.heap, combatants[1..]);
      var rest := RoundWriteBack(t.heap, combatants[1..]);
      (rest.0, [t.element] + rest.1, [t.reported] + rest.2)
  }

  /** Writing the damage back changes nothing but the array: the heap and the reports are those of `Round`. */
  lemma {:induction false} WriteBackKeepsRound(heap: Heap, combatants: seq<Combatant>)
    requires Resolves(heap, combatants)
    ensures RoundWriteBack(heap, combatants).0 == Round(heap, combatants).0
    ensures RoundWriteBack(heap, combatants).2 == Round(heap, combatants).1
    decreases |combatants|
  {
    if |combatants| > 0 {
      var t := Fight(heap, combatants[0]);
      assert Resolves(t.heap, combatants[1..]);
      WriteBackKeepsRound(t.heap, combatants[1..]);
    }
  }

  /** Within a round, an instance that appears once takes half its own attack; a struct's report is its copy's health. */
  lemma {:induction false} RoundHitsEachOnce(heap: Heap, combatants: seq<Combatant>, i: nat)
    requires Resolves(heap, combatants)
    requires i < |combatants|
    requires combatants[i].Instance? ==> multiset(combatants)[combatants[i]] == 1
    ensures combatants[i].Instance? ==>
      var ref := combatants[i].ref;
      Round(heap, combatants).0[ref] == TakeDamage(heap[ref], SwiftInt.Div(Attack(heap[ref]), 2))
    ensures combatants[i].Value? ==>
      var g := combatants[i].goblin;
      Round(heap, combatants).1[i] == GoblinTakeDamage(g, SwiftInt.Div(GoblinAttack(g), 2)).health
    decreases |combatants|
  {
    var t := Fight(heap, combatants[0]);
    assert combatants == [combatants[0]] + combatants[1..];
    assert Resolves(t.heap, combatants[1..]);
    if i == 0 {
      if combatants[0].Instance? {
        assert Instance(combatants[0].ref) !in combatants[1..];
      }
    } else {
      if combatants[i].Instance? {
        assert combatants[i] in combatants[1..];
        assert combatants[i] != combatants[0];
        assert multiset(combatants[1..])[combatants[i]] == 1;
      }
      RoundHitsEachOnce(t.heap, combatants[1..], i - 1);
    }
  }

  /** The tutorial's characters: two class instances in the heap and the goblin value. */
  const SkeletonRef: Ref := 0
  const DrakoRef: Ref := 1
  const StartHeap: Heap := map[SkeletonRef := NewEnemy("Esqueleto"), DrakoRef := NewDragon("Drako", wingSpan := 7)]
  const FirstGoblin := Goblin("Goblin", 60, 8)
  const Combatants := [Instance(SkeletonRef), Value(FirstGoblin), Instance(DrakoRef)]

  /** What `OORunner.execute()` reports, in the order it prints it. */
  datatype Log = Log(round: seq<int>, fire: int, skeletonAfterAlias: int, goblinCopyAfter: int, goblinOriginal: int)

  /** The rest of `execute()` after the round: fire attack, alias damage, struct copy damage. */
  function Aftermath(heap: Heap, round: seq<int>, goblin: Goblin): Log
    requires SkeletonRef in heap && DrakoRef in heap && heap[DrakoRef].role.Dragon?
  {
    var fire := FireAttack(heap[DrakoRef], 20);
    var aliased := heap[SkeletonRef := TakeDamage(heap[SkeletonRef], 20)];
    var goblinCopy := GoblinTakeDamage(goblin, 10);
    Log(round, fire, aliased[SkeletonRef].health, goblinCopy.health, goblin.health)
  }

  /** `OORunner.execute()` as written: the goblin the round damaged was a copy. */
  function Execute(): Log
  {
    assert Resolves(StartHeap, Combatants);
    var (heap, round) := Round(StartHeap, Combatants);
    Aftermath(heap, round, FirstGoblin)
  }

  /** `execute()` with the round's damage carried back to the `goblin` variable. */
  function ExecuteWriteBack(): Log
  {
    assert Resolves(StartHeap, Combatants);
    var (heap, elements, round) := RoundWriteBack(StartHeap, Combatants);
    Aftermath(heap, round, elements[1].goblin)
  }

  /**
   As written, the round reports 95, 56 and 275 and the alias takes the
   skeleton to 75, but the goblin variable never took the round's damage: its
   copy goes from 60 to 50 and the original still has 60.
   */
  lemma ExecuteAsWritten()
    ensures Execute() == Log([95, 56, 275], 40, 75, 50, 60)
  {
    RoundOfTheTutorial();
  }

  /** The round itself: the skeleton drops to 95, the goblin's copy reports 56, the dragon drops to 275. */
  lemma RoundOfTheTutorial()
    ensures Resolves(StartHeap, Combatants)
    ensures Round(StartHeap, Combatants).1 == [95, 56, 275]
    ensures Round(StartHeap, Combatants).0 == StartHeap[SkeletonRef := StartHeap[SkeletonRef].(health := 95)][DrakoRef := StartHeap[DrakoRef].(health := 275)]
    ensures RoundWriteBack(StartHeap, Combatants).1[1] == Value(FirstGoblin.(health := 56))
  {
    assert Resolves(StartHeap, Combatants);
    SwiftInt.DivAgreesOnNaturals(10, 2);
    SwiftInt.DivAgreesOnNaturals(8, 2);
    SwiftInt.DivAgreesOnNaturals(50, 2);
    var t0 := Fight(StartHeap, Combatants[0]);
    assert t0.heap[SkeletonRef].health == 95;
    var t1 := Fight(t0.heap, Combatants[1]);
    assert t1.reported == 56;
    var t2 := Fight(t1.heap, Combatants[2]);
    assert t2.reported == 275;
    assert Combatants[1..] == [Combatants[1], Combatants[2]];
    assert Combatants[1..][1..] == [Combatants[2]];
    assert Combatants[1..][1..][1..] == [];
    assert [Combatants[2]][1..] == [];
    assert Round(t2.heap, []) == (t2.heap, []);
    var r2 := Round(t1.heap, [Combatants[2]]);
    assert Resolves(t2.heap, []);
    assert r2.0 == t2.heap;
    assert r2.1 == [275];
    assert Round(t1.heap, [Combatants[2]]) == (t2.heap, [275]);
    var r1 := Round(t0.heap, Combatants[1..]);
    assert r1.0 == t2.heap && r1.1 == [56, 275];
    var r0 := Round(StartHeap, Combatants);
    assert r0.0 == t2.heap && r0.1 == [95, 56, 275];
  }

  /** With the damage carried back, the copy ends at 46 and the original at 56, as the comments expect. */
  lemma ExecuteIntended()
    ensures ExecuteWriteBack() == Log([95, 56, 275], 40, 75, 46, 56)
  {
    RoundOfTheTutorial();
    WriteBackKeepsRound(StartHeap, Combatants);
  }
}

=== FILE: conditionals.dfy ===
/** The two driving-age classifiers and the egg-hardness switch of `conditionalRunner`. */
module Conditionals {

  datatype Verdict = TooOld | CanDrive | TooYoung | Invalid

  /** The `if` / `else if` / `else` chain. */
  function IfChain(age: int): (v: Verdict)
    ensures v != Invalid
    ensures v == TooOld <==> age > 70
    ensures v == CanDrive <==> 18 < age <= 70
    ensures v == TooYoung <==> age <= 18
  {
    if age > 70 then TooOld
    else if age > 18 then CanDrive
    else TooYoung
  }

  /** The `switch` over `70...120`, `18..<70`, `...17` and `default`, first match wins. */
  function Switch(age: int): (v: Verdict)
    ensures v == TooOld <==> 70 <= age <= 120
    ensures v == CanDrive <==> 18 <= age < 70
    ensures v == TooYoung <==> age <= 17
    ensures v == Invalid <==> age > 120
  {
    if 70 <= age <= 120 then TooOld
    else if 18 <= age < 70 then CanDrive
    else if age <= 17 then TooYoung
    else Invalid
  }

  /** What each branch of the chain prints; only its "too old" line ends with a period. */
  function IfChainMessage(age: int): string
  {
    match IfChain(age)
    case TooOld => "Muito velho para dirigir."
    case CanDrive => "Pode dirigir"
    case TooYoung => "Muito novo para dirigir"
    case Invalid => "Error, opção inválida."
  }

  /** What each case of the switch prints. */
  function SwitchMessage(age: int): string
  {
    match Switch(age)
    case TooOld => "Muito velho para dirigir"
    case CanDrive => "Pode dirigir"
    case TooYoung => "Muito novo para dirigir"
    case Invalid => "Error, opção inválida."
  }

  /**
   The classifiers disagree exactly at 18 (too young for the chain, may drive
   for the switch), at 70 (may drive, too old) and above 120 (too old, invalid).
   */
  lemma ClassifiersAgree(age: int)
    ensures IfChain(age) == Switch(age) <==> age != 18 && age != 70 && age <= 120
    ensures age == 18 ==> IfChain(age) == TooYoung && Switch(age) == CanDrive
    ensures age == 70 ==> IfChain(age) == CanDrive && Switch(age) == TooOld
    ensures age > 120 ==> IfChain(age) == TooOld && Switch(age) == Invalid
  {
  }

  /** Even where the verdicts agree, the printed "too old" lines differ by the final period. */
  lemma MessagesAgree(age: int)
    ensures IfChainMessage(age) == SwitchMessage(age) <==> IfChain(age) == Switch(age) && IfChain(age) != TooOld
  {
  }

  /** The runner's age, 20: both print "Pode dirigir". */
  lemma AgeTwenty()
    ensures IfChainMessage(20) == "Pode dirigir" && SwitchMessage(20) == "Pode dirigir"
  {
  }

  /** The hardness `switch`: three known strings and a default. */
  function Hardness(hardness: string): (message: string)
    ensures hardness == "Soft" ==> message == "Ovo ta cru"
    ensures hardness == "Medium" ==> message == "Ovo perfeito"
    ensures hardness == "Hard" ==> message == "Ovo ta queimado"
    ensures message == "Error, opção inválida." <==> hardness !in {"Soft", "Medium", "Hard"}
  {
    match hardness
    case "Soft" => "Ovo ta cru"
    case "Medium" => "Ovo perfeito"
    case "Hard" => "Ovo ta queimado"
    case _ => "Error, opção inválida."
  }
}

=== FILE: csv.dfy ===
/**
 The text side of the archives tutorial: `readCSV` splitting on lines and
 on a delimiter, and the suffix dispatch of `createFile`. File contents are
 strings; the file system itself is a parameter.
 */
module Csv {

  /**
   The length of the field at the front of `s`: the characters before the
   first `sep`, or all of them.
   */
  function FieldLength(s: string, sep: char): (n: nat)
    ensures n <= |s|
    ensures sep !in s[..n]
    ensures n < |s| ==> s[n] == sep
    decreases |s|
  {
    if |s| == 0 || s[0] == sep then 0
    else
      var n := FieldLength(s[1..], sep) + 1;
      assert s[..n] == [s[0]] + s[1..][..n - 1];
      n
  }

  /**
   Swift's `split(separator:)` with its default `omittingEmptySubsequences:
   true`: the maximal runs of non-separator characters, in order.
   */
  function Split(s: string, sep: char): (r: seq<string>)
    ensures forall f :: f in r ==> |f| > 0 && sep !in f
    decreases |s|
  {
    if |s| == 0 then []
    else if s[0] == sep then Split(s[1..], sep)
    else
      var n := FieldLength(s, sep);
      [s[..n]] + Split(s[n..], sep)
  }

  /** A field never runs past a separator: text appended after one leaves the front field as it was. */
  lemma {:induction false} FieldLengthBeforeSeparator(a: string, rest: string, sep: char)
    requires |rest| > 0 && rest[0] == sep
    ensures FieldLength(a + rest, sep) == FieldLength(a, sep)
    decreases |a|
  {
    if |a| == 0 {
      assert a + rest == rest;
    } else {
      assert (a + rest)[0] == a[0];
      if a[0] != sep {
        assert (a + rest)[1..] == a[1..] + rest;
        FieldLengthBeforeSeparator(a[1..], rest, sep);
      }
    }
  }

  /**
   A separator cuts the text in two: the fields are those of the part before
   it followed by those of the part after it. Empty pieces on either side,
   from a doubled separator or one at an end, give no field.
   */
  lemma {:induction false} SplitAtSeparator(a: string, b: string, sep: char)
    ensures Split(a + [sep] + b, sep) == Split(a, sep) + Split(b, sep)
    decreases |a|
  {
    var s := a + [sep] + b;
    if |a| == 0 {
      assert s == [sep] + b;
      assert s[1..] == b;
    } else if a[0] == sep {
      assert s[0] == sep;
      assert s[1..] == a[1..] + [sep] + b;
      SplitAtSeparator(a[1..], b, sep);
    } else {
      assert s[0] == a[0];
      var m := FieldLength(a, sep);
      assert s == a + ([sep] + b);
      FieldLengthBeforeSeparator(a, [sep] + b, sep);
      assert s[..m] == a[..m];
      assert s[m..] == a[m..] + [sep] + b;
      SplitAtSeparator(a[m..], b, sep);
      assert Split(a, sep) == [a[..m]] + Split(a[m..], sep);
    }
  }

  /** A doubled separator between two texts gives no empty field. */
  lemma DoubledSeparatorSkipped(a: string, b: string, sep: char)
    ensures Split(a + [sep, sep] + b, sep) == Split(a, sep) + Split(b, sep)
  {
    assert a + [sep, sep] + b == a + [sep] + ([sep] + b);
    SplitAtSeparator(a, [sep] + b, sep);
    SplitAtSeparator([], b, sep);
    assert [] + [sep] + b == [sep] + b;
  }

  /** Fields joined with `sep`, as `joined(separator:)` does. */
  function Join(fields: seq<string>, sep: char): string
    decreases |fields|
  {
    if |fields| == 0 then ""
    else if |fields| == 1 then fields[0]
    else fields[0] + [sep] + Join(fields[1..], sep)
  }

  /** `s` with every `sep` removed. */
  function Without(s: string, sep: char): (r: string)
    ensures sep !in r
    decreases |s|
  {
    if |s| == 0 then []
    else if s[0] == sep then Without(s[1..], sep)
    else [s[0]] + Without(s[1..], sep)
  }

  /** All fields concatenated. */
  function Concat(fields: seq<string>): string
    decreases |fields|
  {
    if |fields| == 0 then [] else fields[0] + Concat(fields[1..])
  }

  lemma {:induction false} WithoutAppend(a: string, b: string, sep: char)
    ensures Without(a + b, sep) == Without(a, sep) + Without(b, sep)
    decreases |a|
  {
    if |a| > 0 {
      assert (a + b)[1..] == a[1..] + b;
      WithoutAppend(a[1..], b, sep);
    } else {
      assert a + b == b;
    }
  }

  lemma {:induction false} WithoutFree(s: string, sep: char)
    requires sep !in s
    ensures Without(s, sep) == s
    decreases |s|
  {
    if |s| > 0 {
      WithoutFree(s[1..], sep);
      assert s == [s[0]] + s[1..];
    }
  }

  /** Splitting loses the separators and nothing else. */
  lemma {:induction false} SplitKeepsEveryOtherCharacter(s: string, sep: char)
    ensures Concat(Split(s, sep)) == Without(s, sep)
    decreases |s|
  {
    if |s| > 0 && s[0] != sep {
      var n := FieldLength(s, sep);
      SplitKeepsEveryOtherCharacter(s[n..], sep);
      assert s == s[..n] + s[n..];
      WithoutAppend(s[..n], s[n..], sep);
      WithoutFree(s[..n], sep);
      assert Split(s, sep)[1..] == Split(s[n..], sep);
    } else if |s| > 0 {
      SplitKeepsEveryOtherCharacter(s[1..], sep);
    }
  }

  lemma {:induction false} FieldInConcat(fields: seq<string>, f: string)
    requires f in fields
    ensures forall c :: c in f ==> c in Concat(fields)
    decreases |fields|
  {
    if fields[0] != f {
      FieldInConcat(fields[1..], f);
    }
  }

  lemma {:induction false} WithoutSubset(s: string, sep: char)
    ensures forall c :: c in Without(s, sep) ==> c in s
    decreases |s|
  {
    if |s| > 0 {
      WithoutSubset(s[1..], sep);
    }
  }

  /** The field at the front of `f + [sep] + rest` is `f`, when `f` has no separator. */
  lemma {:induction false} FieldLengthOfField(f: string, rest: string, sep: char)
    requires sep !in f
    ensures |rest| > 0 && rest[0] == sep ==> FieldLength(f + rest, sep) == |f|
    ensures |rest| == 0 ==> FieldLength(f + rest, sep) == |f|
    decreases |f|
  {
    if |f| > 0 {
      assert (f + rest)[1..] == f[1..] + rest;
      FieldLengthOfField(f[1..], rest, sep);
    } else {
      assert f + rest == rest;
    }
  }

  /** Joining non-empty, separator-free fields and splitting again gives them back. */
  lemma {:induction false} SplitJoin(fields: seq<string>, sep: char)
    requires forall f :: f in fields ==> |f| > 0 && sep !in f
    ensures Split(Join(fields, sep), sep) == fields
    decreases |fields|
  {
    if |fields| == 1 {
      var f := fields[0];
      FieldLengthOfField(f, [], sep);
      assert f + [] == f;
      assert f[|f|..] == [];
    } else if |fields| > 1 {
      var f := fields[0];
      var rest := [sep] + Join(fields[1..], sep);
      var s := Join(fields, sep);
      assert s == f + rest;
      FieldLengthOfField(f, rest, sep);
      assert s[..|f|] == f;
      assert s[|f|..] == rest;
      assert rest[1..] == Join(fields[1..], sep);
      SplitJoin(fields[1..], sep);
      assert Split(rest, sep) == Split(Join(fields[1..], sep), sep);
    }
  }

  /** Each line split on the delimiter. */
  function SplitEach(lines: seq<string>, delimiter: char): (rows: seq<seq<string>>)
    ensures |rows| == |lines|
    ensures forall i :: 0 <= i < |lines| ==> rows[i] == Split(lines[i], delimiter)
  {
    seq(|lines|, i requires 0 <= i < |lines| => Split(lines[i], delimiter))
  }

  lemma SplitEachAppend(a: seq<string>, b: seq<string>, delimiter: char)
    ensures SplitEach(a + b, delimiter) == SplitEach(a, delimiter) + SplitEach(b, delimiter)
  {
    var r := SplitEach(a + b, delimiter);
    var ra := SplitEach(a, delimiter);
    var rb := SplitEach(b, delimiter);
    assert |r| == |ra + rb|;
    forall i | 0 <= i < |r|
      ensures r[i] == (ra + rb)[i]
    {
      if i < |a| {
        assert (a + b)[i] == a[i];
        assert r[i] == ra[i];
      } else {
        assert (a + b)[i] == b[i - |a|];
        assert r[i] == rb[i - |a|];
      }
    }
  }

  /** `readCSV`'s default delimiter. */
  const DefaultDelimiter: char := ','

  /**
   `readCSV(at:delimiter:)` on the text read from the file: the lines
   (`split(separator: "\n")`), each split on the delimiter, which defaults
   to a comma (`DefaultDelimiter`).
   */
  function ReadCsv(text: string, delimiter: char): (rows: seq<seq<string>>)
    ensures |rows| == |Split(text, '\n')|
    ensures forall i :: 0 <= i < |rows| ==> Concat(rows[i]) == Without(Split(text, '\n')[i], delimiter)
    ensures forall row, f :: row in rows && f in row ==> |f| > 0 && '\n' !in f && delimiter !in f
  {
    var lines := Split(text, '\n');
    forall i | 0 <= i < |lines|
      ensures Concat(Split(lines[i], delimiter)) == Without(lines[i], delimiter)
    {
      SplitKeepsEveryOtherCharacter(lines[i], delimiter);
    }
    var rows := SplitEach(lines, delimiter);
    forall row, f | row in rows && f in row
      ensures |f| > 0 && '\n' !in f && delimiter !in f
    {
      var i :| 0 <= i < |rows| && rows[i] == row;
      assert f in Split(lines[i], delimiter);
      assert lines[i] in lines;
      assert forall c :: c in f ==> c in lines[i] by {
        SplitKeepsEveryOtherCharacter(lines[i], delimiter);
        FieldInConcat(Split(lines[i], delimiter), f);
        WithoutSubset(lines[i], delimiter);
      }
    }
    rows
  }

  /** A line break cuts the text in two: the rows are those before it followed by those after it. */
  lemma RowsAtLineBreak(a: string, b: string, delimiter: char)
    ensures ReadCsv(a + ['\n'] + b, delimiter) == ReadCsv(a, delimiter) + ReadCsv(b, delimiter)
  {
    SplitAtSeparator(a, b, '\n');
    SplitEachAppend(Split(a, '\n'), Split(b, '\n'), delimiter);
    ReadCsvSplitsEachLine(a + ['\n'] + b, delimiter);
    ReadCsvSplitsEachLine(a, delimiter);
    ReadCsvSplitsEachLine(b, delimiter);
  }

  lemma ReadCsvSplitsEachLine(text: string, delimiter: char)
    ensures ReadCsv(text, delimiter) == SplitEach(Split(text, '\n'), delimiter)
  {
  }

  /** A blank line between two texts gives no row: the rows are those of the texts, one after the other. */
  lemma BlankLineSkipped(a: string, b: string, delimiter: char)
    ensures ReadCsv(a + "\n\n" + b, delimiter) == ReadCsv(a, delimiter) + ReadCsv(b, delimiter)
  {
    assert a + "\n\n" + b == a + ['\n'] + (['\n'] + b);
    RowsAtLineBreak(a, ['\n'] + b, delimiter);
    RowsAtLineBreak([], b, delimiter);
    assert [] + ['\n'] + b == ['\n'] + b;
    assert ReadCsv([], delimiter) == [];
  }

  /** An empty text, or one of blank lines, has no rows; a line of delimiters gives an empty row. */
  lemma EmptyInputs(delimiter: char)
    requires delimiter != '\n'
    ensures ReadCsv("", DefaultDelimiter) == [] && ReadCsv("\n\n", DefaultDelimiter) == []
    ensures ReadCsv([delimiter, delimiter], delimiter) == [[]]
  {
    assert "\n\n"[1..] == "\n" && "\n"[1..] == "";
    var line := [delimiter, delimiter];
    assert Join([line], '\n') == line;
    SplitJoin([line], '\n');
    assert line[1..] == [delimiter] && [delimiter][1..] == [];
    assert Split([delimiter], delimiter) == Split([], delimiter) == [];
    assert Split(line, delimiter) == [];
  }

  /** A table written as CSV text: each row joined with the delimiter, the rows joined with line breaks. */
  function Render(table: seq<seq<string>>, delimiter: char): string
  {
    Join(RenderRows(table, delimiter), '\n')
  }

  function RenderRows(table: seq<seq<string>>, delimiter: char): (lines: seq<string>)
    ensures |lines| == |table|
    ensures forall i :: 0 <= i < |table| ==> lines[i] == Join(table[i], delimiter)
    decreases |table|
  {
    if |table| == 0 then [] else [Join(table[0], delimiter)] + RenderRows(table[1..], delimiter)
  }

  /** A field list joined by a separator is non-empty when the list is, and holds only the fields' characters and the separator. */
  lemma {:induction false} JoinContents(fields: seq<string>, sep: char, c: char)
    requires forall f :: f in fields ==> |f| > 0
    requires c in Join(fields, sep) && c != sep
    ensures exists f :: f in fields && c in f
    decreases |fields|
  {
    if |fields| > 1 {
      if c !in fields[0] {
        assert c in Join(fields[1..], sep);
        JoinContents(fields[1..], sep, c);
      }
    }
  }

  /**
   CSV round trip: a table whose rows are non-empty and whose fields are
   non-empty and hold neither a line break nor the delimiter reads back as
   itself.
   */
  lemma ReadRendered(table: seq<seq<string>>, delimiter: char)
    requires delimiter != '\n'
    requires forall row :: row in table ==> |row| > 0
    requires forall row, f :: row in table && f in row ==> |f| > 0 && '\n' !in f && delimiter !in f
    ensures ReadCsv(Render(table, delimiter), delimiter) == table
  {
    var lines := RenderRows(table, delimiter);
    forall l | l in lines
      ensures |l| > 0 && '\n' !in l
    {
      var i :| 0 <= i < |lines| && lines[i] == l;
      assert table[i] in table && table[i][0] in table[i];
      if '\n' in l {
        JoinContents(table[i], delimiter, '\n');
      }
    }
    SplitJoin(lines, '\n');
    forall i | 0 <= i < |table|
      ensures Split(lines[i], delimiter) == table[i]
    {
      assert table[i] in table;
      SplitJoin(table[i], delimiter);
    }
  }

  /** The lines `createFile` writes into a `.csv` file. */
  const CsvLines := ["nome,idade", "João,25"]

  /** The CSV file `createFile` writes reads back as its header and one record. */
  lemma CsvFileReadsBack()
    ensures ReadCsv(Join(CsvLines, '\n'), DefaultDelimiter) == [["nome", "idade"], ["João", "25"]]
  {
    var table := [["nome", "idade"], ["João", "25"]];
    assert Join(table[0], ',') == CsvLines[0];
    assert Join(table[1], ',') == CsvLines[1];
    assert RenderRows(table, ',') == CsvLines;
    ReadRendered(table, ',');
  }

  /** What `createFile(at:)` does with a path. */
  datatype Created =
    | AlreadyExists
    | Text(content: string)
    | JsonPerson
    | PlistPerson
    | CsvText(content: string)
    | Fatal

  predicate HasSuffix(s: string, suffix: string)
  {
    |suffix| <= |s| && s[|s| - |suffix|..] == suffix
  }

  /** A path ending in `.csv` ends in none of the other registered suffixes. */
  lemma CsvSuffixExcludesOthers(path: string)
    ensures HasSuffix(path, ".csv") ==>
      !HasSuffix(path, ".txt") && !HasSuffix(path, ".json") && !HasSuffix(path, ".plist")
  {
    if HasSuffix(path, ".csv") {
      assert path[|path| - 1] == 'v';
      assert ".txt"[3] == 't' && ".json"[4] == 'n' && ".plist"[5] == 't';
    }
  }

  /** A path ending in `.plist` ends in neither `.txt` nor `.json`, which are tested before it. */
  lemma PlistSuffixExcludesOthers(path: string)
    ensures HasSuffix(path, ".plist") ==> !HasSuffix(path, ".txt") && !HasSuffix(path, ".json")
  {
    if HasSuffix(path, ".plist") {
      assert path[|path| - 4] == 'l' && path[|path| - 1] == 't';
      assert ".txt"[0] == '.' && ".json"[4] == 'n';
    }
  }

  /**
   `createFile(at:)`: an existing file is left alone; otherwise the suffixes
   `.txt`, `.json`, `.plist` and `.csv` are tested in that order, and any
   other suffix is a `fatalError`.
   */
  function CreateFile(path: string, fileExists: bool): (r: Created)
    ensures fileExists <==> r == AlreadyExists
    ensures !fileExists && HasSuffix(path, ".txt") ==> r == Text("Olá, Mundo!")
    ensures !fileExists && !HasSuffix(path, ".txt") && HasSuffix(path, ".json") ==> r == JsonPerson
    ensures !fileExists && HasSuffix(path, ".plist") ==> r == PlistPerson
    ensures !fileExists && HasSuffix(path, ".csv") ==> r == CsvText(Join(CsvLines, '\n'))
    ensures r == Fatal <==>
      !fileExists && !HasSuffix(path, ".txt") && !HasSuffix(path, ".json")
      && !HasSuffix(path, ".plist") && !HasSuffix(path, ".csv")
  {
    CsvSuffixExcludesOthers(path);
    PlistSuffixExcludesOthers(path);
    if fileExists then AlreadyExists
    else if HasSuffix(path, ".txt") then Text("Olá, Mundo!")
    else if HasSuffix(path, ".json") then JsonPerson
    else if HasSuffix(path, ".plist") then PlistPerson
    else if HasSuffix(path, ".csv") then
      CsvText(Join(CsvLines, '\n'))
    else Fatal
  }

  /** The tutorial's `teste.csv` is written with the CSV lines, and an unknown suffix is fatal. */
  lemma TutorialFiles()
    ensures CreateFile("pasta/teste.csv", false) == CsvText("nome,idade\nJoão,25")
    ensures CreateFile("pasta/teste.txt", false) == Text("Olá, Mundo!")
    ensures CreateFile("pasta/teste.md", false) == Fatal
  {
    assert Join(CsvLines, '\n') == "nome,idade\nJoão,25";
  }
}

=== FILE: exceptions.dfy ===
/** `divide(_:por:)` and the `do`/`catch` chain of `exceptionRunner`. */
module Exceptions {
  import SwiftInt

  /** The `MathError` enum. */
  datatype MathError = DivisionPerZero | InvalidInput | Other(message: string)

  /** What a throwing call produces: a value, or the error it threw. */
  datatype Outcome<T> = Value(value: T) | Thrown(error: MathError)

  /**
   `divide(n, por: d)`: the guard throws `divisionPerZero` for a zero
   denominator; otherwise Swift's truncating `/`.
   */
  function Divide(numerator: int, denominator: int): (r: Outcome<int>)
    ensures r.Thrown? <==> denominator == 0
    ensures r.Thrown? ==> r.error == DivisionPerZero
    ensures r.Value? ==> SwiftInt.IsTruncatedQuotient(numerator, denominator, r.value)
  {
    if denominator == 0 then Thrown(DivisionPerZero)
    else Value(SwiftInt.Div(numerator, denominator))
  }

  /** `divide` never throws `invalidInput` or `other`: `divisionPerZero` is its only error. */
  lemma DivideOnlyThrowsDivisionPerZero(numerator: int, denominator: int)
    ensures Divide(numerator, denominator) != Thrown(InvalidInput)
    ensures forall m :: Divide(numerator, denominator) != Thrown(Other(m))
  {
  }

  /** The quotient `divide` returns is the one Swift's `/` defines, whatever the signs. */
  lemma DivideIsSwiftDivision(numerator: int, denominator: int, q: int)
    requires denominator != 0
    requires SwiftInt.IsTruncatedQuotient(numerator, denominator, q)
    ensures Divide(numerator, denominator) == Value(q)
  {
    SwiftInt.TruncatedQuotientUnique(numerator, denominator, Divide(numerator, denominator).value, q);
  }

  /** Which branch of `exceptionRunner` handles an outcome. */
  datatype Report = ShowResult(value: int) | CannotDivide | ShowMessage(message: string)

  /**
   The `catch` clauses in order: `divisionPerZero` and `invalidInput` share the
   division message, `other` prints its own message.
   */
  function Handle(r: Outcome<int>): (report: Report)
    ensures report.ShowResult? <==> r.Value?
    ensures report == CannotDivide <==> r == Thrown(DivisionPerZero) || r == Thrown(InvalidInput)
    ensures report.ShowMessage? <==> r.Thrown? && r.error.Other?
    ensures report.ShowResult? ==> report.value == r.value
    ensures report.ShowMessage? ==> report.message == r.error.message
  {
    match r
    case Value(v) => ShowResult(v)
    case Thrown(DivisionPerZero) => CannotDivide
    case Thrown(InvalidInput) => CannotDivide
    case Thrown(Other(m)) => ShowMessage(m)
  }

  /** `exceptionRunner` divides 10 by 0 and so prints the division-by-zero message. */
  lemma RunnerTakesDivisionPath()
    ensures Handle(Divide(10, 0)) == CannotDivide
  {
  }

  /** Any non-zero denominator reaches the result branch instead. */
  lemma NonZeroDenominatorShowsResult(numerator: int, denominator: int)
    requires denominator != 0
    ensures Handle(Divide(numerator, denominator)).ShowResult?
  {
  }
}

=== FILE: generics.dfy ===
/** The generic helpers and the first-in-first-out `Queue<T>` of the generics tutorial. */
module Generics {
  import opened Wrappers

  /** `mergeTogether(a:b:)`: the two arguments as a two-element array, in order. */
  function MergeTogether<T>(a: T, b: T): (r: seq<T>)
    ensures |r| == 2 && r[0] == a && r[1] == b
  {
    [a, b]
  }

  /** `createDict(a:b:)`: the single-entry dictionary `[a: b]`. */
  function CreateDict<T, U>(a: T, b: U): (r: map<T, U>)
    ensures r.Keys == {a} && r[a] == b
  {
    map[a := b]
  }

  /**
   `isTheSame(a:b:)`: `T: Equatable` supplies the `==` it calls, which is the
   type's own conformance rather than structural equality; it is the
   parameter `equals`.
   */
  function IsTheSame<T>(a: T, b: T, equals: (T, T) -> bool): bool
  {
    equals(a, b)
  }

  /** What `Equatable` asks of `==`: reflexive, symmetric and transitive. */
  ghost predicate Equivalence<T(!new)>(equals: (T, T) -> bool)
  {
    && (forall x :: equals(x, x))
    && (forall x, y :: equals(x, y) ==> equals(y, x))
    && (forall x, y, z :: equals(x, y) && equals(y, z) ==> equals(x, z))
  }

  /** Given a lawful `==`, `isTheSame` is itself an equivalence. */
  lemma IsTheSameIsEquivalence<T(!new)>(equals: (T, T) -> bool, a: T, b: T, c: T)
    requires Equivalence(equals)
    ensures IsTheSame(a, a, equals)
    ensures IsTheSame(a, b, equals) <==> IsTheSame(b, a, equals)
    ensures IsTheSame(a, b, equals) && IsTheSame(b, c, equals) ==> IsTheSame(a, c, equals)
  {
  }

  /** `Int`'s `==`. */
  function IntEquals(a: int, b: int): bool
  {
    a == b
  }

  /** On `Int`, the only type the runner passes, `isTheSame` is plain equality. */
  lemma IsTheSameOnInt(a: int, b: int)
    ensures IsTheSame(a, b, IntEquals) <==> a == b
    ensures Equivalence(IntEquals)
  {
  }

  /** `Queue<T>`: the private `storage` array, front first. */
  datatype Queue<T> = Queue(storage: seq<T>)

  /** `Queue(head:)`: a queue holding exactly `head`. */
  function NewQueue<T>(head: T): (q: Queue<T>)
    ensures Peek(q) == Some(head)
    ensures Dequeue(q).rest.storage == []
  {
    Queue([head])
  }

  /** `enqueue(_:)`: appends at the back; earlier elements keep their places. */
  function Enqueue<T>(q: Queue<T>, element: T): (r: Queue<T>)
    ensures |r.storage| == |q.storage| + 1
    ensures r.storage[..|q.storage|] == q.storage
    ensures r.storage[|q.storage|] == element
  {
    Queue(q.storage + [element])
  }

  /** `peek()`: the front element, or nil for an empty queue. */
  function Peek<T>(q: Queue<T>): (r: Option<T>)
    ensures r.None? <==> |q.storage| == 0
    ensures r.Some? ==> r.value == q.storage[0]
  {
    if |q.storage| == 0 then None else Some(q.storage[0])
  }

  /** What `dequeue()` returns and the queue it leaves behind. */
  datatype Dequeued<T> = Dequeued(front: Option<T>, rest: Queue<T>)

  /**
   `dequeue()`: removes and returns the front element; an empty queue gives
   nil and stays as it was.
   */
  function Dequeue<T>(q: Queue<T>): (r: Dequeued<T>)
    ensures r.front == Peek(q)
    ensures r.front.None? ==> r.rest == q
    ensures r.front.Some? ==> [r.front.value] + r.rest.storage == q.storage
  {
    if |q.storage| == 0 then Dequeued(None, q)
    else Dequeued(Some(q.storage[0]), Queue(q.storage[1..]))
  }

  /** Enqueues `xs` one by one. */
  function EnqueueAll<T>(q: Queue<T>, xs: seq<T>): Queue<T>
    decreases |xs|
  {
    if |xs| == 0 then q else EnqueueAll(Enqueue(q, xs[0]), xs[1..])
  }

  /** Calls `dequeue()` until it gives nil and collects what it returned. */
  function Drain<T>(q: Queue<T>): seq<T>
    decreases |q.storage|
  {
    var d := Dequeue(q);
    if d.front.None? then [] else [d.front.value] + Drain(d.rest)
  }

  lemma {:induction false} EnqueueAllAppends<T>(q: Queue<T>, xs: seq<T>)
    ensures EnqueueAll(q, xs).storage == q.storage + xs
    decreases |xs|
  {
    if |xs| > 0 {
      EnqueueAllAppends(Enqueue(q, xs[0]), xs[1..]);
      assert q.storage + [xs[0]] + xs[1..] == q.storage + xs;
    }
  }

  lemma {:induction false} DrainYieldsStorage<T>(q: Queue<T>)
    ensures Drain(q) == q.storage
    decreases |q.storage|
  {
    if |q.storage| > 0 {
      DrainYieldsStorage(Dequeue(q).rest);
    }
  }

  /** First in, first out: draining gives back the head and then everything enqueued, in order. */
  lemma Fifo<T>(head: T, xs: seq<T>)
    ensures Drain(EnqueueAll(NewQueue(head), xs)) == [head] + xs
  {
    EnqueueAllAppends(NewQueue(head), xs);
    DrainYieldsStorage(EnqueueAll(NewQueue(head), xs));
  }

  /** Elements joined with `", "`. */
  function Join(parts: seq<string>): string
  {
    if |parts| == 0 then ""
    else if |parts| == 1 then parts[0]
    else parts[0] + ", " + Join(parts[1..])
  }

  /** Joining one more part puts `", "` between the joined parts and it. */
  lemma {:induction false} JoinAppend(parts: seq<string>, p: string)
    requires |parts| > 0
    ensures Join(parts + [p]) == Join(parts) + ", " + p
    decreases |parts|
  {
    if |parts| > 1 {
      assert (parts + [p])[1..] == parts[1..] + [p];
      JoinAppend(parts[1..], p);
    }
  }

  /** A non-empty join starts with its first part. */
  lemma JoinFront(parts: seq<string>)
    ensures |parts| > 0 ==> |parts[0]| <= |Join(parts)| && Join(parts)[..|parts[0]|] == parts[0]
  {
    if |parts| > 1 {
      assert Join(parts) == parts[0] + (", " + Join(parts[1..]));
    }
  }

  /** Each element of the storage rendered with `show`, front first. */
  function Shown<T>(q: Queue<T>, show: T -> string): (r: seq<string>)
    ensures |r| == |q.storage| && forall i :: 0 <= i < |r| ==> r[i] == show(q.storage[i])
  {
    seq(|q.storage|, i requires 0 <= i < |q.storage| => show(q.storage[i]))
  }

  /**
   `description`: each element rendered with `show` (Swift's
   `String(describing:)`), joined with `", "` and wrapped in brackets.
   */
  function Description<T>(q: Queue<T>, show: T -> string): (r: string)
    ensures |r| >= 2 && r[0] == '[' && r[|r| - 1] == ']'
    ensures |q.storage| == 0 ==> r == "[]"
    ensures |q.storage| > 0 ==>
      |show(q.storage[0])| + 2 <= |r| && r[1..|show(q.storage[0])| + 1] == show(q.storage[0])
  {
    var parts := Shown(q, show);
    JoinFront(parts);
    "[" + Join(parts) + "]"
  }

  /**
   Enqueuing onto a non-empty queue extends its description: the closing
   bracket gives way to `", "`, the new element and a new bracket.
   */
  lemma DescriptionEnqueue<T>(q: Queue<T>, element: T, show: T -> string)
    requires |q.storage| > 0
    ensures var d := Description(q, show);
      Description(Enqueue(q, element), show) == d[..|d| - 1] + ", " + show(element) + "]"
  {
    var parts := Shown(q, show);
    assert Shown(Enqueue(q, element), show) == parts + [show(element)];
    JoinAppend(parts, show(element));
    var d := Description(q, show);
    assert d[..|d| - 1] == "[" + Join(parts);
  }

  /** `String(describing:)` on an `Int`: its decimal digits, after a `-` when negative. */
  function Decimal(n: int): string
    decreases if n < 0 then 1 - n else n
  {
    if n < 0 then "-" + Decimal(-n)
    else if n < 10 then ["0123456789"[n]]
    else Decimal(n / 10) + ["0123456789"[n % 10]]
  }

  /** `debugDescription`: the description inside `Queue(...)`. */
  function DebugDescription<T>(q: Queue<T>, show: T -> string): string
  {
    "Queue(" + Description(q, show) + ")"
  }

  /** A fresh queue prints as its head alone in brackets; an emptied one as `[]`. */
  lemma DescriptionOfSingleton<T>(head: T, show: T -> string)
    ensures Description(NewQueue(head), show) == "[" + show(head) + "]"
    ensures DebugDescription(NewQueue(head), show) == "Queue([" + show(head) + "])"
    ensures Description(Dequeue(NewQueue(head)).rest, show) == "[]"
  {
  }

  /**
   The tutorial run: head 10, then 5, 9 and 20 enqueued, printed as
   `[10, 5, 9, 20]`; `dequeue` gives 10, the queue then prints as
   `[5, 9, 20]`, and `peek` gives 5.
   */
  lemma TutorialRun()
    ensures EnqueueAll(NewQueue(10), [5, 9, 20]).storage == [10, 5, 9, 20]
    ensures Description(EnqueueAll(NewQueue(10), [5, 9, 20]), Decimal) == "[10, 5, 9, 20]"
    ensures var d := Dequeue(EnqueueAll(NewQueue(10), [5, 9, 20]));
      d.front == Some(10) && d.rest.storage == [5, 9, 20] && Peek(d.rest) == Some(5)
      && Description(d.rest, Decimal) == "[5, 9, 20]"
    ensures MergeTogether("Ola", "Mundo") == ["Ola", "Mundo"]
    ensures CreateDict("Chave", 10) == map["Chave" := 10]
    ensures IsTheSame(10, 10, IntEquals)
  {
    EnqueueAllAppends(NewQueue(10), [5, 9, 20]);
    QueuesOfTheTutorialPrint();
  }

  /** `[10, 5, 9, 20]` and `[5, 9, 20]` as the tutorial prints them. */
  lemma QueuesOfTheTutorialPrint()
    ensures Description(Queue([10, 5, 9, 20]), Decimal) == "[10, 5, 9, 20]"
    ensures Description(Queue([5, 9, 20]), Decimal) == "[5, 9, 20]"
  {
    DecimalsOfTheTutorial();
    JoinsOfTheTutorial();
    ShownOfTheTutorial();
  }

  lemma ShownOfTheTutorial()
    requires Decimal(10) == "10" && Decimal(5) == "5" && Decimal(9) == "9" && Decimal(20) == "20"
    ensures Shown(Queue([5, 9, 20]), Decimal) == ["5", "9", "20"]
    ensures Shown(Queue([10, 5, 9, 20]), Decimal) == ["10", "5", "9", "20"]
  {
  }

  lemma DecimalsOfTheTutorial()
    ensures Decimal(10) == "10" && Decimal(5) == "5" && Decimal(9) == "9" && Decimal(20) == "20"
  {
    assert Decimal(1) == "1" && Decimal(2) == "2";
  }

  lemma JoinsOfTheTutorial()
    ensures Join(["5", "9", "20"]) == "5, 9, 20"
    ensures Join(["10", "5", "9", "20"]) == "10, 5, 9, 20"
  {
    assert ["20"][1..] == [];
    assert ["9", "20"][1..] == ["20"];
    assert ["5", "9", "20"][1..] == ["9", "20"];
    assert ["10", "5", "9", "20"][1..] == ["5", "9", "20"];
  }
}

=== FILE: group_repository.dfy ===
/**
 `GroupRepository`: add, all, get, partial update and delete over `groups`,
 and the `user_group` junction through `addUser` and `removeUser`.
 */
module GroupRepository {
  import opened Wrappers
  import opened Records
  import opened Persistence
  import Rows

  /** `add(name:description:)`: inserts a group under `id`, the UUID the caller generated. */
  function Add(s: Store, id: Id, name: string, description: Option<string>): (r: Result<Group>)
    ensures r.Ok? <==> id !in s.GroupIds()
    ensures r.Err? ==> r.error == PrimaryKeyViolation
    ensures r.Ok? ==> r.value == Group(id, name, description)
    ensures r.Ok? ==> r.store.GroupIds() == s.GroupIds() + {id}
    ensures r.Ok? ==> r.store.(groups := s.groups) == s
  {
    var row := Group(id, name, description);
    if id in s.GroupIds() then Err(PrimaryKeyViolation)
    else
      Rows.KeysAppend(s.groups, GroupKey, row);
      Ok(row, s.(groups := s.groups + [row]))
  }

  /** `all()`: every group, in table order. */
  function All(s: Store): seq<Group>
  {
    s.groups
  }

  /** `get(by:)`: the group with that id, or nil. */
  function Get(s: Store, id: Id): (r: Option<Group>)
    ensures r.Some? ==> r.value in s.groups && r.value.id == id
    ensures r.None? <==> id !in s.GroupIds()
  {
    Rows.Find(s.groups, GroupKey, id)
  }

  /**
   `update(_:name:description:)`: a nil argument keeps the copy's value, so
   `descriptions` can be changed but never cleared. The whole copy is written
   over the row with its id; a missing row is record-not-found.
   */
  function Update(s: Store, copy: Group, name: Option<string>, description: Option<string>): (r: Updated<Group>)
    ensures r.copy.id == copy.id
    ensures r.copy.name == if name.Some? then name.value else copy.name
    ensures r.copy.descriptions == if description.Some? then description else copy.descriptions
    ensures r.write.Ok? <==> copy.id in s.GroupIds()
    ensures r.write.Err? ==> r.write.error == RecordNotFound
    ensures r.write.Ok? ==> r.write.store.GroupIds() == s.GroupIds()
    ensures r.write.Ok? ==> r.write.store.(groups := s.groups) == s
  {
    var patched := copy.(name := name.GetOr(copy.name),
                         descriptions := if description.Some? then description else copy.descriptions);
    if copy.id !in s.GroupIds() then Updated(patched, Err(RecordNotFound))
    else
      Rows.ReplaceKeys(s.groups, GroupKey, patched);
      Updated(patched, Ok((), s.(groups := Rows.Replace(s.groups, GroupKey, patched))))
  }

  /**
   `delete(_:)`: removes the group with the copy's id and reports whether one
   was removed. ON DELETE CASCADE removes exactly the `user_group` rows of that
   group; users and vehicles are untouched.
   */
  function Delete(s: Store, copy: Group): (r: Result<bool>)
    ensures r.Ok?
    ensures r.value <==> copy.id in s.GroupIds()
    ensures r.store.GroupIds() == s.GroupIds() - {copy.id}
    ensures forall g :: g in r.store.groups <==> g in s.groups && g.id != copy.id
    ensures forall m :: m in r.store.memberships <==> m in s.memberships && m.groupId != copy.id
    ensures r.store.settings == s.settings && r.store.users == s.users && r.store.vehicles == s.vehicles
  {
    var keep := (g: Group) => g.id != copy.id;
    Rows.KeysWithout(s.groups, GroupKey, keep, copy.id);
    Ok(copy.id in s.GroupIds(),
       s.(groups := Rows.Filter(s.groups, keep),
          memberships := set m | m in s.memberships && m.groupId != copy.id))
  }

  /**
   `addUser(_:to:)`: inserts the (userId, groupId) row. The pair is the primary
   key, so a second insert of it fails; both ids must name existing rows.
   */
  function AddUser(s: Store, user: User, group: Group): (r: Result<()>)
    ensures r.Ok? <==>
      UserGroup(user.id, group.id) !in s.memberships && user.id in s.UserIds() && group.id in s.GroupIds()
    ensures r.Err? && UserGroup(user.id, group.id) in s.memberships ==> r.error == PrimaryKeyViolation
    ensures r.Err? && UserGroup(user.id, group.id) !in s.memberships ==> r.error == ForeignKeyViolation
    ensures r.Ok? ==> r.store.memberships == s.memberships + {UserGroup(user.id, group.id)}
    ensures r.Ok? ==> r.store.(memberships := s.memberships) == s
  {
    var pair := UserGroup(user.id, group.id);
    if pair in s.memberships then Err(PrimaryKeyViolation)
    else if user.id !in s.UserIds() || group.id !in s.GroupIds() then Err(ForeignKeyViolation)
    else Ok((), s.(memberships := s.memberships + {pair}))
  }

  /**
   `removeUser(_:from:)`: `DELETE FROM user_group WHERE userId = ? AND groupId = ?`;
   it removes only the matching pair and succeeds when there is none.
   */
  function RemoveUser(s: Store, user: User, group: Group): (r: Result<()>)
    ensures r.Ok?
    ensures r.store.memberships == s.memberships - {UserGroup(user.id, group.id)}
    ensures UserGroup(user.id, group.id) !in s.memberships ==> r.store == s
    ensures r.store.(memberships := s.memberships) == s
  {
    Ok((), s.(memberships := set m | m in s.memberships && !(m.userId == user.id && m.groupId == group.id)))
  }

  /** A successful add keeps the store valid and the group reads back by id. */
  lemma AddValid(s: Store, id: Id, name: string, description: Option<string>)
    requires Valid(s)
    requires Add(s, id, name, description).Ok?
    ensures Valid(Add(s, id, name, description).store)
    ensures Get(Add(s, id, name, description).store, id) == Some(Group(id, name, description))
  {
    var r := Add(s, id, name, description);
    Rows.AppendUnique(s.groups, GroupKey, r.value);
    Rows.FindMember(r.store.groups, GroupKey, r.value);
  }

  /** `all()` and `get(by:)` agree: a group is listed exactly when looking up its id finds it. */
  lemma AllMatchesGet(s: Store, g: Group)
    requires Valid(s)
    ensures g in All(s) <==> Get(s, g.id) == Some(g)
  {
    if g in s.groups {
      Rows.FindMember(s.groups, GroupKey, g);
    }
  }

  /** A successful update keeps the store valid, `get` then returns the patched copy, and other groups read as before. */
  lemma UpdateValid(s: Store, copy: Group, name: Option<string>, description: Option<string>, other: Id)
    requires Valid(s)
    requires Update(s, copy, name, description).write.Ok?
    ensures Valid(Update(s, copy, name, description).write.store)
    ensures Get(Update(s, copy, name, description).write.store, copy.id) == Some(Update(s, copy, name, description).copy)
    ensures other != copy.id ==> Get(Update(s, copy, name, description).write.store, other) == Get(s, other)
  {
    var r := Update(s, copy, name, description);
    Rows.ReplaceKeys(s.groups, GroupKey, r.copy);
    Rows.FindAfterReplace(s.groups, GroupKey, r.copy, copy.id);
    Rows.FindAfterReplace(s.groups, GroupKey, r.copy, other);
  }

  /** Once a copy has a description, no update can take it away, whatever the write's outcome. */
  lemma DescriptionNeverCleared(s: Store, copy: Group, name: Option<string>, description: Option<string>)
    requires copy.descriptions.Some?
    ensures Update(s, copy, name, description).copy.descriptions.Some?
  {
  }

  /** Deleting a group keeps the store valid. */
  lemma DeleteValid(s: Store, copy: Group)
    requires Valid(s)
    ensures Valid(Delete(s, copy).store)
  {
    Rows.FilterUnique(s.groups, GroupKey, (g: Group) => g.id != copy.id);
  }

  /** `addUser` keeps the store valid; a second `addUser` of the same pair fails with the pair stored once. */
  lemma AddUserValid(s: Store, user: User, group: Group)
    requires Valid(s)
    requires AddUser(s, user, group).Ok?
    ensures Valid(AddUser(s, user, group).store)
    ensures AddUser(AddUser(s, user, group).store, user, group) == Err(PrimaryKeyViolation)
  {
  }

  /** `removeUser` keeps the store valid, and undoes an `addUser` of the same pair. */
  lemma RemoveUserUndoesAddUser(s: Store, user: User, group: Group)
    requires Valid(s)
    requires AddUser(s, user, group).Ok?
    ensures Valid(RemoveUser(s, user, group).store)
    ensures RemoveUser(AddUser(s, user, group).store, user, group) == Ok((), s)
  {
  }
}

=== FILE: identified_user.dfy ===
/**
 The `User` struct of the extensions tutorial, whose `Equatable`,
 `Comparable`, `Hashable` and string conformances all look at the id alone.
 */
module IdentifiedUser {

  datatype User = User(id: int, name: string)

  /** `==`: same id, names ignored. */
  predicate Eq(a: User, b: User)
  {
    a.id == b.id
  }

  /** `!=`, written out separately in the source. */
  predicate Ne(a: User, b: User)
  {
    a.id != b.id
  }

  predicate Lt(a: User, b: User) { a.id < b.id }
  predicate Gt(a: User, b: User) { a.id > b.id }
  predicate Le(a: User, b: User) { a.id <= b.id }
  predicate Ge(a: User, b: User) { a.id >= b.id }

  /**
   `hash(into:)` feeds only the id to the hasher. The hasher itself (Swift's
   seeded `Hasher`, combined and finalised) is the parameter `hasher`.
   */
  function Hash(u: User, hasher: int -> int): int
  {
    hasher(u.id)
  }

  /** `description`: the name. */
  function Description(u: User): string
  {
    u.name
  }

  /** `debugDescription`: the description inside `User(...)`. */
  function DebugDescription(u: User): (r: string)
    ensures |r| == |u.name| + 6
    ensures r[..5] == "User(" && r[5..|r| - 1] == Description(u) && r[|r| - 1] == ')'
  {
    "User(" + Description(u) + ")"
  }

  /** `!=` is the negation of `==`, and `==` is an equivalence that ignores names. */
  lemma EqualityByIdOnly(a: User, b: User, c: User)
    ensures Ne(a, b) <==> !Eq(a, b)
    ensures Eq(a, a)
    ensures Eq(a, b) ==> Eq(b, a)
    ensures Eq(a, b) && Eq(b, c) ==> Eq(a, c)
    ensures Eq(a, a.(name := b.name))
  {
  }

  /** The orderings compare ids: a total order whose ties are exactly the `==` users. */
  lemma OrderingByIdOnly(a: User, b: User)
    ensures Le(a, b) && Le(b, a) <==> Eq(a, b)
    ensures Lt(a, b) <==> !Ge(a, b)
    ensures Gt(a, b) <==> Lt(b, a)
    ensures Le(a, b) <==> Lt(a, b) || Eq(a, b)
    ensures Lt(a, b) || Eq(a, b) || Gt(a, b)
  {
  }

  /**
   `Hashable` agrees with `Equatable` whatever the hasher: equal users hash
   alike, and renaming a user never changes its hash.
   */
  lemma HashAgreesWithEquality(a: User, b: User, hasher: int -> int, name: string)
    ensures Eq(a, b) ==> Hash(a, hasher) == Hash(b, hasher)
    ensures Hash(a.(name := name), hasher) == Hash(a, hasher)
  {
  }

  /** The converse does not hold: a hasher may give users that are not `==` the same hash. */
  lemma HashMayCollide()
    ensures var hasher := (id: int) => id % 2;
      !Eq(User(1, "a"), User(3, "b")) && Hash(User(1, "a"), hasher) == Hash(User(3, "b"), hasher)
  {
  }

  /** The distinct ids among `users`. */
  function Ids(users: seq<User>): set<int>
  {
    set u | u in users :: u.id
  }

  lemma IdsAppend(users: seq<User>, u: User)
    ensures Ids(users + [u]) == Ids(users) + {u.id}
  {
    assert forall x :: x in users + [u] <==> x in users || x == u;
  }

  /**
   `Set<User>(users)`: inserts in order, and an insert is a no-op when an
   `==` member is already present, so the first user of each id stays.
   */
  function SetOf(users: seq<User>): (r: seq<User>)
    ensures forall i, j :: 0 <= i < j < |r| ==> !Eq(r[i], r[j])
    ensures forall u :: u in r ==> u in users
    ensures Ids(r) == Ids(users)
    decreases |users|
  {
    if |users| == 0 then []
    else
      var init := users[..|users| - 1];
      var last := users[|users| - 1];
      assert users == init + [last];
      IdsAppend(init, last);
      var prefix := SetOf(init);
      if last.id in Ids(prefix) then prefix
      else
        IdsAppend(prefix, last);
        prefix + [last]
  }

  /** A set's count is the number of distinct ids it was built from. */
  lemma SetCountIsDistinctIds(users: seq<User>)
    ensures |SetOf(users)| == |Ids(users)|
  {
    DistinctIdsCount(SetOf(users));
  }

  lemma {:induction false} DistinctIdsCount(r: seq<User>)
    requires forall i, j :: 0 <= i < j < |r| ==> !Eq(r[i], r[j])
    ensures |Ids(r)| == |r|
    decreases |r|
  {
    if |r| > 0 {
      var init := r[..|r| - 1];
      DistinctIdsCount(init);
      assert r == init + [r[|r| - 1]];
      IdsAppend(init, r[|r| - 1]);
      assert r[|r| - 1].id !in Ids(init) by {
        forall u | u in init ensures u.id != r[|r| - 1].id {
          var i :| 0 <= i < |init| && init[i] == u;
          assert !Eq(r[i], r[|r| - 1]);
        }
      }
    }
  }

  /**
   The tutorial's two users share id 1: `==` holds, `!=` fails, `<` and `>`
   fail, `<=` and `>=` hold, the set keeps one of them, and the debug string
   is `User(Usuario 02)`.
   */
  lemma TutorialRun()
    ensures var user1 := User(1, "Usuario 01");
      var user2 := User(1, "Usuario 02");
      && Eq(user1, user2) && !Ne(user1, user2)
      && !Gt(user1, user2) && !Lt(user1, user2) && Ge(user1, user2) && Le(user1, user2)
      && Description(user1) == "Usuario 01"
      && DebugDescription(user2) == "User(Usuario 02)"
      && SetOf([user1, user2]) == [user1]
  {
    var user1 := User(1, "Usuario 01");
    var user2 := User(1, "Usuario 02");
    assert [user1, user2][..1] == [user1];
    assert [user1][..0] == [];
    assert SetOf([user1]) == [user1];
    assert user2.id in Ids([user1]);
  }
}

=== FILE: loops.dfy ===
/**
 The loops tutorial. Each loop is a method whose outputs are what the loop
 body prints, so the contracts say which iterations run.
 */
module Loops {

  /** The indices `LoopRange` prints from `lo` up to, not including, `hi`: all but 3. */
  function Printed(lo: int, hi: int): seq<int>
    decreases hi - lo
  {
    if hi <= lo then [] else Printed(lo, hi - 1) + (if hi - 1 == 3 then [] else [hi - 1])
  }

  lemma {:induction false} PrintedMembers(lo: int, hi: int)
    ensures forall x :: x in Printed(lo, hi) <==> lo <= x < hi && x != 3
    ensures forall i, j :: 0 <= i < j < |Printed(lo, hi)| ==> Printed(lo, hi)[i] < Printed(lo, hi)[j]
    decreases hi - lo
  {
    if lo < hi {
      PrintedMembers(lo, hi - 1);
      var init := Printed(lo, hi - 1);
      var all := Printed(lo, hi);
      forall i, j | 0 <= i < j < |all|
        ensures all[i] < all[j]
      {
        if j >= |init| {
          assert all[i] == init[i] && init[i] in init;
        }
      }
    }
  }

  /**
   `LoopRange`: `for index in start...10` skips 3 and breaks once the index
   passes 5; then `for _ in start..<end` greets once per element. Swift traps
   on a range whose bounds are reversed, so those are excluded.
   */
  method LoopRange(start: int, end: int) returns (visited: seq<int>, greetings: nat)
    requires start <= 10 && start <= end
    ensures forall x :: x in visited <==> start <= x <= 5 && x != 3
    ensures forall i, j :: 0 <= i < j < |visited| ==> visited[i] < visited[j]
    ensures start == 1 ==> visited == [1, 2, 4, 5]
    ensures greetings == end - start
  {
    visited := [];
    var index := start;
    while index <= 10
      invariant start <= index <= 11
      invariant index <= 6 || index == start
      invariant visited == Printed(start, index)
      decreases 10 - index
    {
      if index == 3 {
        index := index + 1;
        continue;
      }
      if index > 5 {
        break;
      }
      visited := visited + [index];
      index := index + 1;
    }
    PrintedMembers(start, index);
    assert start == 1 ==> Printed(start, index) == [1, 2, 4, 5] by {
      if start == 1 {
        assert index == 6;
      }
    }
    greetings := 0;
    var i := start;
    while i < end
      invariant start <= i <= end
      invariant greetings == i - start
    {
      greetings := greetings + 1;
      i := i + 1;
    }
  }

  /** `LoopWhile`: prints `i=0`, `i=1`, `i=2` and stops with the index at 3. */
  method LoopWhile() returns (visited: seq<int>, index: int)
    ensures visited == [0, 1, 2] && index == 3
  {
    visited := [];
    index := 0;
    while index < 3
      invariant 0 <= index <= 3
      invariant |visited| == index
      invariant forall k :: 0 <= k < index ==> visited[k] == k
    {
      visited := visited + [index];
      index := index + 1;
    }
  }

  /** `LoopMatrix`: fills a 3 x 3 matrix of zeros with `line * 3 + column`. */
  method LoopMatrix() returns (matrix: seq<seq<int>>)
    ensures |matrix| == 3
    ensures forall l :: 0 <= l < 3 ==> |matrix[l]| == 3
    ensures forall l, c :: 0 <= l < 3 && 0 <= c < 3 ==> matrix[l][c] == l * 3 + c
  {
    matrix := seq(3, _ => seq(3, _ => 0));
    var line := 0;
    while line < 3
      invariant 0 <= line <= 3
      invariant |matrix| == 3 && forall l :: 0 <= l < 3 ==> |matrix[l]| == 3
      invariant forall l, c :: 0 <= l < line && 0 <= c < 3 ==> matrix[l][c] == l * 3 + c
    {
      var column := 0;
      while column < 3
        invariant 0 <= column <= 3
        invariant |matrix| == 3 && forall l :: 0 <= l < 3 ==> |matrix[l]| == 3
        invariant forall l, c :: 0 <= l < line && 0 <= c < 3 ==> matrix[l][c] == l * 3 + c
        invariant forall c :: 0 <= c < column ==> matrix[line][c] == line * 3 + c
      {
        matrix := matrix[line := matrix[line][column := line * 3 + column]];
        column := column + 1;
      }
      line := line + 1;
    }
  }

  /**
   `LoopWhere`: the dictionary is visited in an unspecified order, and the
   `where` clause keeps only the entry whose key is `wanted`.
   */
  method LoopWhere(contacts: map<string, int>, wanted: string) returns (visited: seq<(string, int)>)
    ensures wanted in contacts ==> visited == [(wanted, contacts[wanted])]
    ensures wanted !in contacts ==> visited == []
  {
    visited := [];
    var remaining := contacts.Keys;
    while remaining != {}
      invariant remaining <= contacts.Keys
      invariant wanted in contacts && wanted in remaining ==> visited == []
      invariant wanted in contacts && wanted !in remaining ==> visited == [(wanted, contacts[wanted])]
      invariant wanted !in contacts ==> visited == []
      decreases |remaining|
    {
      var key :| key in remaining;
      if key == wanted {
        visited := visited + [(key, contacts[key])];
      }
      remaining := remaining - {key};
    }
  }

  /** `LoopDict`: every entry is printed exactly once, in some order. */
  method LoopDict(contacts: map<string, int>) returns (visited: seq<(string, int)>)
    ensures |visited| == |contacts|
    ensures forall k :: k in contacts ==> (k, contacts[k]) in visited
    ensures forall e :: e in visited ==> e.0 in contacts && contacts[e.0] == e.1
  {
    visited := [];
    var remaining := contacts.Keys;
    while remaining != {}
      invariant remaining <= contacts.Keys
      invariant |visited| + |remaining| == |contacts|
      invariant forall k :: k in contacts && k !in remaining ==> (k, contacts[k]) in visited
      invariant forall e :: e in visited ==> e.0 in contacts && e.0 !in remaining && contacts[e.0] == e.1
      decreases |remaining|
    {
      var key :| key in remaining;
      visited := visited + [(key, contacts[key])];
      remaining := remaining - {key};
    }
  }

  /** The tutorial's contacts. */
  const Contacts: map<string, int> := map["Adam" := 123456, "James" := 987654, "Amy" := 777777]

  /** The tutorial's `where contact.key == "James"` prints only James's entry. */
  method LoopWhereRun() returns (visited: seq<(string, int)>)
    ensures visited == [("James", 987654)]
  {
    visited := LoopWhere(Contacts, "James");
  }

  /** `LoopSet`: the set literal with repeated "banana"s holds three fruits. */
  lemma SetLiteralDropsDuplicates()
    ensures |{"pera", "banana", "banana", "banana", "abacate"}| == 3
  {
    assert {"pera", "banana", "banana", "banana", "abacate"} == {"pera", "banana", "abacate"};
    assert "pera" != "banana" && "banana" != "abacate" && "pera" != "abacate";
  }
}

=== FILE: migrations.dfy ===
/**
 The migrator `DatabaseManager` runs when it opens the database: named steps,
 each run at most once, with the names of the steps already run kept in the
 database's bookkeeping table.
 */
module Migrations {
  import opened Wrappers
  import opened Persistence

  /** A database file: the applied step names, in the order they ran, and the schema tables once created. */
  datatype Database = Database(applied: seq<string>, tables: Option<Store>)

  /** A database file that was just created. */
  const Fresh: Database := Database([], None)

  datatype StepResult = Done(tables: Store) | StepFailed

  /** A registered migration: its stable name and its body. */
  datatype Step = Step(name: string, body: Option<Store> -> StepResult)

  /** The body of `createTables`: CREATE TABLE fails when the tables already exist. */
  function CreateTables(tables: Option<Store>): (r: StepResult)
    ensures tables.None? <==> r.Done?
    ensures r.Done? ==> r.tables == Empty && Valid(r.tables)
  {
    EmptyValid();
    if tables.None? then Done(Empty) else StepFailed
  }

  /** The migrator as registered: one step, `createTables`. */
  const Registered: seq<Step> := [Step("createTables", CreateTables)]

  datatype Outcome = Migrated(db: Database) | MigrationFailed(step: string)

  /**
   `migrate`: runs, in registration order, every step whose name is not yet
   recorded, recording each name after its body succeeds; the first failing
   body stops the migration.
   */
  function Migrate(db: Database, steps: seq<Step>): (r: Outcome)
    ensures r.Migrated? ==> forall i :: 0 <= i < |steps| ==> steps[i].name in r.db.applied
    ensures r.Migrated? ==> db.applied <= r.db.applied
    ensures r.Migrated? && (forall i :: 0 <= i < |steps| ==> steps[i].name in db.applied) ==> r.db == db
    ensures r.MigrationFailed? ==> exists i :: 0 <= i < |steps| && steps[i].name == r.step && r.step !in db.applied
    decreases |steps|
  {
    if |steps| == 0 then Migrated(db)
    else if steps[0].name in db.applied then Migrate(db, steps[1..])
    else
      match steps[0].body(db.tables)
      case StepFailed => MigrationFailed(steps[0].name)
      case Done(t) =>
        var next := Database(db.applied + [steps[0].name], Some(t));
        var r := Migrate(next, steps[1..]);
        assert r.Migrated? ==> r.db.applied[|db.applied|] == steps[0].name;
        r
  }

  /** When every step is already recorded, migrating changes nothing. */
  lemma {:induction false} AllAppliedIsNoop(db: Database, steps: seq<Step>)
    requires forall i :: 0 <= i < |steps| ==> steps[i].name in db.applied
    ensures Migrate(db, steps) == Migrated(db)
    decreases |steps|
  {
    if |steps| > 0 {
      AllAppliedIsNoop(db, steps[1..]);
    }
  }

  /** Running the migrator a second time is a no-op and raises no error. */
  lemma MigrateIdempotent(db: Database, steps: seq<Step>)
    requires Migrate(db, steps).Migrated?
    ensures Migrate(Migrate(db, steps).db, steps) == Migrate(db, steps)
  {
    AllAppliedIsNoop(Migrate(db, steps).db, steps);
  }

  /** On a new file the migrator creates the empty, valid tables and records `createTables`. */
  lemma FreshDatabase()
    ensures Migrate(Fresh, Registered) == Migrated(Database(["createTables"], Some(Empty)))
  {
    assert Fresh.applied + ["createTables"] == ["createTables"];
  }

  /** On a later launch the stored rows survive: the recorded step is skipped. */
  lemma RelaunchKeepsData(s: Store)
    ensures Migrate(Database(["createTables"], Some(s)), Registered) == Migrated(Database(["createTables"], Some(s)))
  {
  }

  /** Tables present without their step recorded make `createTables` fail, which the manager treats as fatal. */
  lemma UnrecordedTablesFail(s: Store)
    ensures Migrate(Database([], Some(s)), Registered) == MigrationFailed("createTables")
  {
  }
}

=== FILE: persistence.dfy ===
/**
 The relational store that the migration `createTables` declares: four entity
 tables with text primary keys and the `user_group` junction table, with
 foreign-key enforcement switched on.
 */
module Persistence {
  import opened Wrappers
  import opened Records
  import Rows

  /**
   The store. Entity tables are kept in rowid order; the junction table has no
   read operation, so it is the set of its (userId, groupId) rows.
   */
  datatype Store = Store(
    settings: seq<Settings>,
    users: seq<User>,
    vehicles: seq<Vehicle>,
    groups: seq<Group>,
    memberships: set<UserGroup>)
  {
    function SettingsIds(): set<Id> { Rows.Keys(settings, SettingsKey) }
    function UserIds(): set<Id> { Rows.Keys(users, UserKey) }
    function VehicleIds(): set<Id> { Rows.Keys(vehicles, VehicleKey) }
    function GroupIds(): set<Id> { Rows.Keys(groups, GroupKey) }
  }

  /** The store right after `createTables`: every table exists and is empty. */
  const Empty: Store := Store([], [], [], [], {})

  /**
   The errors a repository write surfaces: a constraint failure raised by the
   engine (a foreign key naming no row, a primary key already taken) or
   GRDB's record-not-found error from `update`.
   */
  datatype DbError = ForeignKeyViolation | PrimaryKeyViolation | RecordNotFound

  /** The outcome of a write: a value and the store after it, or an error and no change. */
  datatype Result<T> = Ok(value: T, store: Store) | Err(error: DbError)

  /**
   The outcome of an `update` whose record parameter is `inout`: the caller's
   copy as patched (it is patched before the write runs, so it changes even
   when the write fails) and the write's outcome.
   */
  datatype Updated<R> = Updated(copy: R, write: Result<()>)

  /** Every table's primary key identifies at most one row. */
  predicate KeysUnique(s: Store)
  {
    && Rows.Unique(s.settings, SettingsKey)
    && Rows.Unique(s.users, UserKey)
    && Rows.Unique(s.vehicles, VehicleKey)
    && Rows.Unique(s.groups, GroupKey)
  }

  /** `users.settingsId` is NULL or names a settings row. */
  predicate SettingsRefsResolve(s: Store)
  {
    forall u :: u in s.users && u.settingsId.Some? ==> u.settingsId.value in s.SettingsIds()
  }

  /** `vehicles.ownerId` names a user row. */
  predicate OwnerRefsResolve(s: Store)
  {
    forall v :: v in s.vehicles ==> v.ownerId in s.UserIds()
  }

  /** Both columns of every `user_group` row name existing rows. */
  predicate MembershipRefsResolve(s: Store)
  {
    forall m :: m in s.memberships ==> m.userId in s.UserIds() && m.groupId in s.GroupIds()
  }

  /** The integrity the schema enforces: unique keys and resolving foreign keys. */
  predicate Valid(s: Store)
  {
    && KeysUnique(s)
    && SettingsRefsResolve(s)
    && OwnerRefsResolve(s)
    && MembershipRefsResolve(s)
  }

  /** The freshly migrated store satisfies the schema's constraints. */
  lemma EmptyValid()
    ensures Valid(Empty)
  {
  }
}

=== FILE: pizza.dfy ===
/**
 `PizzaCalculator`: a computed `pizzasNeeded` whose setter records the
 leftover slices, and a `lazy` waste flag read from them.
 */
module Pizza {
  import opened Wrappers

  /**
   The ceiling of the rational `t / b`. It is the value of
   `Int(ceil(Double(t) / Double(b)))` when `t` and `b` lie within ±2^53; above
   that the `Double` quotient can round past the integers around it.
   */
  function CeilDiv(t: int, b: int): (r: int)
    requires b != 0
    ensures b > 0 ==> (r - 1) * b < t <= r * b
    ensures b < 0 ==> r * b <= t < (r - 1) * b
  {
    if b > 0 then
      var q := (-t) / b;
      assert -t == q * b + (-t) % b;
      -q
    else
      var q := t / (-b);
      assert t == q * (-b) + t % (-b);
      -q
  }

  /**
   The struct's stored state: the observed `leftoverSlices`, the `lazy`
   waste flag once it has been read, and the three constants.
   */
  datatype Calculator = Calculator(
    leftoverSlices: int,
    wasteCache: Option<bool>,
    slicesPerPizza: int,
    numberOfPeople: int,
    slicesPerPerson: int)

  /** The memberwise initializer: no leftovers yet and the waste flag not yet read. */
  function NewCalculator(slicesPerPizza: int, numberOfPeople: int, slicesPerPerson: int): (c: Calculator)
    ensures c.leftoverSlices == 0 && c.wasteCache.None?
    ensures c.slicesPerPizza == slicesPerPizza && c.numberOfPeople == numberOfPeople
    ensures c.slicesPerPerson == slicesPerPerson
  {
    Calculator(0, None, slicesPerPizza, numberOfPeople, slicesPerPerson)
  }

  /** Slices the party eats. */
  function TotalNeeded(c: Calculator): int
  {
    c.numberOfPeople * c.slicesPerPerson
  }

  /**
   The `pizzasNeeded` getter: the fewest whole pizzas holding `TotalNeeded`.
   A zero `slicesPerPizza` makes the double an infinity or NaN, which `Int(_)`
   traps on, so it is excluded.
   */
  function PizzasNeeded(c: Calculator): (p: int)
    requires c.slicesPerPizza != 0
    ensures c.slicesPerPizza > 0 ==> p * c.slicesPerPizza >= TotalNeeded(c)
    ensures c.slicesPerPizza > 0 ==> (p - 1) * c.slicesPerPizza < TotalNeeded(c)
  {
    CeilDiv(TotalNeeded(c), c.slicesPerPizza)
  }

  /**
   The `pizzasNeeded` setter: `p` pizzas leave `p * slicesPerPizza` slices
   minus what is eaten. Only `leftoverSlices` changes.
   */
  function SetPizzasNeeded(c: Calculator, p: int): (r: Calculator)
    ensures r.leftoverSlices + TotalNeeded(c) == p * c.slicesPerPizza
    ensures r.(leftoverSlices := c.leftoverSlices) == c
  {
    c.(leftoverSlices := p * c.slicesPerPizza - TotalNeeded(c))
  }

  /** A read of `temDesperdicio` and the calculator after it. */
  datatype Read = Read(value: bool, after: Calculator)

  /**
   `lazy var temDesperdicio`: the first read computes `leftoverSlices > 0` and
   stores it; later reads return the stored value even if the leftovers have
   changed since.
   */
  function TemDesperdicio(c: Calculator): (r: Read)
    ensures c.wasteCache.Some? ==> r == Read(c.wasteCache.value, c)
    ensures c.wasteCache.None? ==> (r.value <==> c.leftoverSlices > 0)
    ensures r.after.wasteCache == Some(r.value)
    ensures r.after.(wasteCache := c.wasteCache) == c
  {
    match c.wasteCache
    case Some(w) => Read(w, c)
    case None =>
      var w := c.leftoverSlices > 0;
      Read(w, c.(wasteCache := Some(w)))
  }

  /** What `printResults()` shows: the pizzas, the leftovers its setter call records, and the waste flag. */
  datatype Printed = Printed(pizzas: int, leftover: int, waste: bool)

  /** `printResults()`: reads the getter, feeds the value back to the setter on a copy, then reads the lazy flag. */
  function PrintResults(c: Calculator): Printed
    requires c.slicesPerPizza != 0
  {
    var pizzas := PizzasNeeded(c);
    var mutableSelf := SetPizzasNeeded(c, pizzas);
    var read := TemDesperdicio(mutableSelf);
    Printed(pizzas, mutableSelf.leftoverSlices, read.value)
  }

  /** Setting the computed value back leaves fewer leftovers than one more pizza would add. */
  lemma LeftoverBelowOnePizza(c: Calculator)
    requires c.slicesPerPizza > 0
    ensures var r := SetPizzasNeeded(c, PizzasNeeded(c));
      0 <= r.leftoverSlices < c.slicesPerPizza
  {
  }

  /** With a negative pizza size the leftover lies on the other side of zero. */
  lemma LeftoverWithNegativeSize(c: Calculator)
    requires c.slicesPerPizza < 0
    ensures var r := SetPizzasNeeded(c, PizzasNeeded(c));
      c.slicesPerPizza < r.leftoverSlices <= 0
  {
    var b := c.slicesPerPizza;
    var p := PizzasNeeded(c);
    assert p * b <= TotalNeeded(c) < (p - 1) * b;
    assert (p - 1) * b == p * b - b;
  }

  /** A fresh calculator's first read of the flag says exactly whether slices are left over. */
  lemma WasteIffLeftover(c: Calculator)
    requires c.slicesPerPizza != 0
    requires c.wasteCache.None?
    ensures PrintResults(c).waste <==> PrintResults(c).leftover > 0
  {
  }

  /** Once read, the lazy flag no longer follows the leftovers. */
  lemma LazyFlagIsSticky(c: Calculator, p: int)
    requires c.wasteCache.None? && c.leftoverSlices > 0
    requires SetPizzasNeeded(TemDesperdicio(c).after, p).leftoverSlices <= 0
    ensures TemDesperdicio(SetPizzasNeeded(TemDesperdicio(c).after, p)).value
  {
  }

  /** The defaults, 8 slices per pizza and 5 people eating 3 each: 2 pizzas, 1 slice left, waste. */
  lemma DefaultRun()
    ensures PrintResults(NewCalculator(8, 5, 3)) == Printed(2, 1, true)
  {
    var c := NewCalculator(8, 5, 3);
    assert TotalNeeded(c) == 15;
    assert PizzasNeeded(c) == 2;
  }
}

=== FILE: records.dfy ===
/**
 The record structs of the relational store: one datatype per table row.
 Identifiers are the UUID strings the application generates.
 */
module Records {
  import opened Wrappers

  type Id = string

  /** A row of `settings`: `volume` is NOT NULL DEFAULT 0, `lang` is nullable. */
  datatype Settings = Settings(id: Id, volume: int, lang: Option<string>)

  /** A row of `users`: `settingsId` is a nullable reference to `settings`. */
  datatype User = User(id: Id, name: string, document: string, settingsId: Option<Id>)

  /** A row of `vehicles`: `ownerId` is a NOT NULL reference to `users`. */
  datatype Vehicle = Vehicle(id: Id, licensePlate: string, model: string, manufacture: string, year: int, ownerId: Id)

  /** A row of `groups`: `descriptions` is nullable. */
  datatype Group = Group(id: Id, name: string, descriptions: Option<string>)

  /** A row of the `user_group` junction table; the pair is its primary key. */
  datatype UserGroup = UserGroup(userId: Id, groupId: Id)

  function SettingsKey(x: Settings): Id { x.id }
  function UserKey(x: User): Id { x.id }
  function VehicleKey(x: Vehicle): Id { x.id }
  function GroupKey(x: Group): Id { x.id }

  /** The `name` column, the sort key of the user search. */
  function UserName(x: User): string { x.name }
}

=== FILE: referential.dfy ===
/**
 What the foreign keys declared by `createTables` promise across tables:
 the cascades and the set-null of each delete, and that no sequence of
 repository calls can leave a reference dangling.
 */
module Referential {
  import opened Wrappers
  import opened Records
  import opened Persistence
  import Rows
  import SettingsRepository
  import UserRepository
  import VehicleRepository
  import GroupRepository

  /**
   Deleting a user (vehicles.ownerId and user_group.userId are ON DELETE
   CASCADE): the user can no longer be read, none of its vehicles or
   memberships remain, and every other user reads and owns exactly what it
   did before.
   */
  lemma DeleteUserCascades(s: Store, u: User, other: User)
    requires Valid(s)
    ensures UserRepository.Get(UserRepository.Delete(s, u).store, u.id).None?
    ensures VehicleRepository.AllBy(UserRepository.Delete(s, u).store, u) == []
    ensures forall m :: m in UserRepository.Delete(s, u).store.memberships ==> m.userId != u.id
    ensures other.id != u.id ==>
      && UserRepository.Get(UserRepository.Delete(s, u).store, other.id) == UserRepository.Get(s, other.id)
      && VehicleRepository.AllBy(UserRepository.Delete(s, u).store, other) == VehicleRepository.AllBy(s, other)
      && (forall g :: UserGroup(other.id, g) in UserRepository.Delete(s, u).store.memberships
                  <==> UserGroup(other.id, g) in s.memberships)
  {
    var t := UserRepository.Delete(s, u).store;
    var mine := VehicleRepository.AllBy(t, u);
    assert multiset(mine) == multiset{} by {
      forall v: Vehicle ensures multiset(mine)[v] == 0 {
        if v.ownerId == u.id {
          assert v !in t.vehicles;
        }
      }
    }
    assert |mine| == |multiset(mine)|;
    if other.id != u.id {
      Rows.FindAfterFilter(s.users, UserKey, (x: User) => x.id != u.id, other.id);
      Rows.FilterFilter(s.vehicles, (v: Vehicle) => v.ownerId != u.id, (v: Vehicle) => v.ownerId == other.id);
    }
  }

  /**
   Deleting settings (users.settingsId is ON DELETE SET NULL): every user is
   kept, the ones that referenced the settings now have a null `settingsId`,
   and the rest read exactly as before.
   */
  lemma DeleteSettingsSetsNull(s: Store, copy: Settings, u: User)
    requires Valid(s)
    requires u in s.users
    ensures UserRepository.Get(SettingsRepository.Delete(s, copy).store, u.id)
         == Some(if u.settingsId == Some(copy.id) then u.(settingsId := None) else u)
    ensures |SettingsRepository.Delete(s, copy).store.users| == |s.users|
  {
    var t := SettingsRepository.Delete(s, copy).store;
    SettingsRepository.DeleteValid(s, copy);
    var i :| 0 <= i < |s.users| && s.users[i] == u;
    assert t.users[i] in t.users;
    Rows.FindMember(t.users, UserKey, t.users[i]);
  }

  /**
   A copy read before its settings were deleted still carries the old
   `settingsId`; writing it back with `update` then violates the foreign key.
   */
  lemma StaleUserCopyAfterSettingsDelete(s: Store, settings: Settings, u: User, name: string)
    requires Valid(s)
    requires u in s.users && u.settingsId == Some(settings.id)
    ensures UserRepository.Update(SettingsRepository.Delete(s, settings).store, u, Some(name), None).write
         == Err(ForeignKeyViolation)
  {
    assert u.id in s.UserIds();
  }

  /**
   Deleting a group (user_group.groupId is ON DELETE CASCADE) removes exactly
   that group's memberships; every user and every user's vehicles read as before.
   */
  lemma DeleteGroupCascades(s: Store, g: Group, u: User)
    requires Valid(s)
    ensures GroupRepository.Get(GroupRepository.Delete(s, g).store, g.id).None?
    ensures forall m :: m in GroupRepository.Delete(s, g).store.memberships <==> m in s.memberships && m.groupId != g.id
    ensures UserRepository.Get(GroupRepository.Delete(s, g).store, u.id) == UserRepository.Get(s, u.id)
    ensures VehicleRepository.AllBy(GroupRepository.Delete(s, g).store, u) == VehicleRepository.AllBy(s, u)
  {
  }

  /** One repository call, with the arguments the caller supplies (ids are the fresh UUIDs). */
  datatype Op =
    | AddSettings(settingsId: Id, volume: Option<int>, lang: Option<string>)
    | UpdateSettings(settings: Settings, newVolume: Option<int>, newLang: Option<string>)
    | DeleteSettings(settings: Settings)
    | AddUser(userId: Id, name: string, document: string, userSettingsId: Option<Id>)
    | UpdateUser(user: User, newName: Option<string>, newDocument: Option<string>)
    | DeleteUser(user: User)
    | AddVehicle(owner: User, vehicleId: Id, licensePlate: string, model: string, manufacture: string, year: int)
    | UpdateVehicle(vehicle: Vehicle, newPlate: Option<string>, newModel: Option<string>,
                    newManufacture: Option<string>, newYear: Option<int>)
    | DeleteVehicle(vehicle: Vehicle)
    | AddGroup(groupId: Id, groupName: string, description: Option<string>)
    | UpdateGroup(group: Group, newGroupName: Option<string>, newDescription: Option<string>)
    | DeleteGroup(group: Group)
    | LinkUser(member: User, to: Group)
    | UnlinkUser(member: User, from: Group)

  /** The store after one call: a failed write leaves it unchanged. */
  function Apply(s: Store, op: Op): Store
  {
    match op
    case AddSettings(id, v, l) => After(SettingsRepository.Add(s, id, v, l), s)
    case UpdateSettings(c, v, l) => After(SettingsRepository.Update(s, c, v, l).write, s)
    case DeleteSettings(c) => After(SettingsRepository.Delete(s, c), s)
    case AddUser(id, n, d, sid) => After(UserRepository.Add(s, id, n, d, sid), s)
    case UpdateUser(c, n, d) => After(UserRepository.Update(s, c, n, d).write, s)
    case DeleteUser(c) => After(UserRepository.Delete(s, c), s)
    case AddVehicle(o, id, lp, m, mf, y) => After(VehicleRepository.Add(s, o, id, lp, m, mf, y), s)
    case UpdateVehicle(c, lp, m, mf, y) => After(VehicleRepository.Update(s, c, lp, m, mf, y).write, s)
    case DeleteVehicle(c) => After(VehicleRepository.Delete(s, c), s)
    case AddGroup(id, n, d) => After(GroupRepository.Add(s, id, n, d), s)
    case UpdateGroup(c, n, d) => After(GroupRepository.Update(s, c, n, d).write, s)
    case DeleteGroup(c) => After(GroupRepository.Delete(s, c), s)
    case LinkUser(u, g) => After(GroupRepository.AddUser(s, u, g), s)
    case UnlinkUser(u, g) => After(GroupRepository.RemoveUser(s, u, g), s)
  }

  function After<T>(r: Result<T>, s: Store): Store
  {
    if r.Ok? then r.store else s
  }

  /** The store after a sequence of calls, each applied to the result of the previous one. */
  function Run(s: Store, ops: seq<Op>): Store
    decreases |ops|
  {
    if |ops| == 0 then s else Run(Apply(s, ops[0]), ops[1..])
  }

  /** Every repository call, successful or not, keeps unique keys and resolving foreign keys. */
  lemma ApplyValid(s: Store, op: Op)
    requires Valid(s)
    ensures Valid(Apply(s, op))
  {
    match op
    case AddSettings(id, v, l) =>
      if SettingsRepository.Add(s, id, v, l).Ok? { SettingsRepository.AddValid(s, id, v, l); }
    case UpdateSettings(c, v, l) =>
      if SettingsRepository.Update(s, c, v, l).write.Ok? { SettingsRepository.UpdateValid(s, c, v, l, c.id); }
    case DeleteSettings(c) => SettingsRepository.DeleteValid(s, c);
    case AddUser(id, n, d, sid) =>
      if UserRepository.Add(s, id, n, d, sid).Ok? { UserRepository.AddValid(s, id, n, d, sid); }
    case UpdateUser(c, n, d) =>
      if UserRepository.Update(s, c, n, d).write.Ok? { UserRepository.UpdateValid(s, c, n, d, c.id); }
    case DeleteUser(c) => UserRepository.DeleteValid(s, c);
    case AddVehicle(o, id, lp, m, mf, y) =>
      if VehicleRepository.Add(s, o, id, lp, m, mf, y).Ok? { VehicleRepository.AddValid(s, o, id, lp, m, mf, y); }
    case UpdateVehicle(c, lp, m, mf, y) =>
      if VehicleRepository.Update(s, c, lp, m, mf, y).write.Ok? {
        VehicleRepository.UpdateValid(s, c, lp, m, mf, y, c.id);
      }
    case DeleteVehicle(c) => VehicleRepository.DeleteValid(s, c);
    case AddGroup(id, n, d) =>
      if GroupRepository.Add(s, id, n, d).Ok? { GroupRepository.AddValid(s, id, n, d); }
    case UpdateGroup(c, n, d) =>
      if GroupRepository.Update(s, c, n, d).write.Ok? { GroupRepository.UpdateValid(s, c, n, d, c.id); }
    case DeleteGroup(c) => GroupRepository.DeleteValid(s, c);
    case LinkUser(u, g) =>
      if GroupRepository.AddUser(s, u, g).Ok? { GroupRepository.AddUserValid(s, u, g); }
    case UnlinkUser(u, g) =>
  }

  /**
   From the freshly migrated store, no sequence of repository calls reaches a
   store with a duplicated key or a foreign key naming a missing row.
   */
  lemma {:induction false} RunValid(s: Store, ops: seq<Op>)
    requires Valid(s)
    ensures Valid(Run(s, ops))
    decreases |ops|
  {
    if |ops| > 0 {
      ApplyValid(s, ops[0]);
      RunValid(Apply(s, ops[0]), ops[1..]);
    }
  }

  lemma ReachableValid(ops: seq<Op>)
    ensures Valid(Run(Empty, ops))
  {
    EmptyValid();
    RunValid(Empty, ops);
  }
}

=== FILE: rows.dfy ===
/**
 A table is a sequence of rows in rowid order: a scan returns rows in the order
 they were inserted, and an UPDATE keeps a row in its place. `key` extracts the
 primary key of a row.
 */
module Rows {
  import opened Wrappers
  import opened Records

  /** The primary keys present in a table. */
  function Keys<R(==)>(rows: seq<R>, key: R -> Id): set<Id>
  {
    set r | r in rows :: key(r)
  }

  /** No two rows share a primary key. */
  predicate Unique<R(==)>(rows: seq<R>, key: R -> Id)
    decreases |rows|
  {
    |rows| == 0 || (key(rows[0]) !in Keys(rows[1..], key) && Unique(rows[1..], key))
  }

  lemma KeysCons<R>(rows: seq<R>, key: R -> Id)
    requires |rows| > 0
    ensures Keys(rows, key) == {key(rows[0])} + Keys(rows[1..], key)
  {
    assert rows == [rows[0]] + rows[1..];
    forall k | k in Keys(rows, key)
      ensures k in {key(rows[0])} + Keys(rows[1..], key)
    {
      var r :| r in rows && key(r) == k;
      if r != rows[0] {
        assert r in rows[1..];
      }
    }
  }

  /** SELECT ... WHERE key = k: the row with that key, if any. */
  function Find<R(==)>(rows: seq<R>, key: R -> Id, k: Id): (r: Option<R>)
    ensures r.Some? ==> r.value in rows && key(r.value) == k
    ensures r.None? <==> k !in Keys(rows, key)
    decreases |rows|
  {
    if |rows| == 0 then None
    else
      KeysCons(rows, key);
      if key(rows[0]) == k then Some(rows[0]) else Find(rows[1..], key, k)
  }

  /** In a table with unique keys, looking up a row's own key finds that row. */
  lemma {:induction false} FindMember<R>(rows: seq<R>, key: R -> Id, r: R)
    requires Unique(rows, key)
    requires r in rows
    ensures Find(rows, key, key(r)) == Some(r)
    decreases |rows|
  {
    if rows[0] != r {
      assert r in rows[1..];
      FindMember(rows[1..], key, r);
    }
  }

  /** The rows satisfying `keep`, in table order (DELETE ... WHERE not keep, or SELECT ... WHERE keep). */
  function Filter<R(==)>(rows: seq<R>, keep: R -> bool): (r: seq<R>)
    ensures forall x :: x in r ==> x in rows && keep(x)
    ensures forall x :: x in rows && keep(x) ==> x in r
    decreases |rows|
  {
    if |rows| == 0 then []
    else
      assert rows == [rows[0]] + rows[1..];
      if keep(rows[0]) then [rows[0]] + Filter(rows[1..], keep) else Filter(rows[1..], keep)
  }

  /** Appending a row adds its key. */
  lemma KeysAppend<R>(rows: seq<R>, key: R -> Id, x: R)
    ensures Keys(rows + [x], key) == Keys(rows, key) + {key(x)}
  {
    assert x in rows + [x];
    forall k | k in Keys(rows + [x], key)
      ensures k in Keys(rows, key) + {key(x)}
    {
      var r :| r in rows + [x] && key(r) == k;
      if r != x {
        assert r in rows;
      }
    }
  }

  /** Deleting by primary key removes exactly that key. */
  lemma KeysWithout<R>(rows: seq<R>, key: R -> Id, keep: R -> bool, k: Id)
    requires forall x :: keep(x) <==> key(x) != k
    ensures Keys(Filter(rows, keep), key) == Keys(rows, key) - {k}
  {
    forall j | j in Keys(rows, key) - {k}
      ensures j in Keys(Filter(rows, keep), key)
    {
      var r :| r in rows && key(r) == j;
      assert r in Filter(rows, keep);
    }
  }

  /** Removing rows keeps the keys unique. */
  lemma {:induction false} FilterUnique<R>(rows: seq<R>, key: R -> Id, keep: R -> bool)
    requires Unique(rows, key)
    ensures Unique(Filter(rows, keep), key)
    decreases |rows|
  {
    if |rows| > 0 {
      FilterUnique(rows[1..], key, keep);
      var rest := Filter(rows[1..], keep);
      if keep(rows[0]) {
        assert ([rows[0]] + rest)[1..] == rest;
      }
    }
  }

  /** A filter that keeps every row is the identity. */
  lemma {:induction false} FilterKeepsAll<R>(rows: seq<R>, keep: R -> bool)
    requires forall x :: x in rows ==> keep(x)
    ensures Filter(rows, keep) == rows
    decreases |rows|
  {
    if |rows| > 0 {
      assert rows[0] in rows;
      assert forall x :: x in rows[1..] ==> x in rows;
      FilterKeepsAll(rows[1..], keep);
      assert rows == [rows[0]] + rows[1..];
    }
  }

  /** Filtering a table with one appended row filters the prefix and then the row. */
  lemma {:induction false} FilterAppend<R>(rows: seq<R>, x: R, keep: R -> bool)
    ensures Filter(rows + [x], keep) == Filter(rows, keep) + (if keep(x) then [x] else [])
    decreases |rows|
  {
    if |rows| == 0 {
      assert rows + [x] == [x] + [];
      FilterCons(x, [], keep);
      assert Filter(rows, keep) == [];
    } else {
      var h := rows[0];
      var t := rows[1..];
      var front: seq<R> := if keep(h) then [h] else [];
      assert Filter(rows + [x], keep) == front + Filter(t + [x], keep) by {
        assert rows + [x] == [h] + (t + [x]);
        FilterCons(h, t + [x], keep);
      }
      assert Filter(rows, keep) == front + Filter(t, keep) by {
        assert rows == [h] + t;
        FilterCons(h, t, keep);
      }
      FilterAppend(t, x, keep);
      var tail: seq<R> := if keep(x) then [x] else [];
      assert front + (Filter(t, keep) + tail) == (front + Filter(t, keep)) + tail;
    }
  }

  /** A kept row appears as often as in the table, a dropped row not at all. */
  lemma {:induction false} FilterCounts<R>(rows: seq<R>, keep: R -> bool)
    ensures forall x :: multiset(Filter(rows, keep))[x] == if keep(x) then multiset(rows)[x] else 0
    ensures multiset(Filter(rows, keep)) <= multiset(rows)
    decreases |rows|
  {
    if |rows| > 0 {
      var h := rows[0];
      var t := rows[1..];
      FilterCounts(t, keep);
      assert rows == [h] + t;
      FilterCons(h, t, keep);
      assert multiset(rows) == multiset{h} + multiset(t);
    }
  }

  /** A result with no members is the empty sequence. */
  lemma EmptyWithoutMembers<R>(r: seq<R>)
    requires forall x :: x !in r
    ensures r == []
  {
    assert multiset(r) == multiset{} by {
      forall x ensures multiset(r)[x] == 0 {
        assert x !in r;
      }
    }
    assert |r| == |multiset(r)|;
  }

  /** Filtering keeps the first row exactly when it satisfies the condition, then filters the rest. */
  lemma FilterCons<R>(h: R, t: seq<R>, keep: R -> bool)
    ensures Filter([h] + t, keep) == (if keep(h) then [h] else []) + Filter(t, keep)
  {
    assert ([h] + t)[0] == h;
    assert ([h] + t)[1..] == t;
  }

  /** Appending a row whose key is fresh keeps the keys unique. */
  lemma {:induction false} AppendUnique<R>(rows: seq<R>, key: R -> Id, x: R)
    requires Unique(rows, key)
    requires key(x) !in Keys(rows, key)
    ensures Unique(rows + [x], key)
    ensures Keys(rows + [x], key) == Keys(rows, key) + {key(x)}
    decreases |rows|
  {
    if |rows| == 0 {
      assert rows + [x] == [x];
      assert [x][1..] == [];
    } else {
      var t := rows + [x];
      assert t[0] == rows[0];
      assert t[1..] == rows[1..] + [x];
      KeysCons(rows, key);
      AppendUnique(rows[1..], key, x);
      KeysCons(t, key);
    }
  }

  /** UPDATE ... WHERE key = key(row): every row with that key becomes `row`; the others stay in place. */
  function Replace<R(==)>(rows: seq<R>, key: R -> Id, row: R): (r: seq<R>)
    ensures |r| == |rows|
    decreases |rows|
  {
    if |rows| == 0 then []
    else [if key(rows[0]) == key(row) then row else rows[0]] + Replace(rows[1..], key, row)
  }

  /** Replacing a row keeps the key set and its uniqueness, when the key is present. */
  lemma {:induction false} ReplaceKeys<R>(rows: seq<R>, key: R -> Id, row: R)
    requires key(row) in Keys(rows, key)
    ensures Keys(Replace(rows, key, row), key) == Keys(rows, key)
    ensures Unique(rows, key) ==> Unique(Replace(rows, key, row), key)
    decreases |rows|
  {
    var r := Replace(rows, key, row);
    KeysCons(rows, key);
    KeysCons(r, key);
    assert r[1..] == Replace(rows[1..], key, row);
    if key(row) in Keys(rows[1..], key) {
      ReplaceKeys(rows[1..], key, row);
    } else {
      assert key(rows[0]) == key(row);
      ReplaceAbsent(rows[1..], key, row);
    }
  }

  /** Replacing under a key no row carries changes nothing. */
  lemma {:induction false} ReplaceAbsent<R>(rows: seq<R>, key: R -> Id, row: R)
    requires key(row) !in Keys(rows, key)
    ensures Replace(rows, key, row) == rows
    decreases |rows|
  {
    if |rows| > 0 {
      KeysCons(rows, key);
      ReplaceAbsent(rows[1..], key, row);
      assert rows == [rows[0]] + rows[1..];
    }
  }

  /** After the replacement, the rows are `row` and the old rows under other keys. */
  lemma {:induction false} ReplaceMembers<R>(rows: seq<R>, key: R -> Id, row: R)
    requires key(row) in Keys(rows, key)
    ensures forall x :: x in Replace(rows, key, row) <==> x == row || (x in rows && key(x) != key(row))
    decreases |rows|
  {
    var r := Replace(rows, key, row);
    KeysCons(rows, key);
    assert r == [r[0]] + Replace(rows[1..], key, row);
    if key(row) in Keys(rows[1..], key) {
      ReplaceMembers(rows[1..], key, row);
      assert rows == [rows[0]] + rows[1..];
    } else {
      ReplaceAbsent(rows[1..], key, row);
      assert rows == [rows[0]] + rows[1..];
      forall x | x in rows[1..] ensures key(x) != key(row) { }
    }
  }

  /** Replacing a row by itself is the identity. */
  lemma {:induction false} ReplaceSame<R>(rows: seq<R>, key: R -> Id, row: R)
    requires Unique(rows, key)
    requires row in rows
    ensures Replace(rows, key, row) == rows
    decreases |rows|
  {
    KeysCons(rows, key);
    assert rows == [rows[0]] + rows[1..];
    if rows[0] == row {
      ReplaceAbsent(rows[1..], key, row);
    } else {
      assert row in rows[1..];
      assert key(row) in Keys(rows[1..], key);
      ReplaceSame(rows[1..], key, row);
    }
  }

  /** After a replacement, looking up the replaced key finds the new row; other keys find what they found before. */
  lemma {:induction false} FindAfterReplace<R>(rows: seq<R>, key: R -> Id, row: R, k: Id)
    requires key(row) in Keys(rows, key)
    ensures Find(Replace(rows, key, row), key, k) == if k == key(row) then Some(row) else Find(rows, key, k)
    decreases |rows|
  {
    var r := Replace(rows, key, row);
    assert r[1..] == Replace(rows[1..], key, row);
    KeysCons(rows, key);
    if k != key(row) {
      FindOtherAfterReplace(rows, key, row, k);
    } else if key(rows[0]) != key(row) {
      FindAfterReplace(rows[1..], key, row, k);
    }
  }

  lemma {:induction false} FindOtherAfterReplace<R>(rows: seq<R>, key: R -> Id, row: R, k: Id)
    requires k != key(row)
    ensures Find(Replace(rows, key, row), key, k) == Find(rows, key, k)
    decreases |rows|
  {
    if |rows| > 0 {
      var r := Replace(rows, key, row);
      assert r[1..] == Replace(rows[1..], key, row);
      FindOtherAfterReplace(rows[1..], key, row, k);
    }
  }

  /** Filtering twice, where the second filter implies the first, is the second filter alone. */
  lemma {:induction false} FilterFilter<R>(rows: seq<R>, first: R -> bool, second: R -> bool)
    requires forall x :: second(x) ==> first(x)
    ensures Filter(Filter(rows, first), second) == Filter(rows, second)
    decreases |rows|
  {
    if |rows| > 0 {
      FilterFilter(rows[1..], first, second);
      var f := Filter(rows[1..], first);
      if first(rows[0]) {
        assert ([rows[0]] + f)[0] == rows[0];
        assert ([rows[0]] + f)[1..] == f;
      }
    }
  }

  /** Removing the rows of one key does not change what another key finds. */
  lemma {:induction false} FindAfterFilter<R>(rows: seq<R>, key: R -> Id, keep: R -> bool, k: Id)
    requires forall x :: key(x) == k ==> keep(x)
    ensures Find(Filter(rows, keep), key, k) == Find(rows, key, k)
    decreases |rows|
  {
    if |rows| > 0 {
      FindAfterFilter(rows[1..], key, keep, k);
      var f := Filter(rows[1..], keep);
      if keep(rows[0]) {
        assert ([rows[0]] + f)[0] == rows[0];
        assert ([rows[0]] + f)[1..] == f;
      }
    }
  }
}

=== FILE: scenarios.dfy ===
/**
 Concrete runs of the repositories. Some use the CRUD walkthrough's rows and
 steps; others, such as deleting a user whose settings and vehicle still exist,
 exercise the cascades in an order it does not use, and the name searches add
 illustrative users ("Bob", "Alice") the walkthrough never creates.
 */
module Scenarios {
  import opened Wrappers
  import opened Records
  import opened Persistence
  import SettingsRepository
  import UserRepository
  import VehicleRepository
  import GroupRepository
  import SqlText
  import Rows

  /**
   Settings, then a user referencing them, then a vehicle of that user, as the
   walkthrough creates them; deleting the user while the vehicle and the
   settings still exist (the walkthrough deletes them first) removes the user
   and the vehicle and keeps the settings row, now referenced by no one.
   */
  lemma DeleteOwnerKeepsSettings()
    ensures
      var a := SettingsRepository.Add(Empty, "s1", Some(5), Some("pt-BR"));
      var b := UserRepository.Add(a.store, "u1", "Alice", "123", Some("s1"));
      var c := VehicleRepository.Add(b.store, b.value, "v1", "ABC-1234", "Civic", "Honda", 2020);
      var d := UserRepository.Delete(c.store, b.value);
      && a.Ok? && b.Ok? && c.Ok? && d == Ok(true, d.store)
      && d.store.users == [] && d.store.vehicles == []
      && d.store.settings == [Settings("s1", 5, Some("pt-BR"))]
  {
    var a := SettingsRepository.Add(Empty, "s1", Some(5), Some("pt-BR"));
    var b := UserRepository.Add(a.store, "u1", "Alice", "123", Some("s1"));
    var c := VehicleRepository.Add(b.store, b.value, "v1", "ABC-1234", "Civic", "Honda", 2020);
    var d := UserRepository.Delete(c.store, b.value);
    Rows.EmptyWithoutMembers(d.store.users);
    Rows.EmptyWithoutMembers(d.store.vehicles);
  }

  /** The walkthrough's search: after the rename its only user is "Alice Santos", and "Alice" finds it. */
  lemma FetchOfTheWalkthrough(santos: User)
    requires santos.name == "Alice Santos"
    ensures UserRepository.Fetch(Store([], [santos], [], [], {}), "Alice") == [santos]
  {
    LikeFacts();
  }

  /** An illustrative search: "Alice" among "Bob", "Alice Santos" and "Alice" returns the two Alices, ordered by name. */
  lemma FetchByName(bob: User, santos: User, alice: User)
    requires bob.name == "Bob" && santos.name == "Alice Santos" && alice.name == "Alice"
    ensures UserRepository.Fetch(Store([], [bob, santos, alice], [], [], {}), "Alice") == [alice, santos]
  {
    MatchingAlices(bob, santos, alice);
    SortedAlices(santos, alice);
  }

  lemma MatchingAlices(bob: User, santos: User, alice: User)
    requires bob.name == "Bob" && santos.name == "Alice Santos" && alice.name == "Alice"
    ensures Rows.Filter([bob, santos, alice], UserRepository.NameMatches("Alice")) == [santos, alice]
  {
    var users := [bob, santos, alice];
    LikeFacts();
    var keep := UserRepository.NameMatches("Alice");
    assert users[1..] == [santos, alice] && users[2..] == [alice];
    assert Rows.Filter([alice], keep) == [alice];
    assert Rows.Filter([santos, alice], keep) == [santos, alice];
  }

  lemma SortedAlices(santos: User, alice: User)
    requires santos.name == "Alice Santos" && alice.name == "Alice"
    ensures SqlText.OrderBy([santos, alice], UserName) == [alice, santos]
  {
    assert !SqlText.TextLe("Alice Santos", "Alice");
    assert [santos, alice][1..] == [alice];
    assert SqlText.OrderBy([alice], UserName) == [alice];
    assert SqlText.Insert(santos, [alice], UserName) == [alice, santos];
  }

  lemma LikeFacts()
    ensures !SqlText.Like("Bob", "Alice")
    ensures SqlText.Like("Alice", "Alice")
    ensures SqlText.Like("Alice Santos", "Alice")
  {
    assert SqlText.Fold("Alice") == "alice";
    assert SqlText.Fold("Bob") == "bob";
    SqlText.LikeReflexive("Alice");
    assert SqlText.Fold("Alice Santos")[..5] == "alice";
  }

  /** Linking the same user to the same group twice fails the second time; unlinking an absent pair changes nothing. */
  lemma LinkTwice()
    ensures
      var u := User("u1", "Alice", "1", None);
      var g := Group("g1", "Admins", Some("Administrators group"));
      var s := Store([], [u], [], [g], {});
      var once := GroupRepository.AddUser(s, u, g);
      && once.Ok? && once.store.memberships == {UserGroup("u1", "g1")}
      && GroupRepository.AddUser(once.store, u, g) == Err(PrimaryKeyViolation)
      && GroupRepository.RemoveUser(s, u, g) == Ok((), s)
  {
    var u := User("u1", "Alice", "1", None);
    var g := Group("g1", "Admins", Some("Administrators group"));
    var s := Store([], [u], [], [g], {});
    assert UserKey(u) in s.UserIds();
    assert GroupKey(g) in s.GroupIds();
  }
}

=== FILE: settings_repository.dfy ===
/** `SettingsRepository`: add, partial update and delete over the `settings` table. */
module SettingsRepository {
  import opened Wrappers
  import opened Records
  import opened Persistence
  import Rows

  /** The settings row with primary key `id`, if any (used to state properties). */
  function Stored(s: Store, id: Id): (r: Option<Settings>)
    ensures r.Some? ==> r.value in s.settings && r.value.id == id
    ensures r.None? <==> id !in s.SettingsIds()
  {
    Rows.Find(s.settings, SettingsKey, id)
  }

  /**
   `add(volume:lang:)`: inserts a settings row under `id`, the UUID the caller
   generated; an absent volume is stored as 0. A reused id is a primary-key
   violation.
   */
  function Add(s: Store, id: Id, volume: Option<int>, lang: Option<string>): (r: Result<Settings>)
    ensures r.Ok? <==> id !in s.SettingsIds()
    ensures r.Err? ==> r.error == PrimaryKeyViolation
    ensures r.Ok? ==> r.value.id == id && r.value.lang == lang
    ensures r.Ok? && volume.None? ==> r.value.volume == 0
    ensures r.Ok? && volume.Some? ==> r.value.volume == volume.value
    ensures r.Ok? ==> r.store.SettingsIds() == s.SettingsIds() + {id}
    ensures r.Ok? ==> r.store.(settings := s.settings) == s
  {
    var row := Settings(id, volume.GetOr(0), lang);
    if id in s.SettingsIds() then Err(PrimaryKeyViolation)
    else
      Rows.KeysAppend(s.settings, SettingsKey, row);
      Ok(row, s.(settings := s.settings + [row]))
  }

  /**
   `update(_:volume:lang:)`: a nil argument keeps the copy's value, so `lang`
   can be changed but never cleared. The whole patched copy is then written
   over the row with its id; when that row is gone GRDB reports
   record-not-found.
   */
  function Update(s: Store, copy: Settings, volume: Option<int>, lang: Option<string>): (r: Updated<Settings>)
    ensures r.copy.id == copy.id
    ensures r.copy.volume == if volume.Some? then volume.value else copy.volume
    ensures r.copy.lang == if lang.Some? then lang else copy.lang
    ensures r.write.Ok? <==> copy.id in s.SettingsIds()
    ensures r.write.Err? ==> r.write.error == RecordNotFound
    ensures r.write.Ok? ==> r.write.store.SettingsIds() == s.SettingsIds()
    ensures r.write.Ok? ==> r.write.store.(settings := s.settings) == s
  {
    var patched := copy.(volume := volume.GetOr(copy.volume), lang := if lang.Some? then lang else copy.lang);
    if copy.id !in s.SettingsIds() then Updated(patched, Err(RecordNotFound))
    else
      Rows.ReplaceKeys(s.settings, SettingsKey, patched);
      Updated(patched, Ok((), s.(settings := Rows.Replace(s.settings, SettingsKey, patched))))
  }

  /** ON DELETE SET NULL: the users that referenced settings `id`, with `settingsId` cleared. */
  function Detach(users: seq<User>, id: Id): (r: seq<User>)
    ensures |r| == |users|
    ensures forall i :: 0 <= i < |users| ==>
      r[i] == if users[i].settingsId == Some(id) then users[i].(settingsId := None) else users[i]
    decreases |users|
  {
    if |users| == 0 then []
    else
      var u := users[0];
      [if u.settingsId == Some(id) then u.(settingsId := None) else u] + Detach(users[1..], id)
  }

  lemma {:induction false} DetachKeys(users: seq<User>, id: Id)
    ensures Rows.Keys(Detach(users, id), UserKey) == Rows.Keys(users, UserKey)
    ensures Rows.Unique(users, UserKey) ==> Rows.Unique(Detach(users, id), UserKey)
    decreases |users|
  {
    if |users| > 0 {
      var r := Detach(users, id);
      assert r[1..] == Detach(users[1..], id);
      DetachKeys(users[1..], id);
      Rows.KeysCons(users, UserKey);
      Rows.KeysCons(r, UserKey);
    }
  }

  /**
   `delete(_:)`: removes the row with the copy's id and reports whether one was
   removed. Every user that referenced it stays, with `settingsId` set to NULL;
   no other table changes.
   */
  function Delete(s: Store, copy: Settings): (r: Result<bool>)
    ensures r.Ok?
    ensures r.value <==> copy.id in s.SettingsIds()
    ensures r.store.SettingsIds() == s.SettingsIds() - {copy.id}
    ensures r.store.UserIds() == s.UserIds()
    ensures |r.store.users| == |s.users|
    ensures forall i :: 0 <= i < |s.users| ==>
      && r.store.users[i].id == s.users[i].id
      && r.store.users[i].name == s.users[i].name
      && r.store.users[i].document == s.users[i].document
      && r.store.users[i].settingsId == if s.users[i].settingsId == Some(copy.id) then None else s.users[i].settingsId
    ensures r.store.vehicles == s.vehicles && r.store.groups == s.groups && r.store.memberships == s.memberships
  {
    var keep := (x: Settings) => x.id != copy.id;
    Rows.KeysWithout(s.settings, SettingsKey, keep, copy.id);
    DetachKeys(s.users, copy.id);
    Ok(copy.id in s.SettingsIds(), s.(settings := Rows.Filter(s.settings, keep), users := Detach(s.users, copy.id)))
  }

  /** A successful add keeps the store valid and stores exactly the returned row. */
  lemma AddValid(s: Store, id: Id, volume: Option<int>, lang: Option<string>)
    requires Valid(s)
    requires Add(s, id, volume, lang).Ok?
    ensures Valid(Add(s, id, volume, lang).store)
    ensures Stored(Add(s, id, volume, lang).store, id) == Some(Add(s, id, volume, lang).value)
  {
    var r := Add(s, id, volume, lang);
    Rows.AppendUnique(s.settings, SettingsKey, r.value);
    Rows.FindMember(r.store.settings, SettingsKey, r.value);
  }

  /**
   A successful update keeps the store valid, stores the patched copy under its
   id and leaves every other settings row as it was.
   */
  lemma UpdateValid(s: Store, copy: Settings, volume: Option<int>, lang: Option<string>, other: Id)
    requires Valid(s)
    requires Update(s, copy, volume, lang).write.Ok?
    ensures Valid(Update(s, copy, volume, lang).write.store)
    ensures Stored(Update(s, copy, volume, lang).write.store, copy.id) == Some(Update(s, copy, volume, lang).copy)
    ensures other != copy.id ==> Stored(Update(s, copy, volume, lang).write.store, other) == Stored(s, other)
  {
    var r := Update(s, copy, volume, lang);
    Rows.ReplaceKeys(s.settings, SettingsKey, r.copy);
    Rows.FindAfterReplace(s.settings, SettingsKey, r.copy, copy.id);
    Rows.FindAfterReplace(s.settings, SettingsKey, r.copy, other);
  }

  /** Writing back an unmodified current copy leaves the store as it was. */
  lemma UpdateWithNothingIsIdentity(s: Store, copy: Settings)
    requires Valid(s)
    requires Stored(s, copy.id) == Some(copy)
    ensures Update(s, copy, None, None) == Updated(copy, Ok((), s))
  {
    Rows.ReplaceSame(s.settings, SettingsKey, copy);
  }

  /** Once a copy has a `lang`, no update can take it away, whatever the write's outcome. */
  lemma LangNeverCleared(s: Store, copy: Settings, volume: Option<int>, lang: Option<string>)
    requires copy.lang.Some?
    ensures Update(s, copy, volume, lang).copy.lang.Some?
  {
  }

  /** The copy is patched even when its row is gone and the write fails. */
  lemma CopyPatchedOnFailedWrite(s: Store, copy: Settings, volume: int)
    requires copy.id !in s.SettingsIds()
    ensures Update(s, copy, Some(volume), None).write == Err(RecordNotFound)
    ensures Update(s, copy, Some(volume), None).copy.volume == volume
  {
  }

  lemma {:induction false} DetachNoop(users: seq<User>, id: Id)
    requires forall u :: u in users ==> u.settingsId != Some(id)
    ensures Detach(users, id) == users
    decreases |users|
  {
    if |users| > 0 {
      assert users[0] in users;
      assert forall u :: u in users[1..] ==> u in users;
      DetachNoop(users[1..], id);
      assert users == [users[0]] + users[1..];
    }
  }

  /**
   Deleting keeps the store valid: with the referencing users detached, no
   `settingsId` names the removed row.
   */
  lemma DeleteValid(s: Store, copy: Settings)
    requires Valid(s)
    ensures Valid(Delete(s, copy).store)
    ensures forall u :: u in Delete(s, copy).store.users ==> u.settingsId != Some(copy.id)
  {
    var t := Delete(s, copy).store;
    Rows.FilterUnique(s.settings, SettingsKey, (x: Settings) => x.id != copy.id);
    DetachKeys(s.users, copy.id);
    forall u | u in t.users
      ensures u.settingsId != Some(copy.id)
      ensures u.settingsId.Some? ==> u.settingsId.value in t.SettingsIds()
    {
      var i :| 0 <= i < |t.users| && t.users[i] == u;
      assert s.users[i] in s.users;
    }
  }

  /** Deleting a row just added restores the store exactly. */
  lemma AddThenDelete(s: Store, id: Id, volume: Option<int>, lang: Option<string>)
    requires Valid(s)
    requires Add(s, id, volume, lang).Ok?
    ensures Delete(Add(s, id, volume, lang).store, Add(s, id, volume, lang).value) == Ok(true, s)
  {
    var r := Add(s, id, volume, lang);
    var keep := (x: Settings) => x.id != id;
    Rows.FilterAppend(s.settings, r.value, keep);
    Rows.FilterKeepsAll(s.settings, keep);
    DetachNoop(s.users, id);
  }
}

=== FILE: sqltext.dfy ===
/**
 The two pieces of SQLite text semantics the user search relies on:
 `name LIKE '%' || ? || '%'` (infix match, ASCII letters compared without
 case) and `ORDER BY name` under the default BINARY collation
 (code-point order, which is the byte order of UTF-8).
 */
module SqlText {

  /** SQLite's LIKE folds only the 26 ASCII letters. */
  function FoldAscii(c: char): (f: char)
  {
    if 'A' <= c <= 'Z' then (c as int + 32) as char else c
  }

  function Fold(s: string): (r: string)
    ensures |r| == |s|
    ensures forall i :: 0 <= i < |s| ==> r[i] == FoldAscii(s[i])
  {
    seq(|s|, i requires 0 <= i < |s| => FoldAscii(s[i]))
  }

  /** `pattern` occurs as a contiguous piece of `text`. */
  predicate IsInfix(pattern: string, text: string)
    decreases |text|
  {
    (|pattern| <= |text| && text[..|pattern|] == pattern) || (|text| > 0 && IsInfix(pattern, text[1..]))
  }

  /** `text LIKE '%' || pattern || '%'` for a pattern free of `%` and `_`. */
  predicate Like(text: string, pattern: string)
  {
    IsInfix(Fold(pattern), Fold(text))
  }

  /** The empty pattern matches every text, as `LIKE '%%'` does. */
  lemma EmptyPatternMatchesAll(text: string)
    ensures Like(text, "")
  {
  }

  /** A text matches itself, whatever the case of its letters. */
  lemma LikeReflexive(text: string)
    ensures Like(text, text)
  {
    assert Fold(text)[..|text|] == Fold(text);
  }

  /** BINARY collation: lexicographic order on code points. */
  predicate TextLe(a: string, b: string)
    decreases |a|
  {
    |a| == 0 || (|b| > 0 && (a[0] < b[0] || (a[0] == b[0] && TextLe(a[1..], b[1..]))))
  }

  lemma {:induction false} TextLeTotal(a: string, b: string)
    ensures TextLe(a, b) || TextLe(b, a)
    decreases |a|
  {
    if |a| > 0 && |b| > 0 && a[0] == b[0] {
      TextLeTotal(a[1..], b[1..]);
    }
  }

  lemma {:induction false} TextLeTransitive(a: string, b: string, c: string)
    requires TextLe(a, b) && TextLe(b, c)
    ensures TextLe(a, c)
    decreases |a|
  {
    if |a| > 0 && a[0] == b[0] && b[0] == c[0] {
      TextLeTransitive(a[1..], b[1..], c[1..]);
    }
  }

  /** `rows` is in ascending order of the column `col`. */
  predicate Ordered<R>(rows: seq<R>, col: R -> string)
  {
    forall i, j :: 0 <= i < j < |rows| ==> TextLe(col(rows[i]), col(rows[j]))
  }

  /** Inserts `x` before the first row that does not sort strictly before it. */
  function Insert<R>(x: R, rows: seq<R>, col: R -> string): (r: seq<R>)
    requires Ordered(rows, col)
    ensures Ordered(r, col)
    ensures multiset(r) == multiset(rows) + multiset{x}
    decreases |rows|
  {
    if |rows| == 0 then [x]
    else if TextLe(col(x), col(rows[0])) then
      InsertFrontOrdered(x, rows, col);
      [x] + rows
    else
      TextLeTotal(col(x), col(rows[0]));
      var rest := Insert(x, rows[1..], col);
      assert rows == [rows[0]] + rows[1..];
      HeadBelowOrdered(rows[0], rest, rows[1..], x, col);
      [rows[0]] + rest
  }

  lemma InsertFrontOrdered<R>(x: R, rows: seq<R>, col: R -> string)
    requires Ordered(rows, col)
    requires |rows| > 0 && TextLe(col(x), col(rows[0]))
    ensures Ordered([x] + rows, col)
  {
    var t := [x] + rows;
    forall i, j | 0 <= i < j < |t|
      ensures TextLe(col(t[i]), col(t[j]))
    {
      if i == 0 && j > 1 {
        TextLeTransitive(col(x), col(rows[0]), col(rows[j - 1]));
      }
    }
  }

  lemma HeadBelowOrdered<R>(h: R, rest: seq<R>, tail: seq<R>, x: R, col: R -> string)
    requires Ordered(rest, col)
    requires multiset(rest) == multiset(tail) + multiset{x}
    requires forall y :: y in tail ==> TextLe(col(h), col(y))
    requires TextLe(col(h), col(x))
    ensures Ordered([h] + rest, col)
  {
    var t := [h] + rest;
    forall i, j | 0 <= i < j < |t|
      ensures TextLe(col(t[i]), col(t[j]))
    {
      if i == 0 {
        var y := rest[j - 1];
        assert y in multiset(rest);
        assert y == x || y in multiset(tail);
      }
    }
  }

  /**
   `ORDER BY col`: the same rows, ascending by `col`; rows with equal values
   keep their table (rowid) order.
   */
  function OrderBy<R>(rows: seq<R>, col: R -> string): (r: seq<R>)
    ensures Ordered(r, col)
    ensures multiset(r) == multiset(rows)
    decreases |rows|
  {
    if |rows| == 0 then []
    else
      assert rows == [rows[0]] + rows[1..];
      Insert(rows[0], OrderBy(rows[1..], col), col)
  }
}

=== FILE: swift_int.dfy ===
/**
 Swift `Int` division. Swift's `/` rounds the quotient toward zero and `%`
 takes the sign of the dividend, whereas Dafny's `/` and `%` are Euclidean;
 the two agree only when both operands are non-negative.
 */
module SwiftInt {

  function Abs(n: int): nat
  {
    if n < 0 then -n else n
  }

  /**
   `q` is the truncated quotient of `n` by `d`: the remainder `n - q * d` is
   smaller than `d` in magnitude and is zero or has the sign of `n`.
   */
  predicate IsTruncatedQuotient(n: int, d: int, q: int)
  {
    var rem := n - q * d;
    Abs(rem) < Abs(d) && (rem == 0 || (rem < 0 <==> n < 0))
  }

  /** Swift `n / d`, which traps when `d == 0`. */
  function Div(n: int, d: int): (q: int)
    requires d != 0
    ensures IsTruncatedQuotient(n, d, q)
  {
    var q0 := Abs(n) / Abs(d);
    var r0 := Abs(n) % Abs(d);
    assert Abs(n) == q0 * Abs(d) + r0;
    if (n < 0) == (d < 0) then
      assert n - q0 * d == if n < 0 then -r0 else r0;
      q0
    else
      assert n - (-q0) * d == if n < 0 then -r0 else r0;
      -q0
  }

  /** Swift `n % d`: what is left after taking away `Div(n, d)` copies of `d`. */
  function Rem(n: int, d: int): (r: int)
    requires d != 0
    ensures Abs(r) < Abs(d)
    ensures r == 0 || (r < 0 <==> n < 0)
    ensures n == Div(n, d) * d + r
  {
    n - Div(n, d) * d
  }

  /** A non-zero multiple of `d` is at least as large as `d` in magnitude. */
  lemma MultipleAtLeast(k: int, d: int)
    requires k != 0
    ensures Abs(k * d) >= Abs(d)
  {
    if k < 0 {
      assert k * d == -((-k) * d);
    }
    if d < 0 {
      assert Abs(k) * Abs(d) >= Abs(d);
    }
    assert Abs(k * d) == Abs(k) * Abs(d);
  }

  /** The truncated quotient is unique, so `Div` is the only function meeting its contract. */
  lemma TruncatedQuotientUnique(n: int, d: int, q1: int, q2: int)
    requires d != 0
    requires IsTruncatedQuotient(n, d, q1) && IsTruncatedQuotient(n, d, q2)
    ensures q1 == q2
  {
    var r1 := n - q1 * d;
    var r2 := n - q2 * d;
    if q1 != q2 {
      assert r1 - r2 == (q2 - q1) * d;
      MultipleAtLeast(q2 - q1, d);
    }
  }

  /** On non-negative operands Swift and Dafny division coincide. */
  lemma DivAgreesOnNaturals(n: int, d: int)
    requires n >= 0 && d > 0
    ensures Div(n, d) == n / d && Rem(n, d) == n % d
  {
  }

  /** Negating the dividend negates the quotient; Euclidean division has no such symmetry. */
  lemma DivOddInDividend(n: int, d: int)
    requires d != 0
    ensures Div(-n, d) == -Div(n, d)
  {
    var q := Div(n, d);
    NegatedQuotient(n, d, q);
    TruncatedQuotientUnique(-n, d, Div(-n, d), -q);
  }

  lemma NegatedQuotient(n: int, d: int, q: int)
    requires d != 0
    requires IsTruncatedQuotient(n, d, q)
    ensures IsTruncatedQuotient(-n, d, -q)
  {
    if n == 0 {
      TruncatedQuotientUnique(0, d, q, 0);
    } else {
      var rem := n - q * d;
      assert -n - (-q) * d == -rem by {
        assert (-q) * d == -(q * d);
      }
    }
  }

  /** Swift's remainder by 2 is zero exactly when Dafny's is, although the two differ on odd negatives. */
  lemma RemByTwoIsZeroIffEven(n: int)
    ensures Rem(n, 2) == 0 <==> n % 2 == 0
  {
    var q := n / 2;
    if n % 2 == 0 {
      TruncatedQuotientUnique(n, 2, Div(n, 2), q);
    } else if n >= 0 {
      TruncatedQuotientUnique(n, 2, Div(n, 2), q);
      assert Rem(n, 2) == 1;
    } else {
      assert IsTruncatedQuotient(n, 2, q + 1);
      TruncatedQuotientUnique(n, 2, Div(n, 2), q + 1);
      assert Rem(n, 2) == -1;
    }
  }

  /** Swift gives -7 / 2 == -3 and -7 % 2 == -1, where Dafny gives -4 and 1. */
  lemma NegativeDividendExample()
    ensures Div(-7, 2) == -3 && Rem(-7, 2) == -1
    ensures -7 / 2 == -4 && -7 % 2 == 1
  {
    TruncatedQuotientUnique(-7, 2, Div(-7, 2), -3);
  }
}

=== FILE: user_repository.dfy ===
/** `UserRepository`: add, all, get, search by name, partial update and delete over `users`. */
module UserRepository {
  import opened Wrappers
  import opened Records
  import opened Persistence
  import Rows
  import SqlText

  /**
   `add(name:document:settingsId:)`: inserts a user under `id`, the UUID the
   caller generated. A non-null `settingsId` must name a settings row.
   */
  function Add(s: Store, id: Id, name: string, document: string, settingsId: Option<Id>): (r: Result<User>)
    ensures r.Ok? <==> id !in s.UserIds() && (settingsId.None? || settingsId.value in s.SettingsIds())
    ensures r.Err? && id in s.UserIds() ==> r.error == PrimaryKeyViolation
    ensures r.Err? && id !in s.UserIds() ==> r.error == ForeignKeyViolation
    ensures r.Ok? ==> r.value == User(id, name, document, settingsId)
    ensures r.Ok? ==> r.store.UserIds() == s.UserIds() + {id}
    ensures r.Ok? ==> r.store.(users := s.users) == s
  {
    var row := User(id, name, document, settingsId);
    if id in s.UserIds() then Err(PrimaryKeyViolation)
    else if settingsId.Some? && settingsId.value !in s.SettingsIds() then Err(ForeignKeyViolation)
    else
      Rows.KeysAppend(s.users, UserKey, row);
      Ok(row, s.(users := s.users + [row]))
  }

  /** `all()`: every user, in table order. */
  function All(s: Store): seq<User>
  {
    s.users
  }

  /** `get(by:)`: the user with that id, or nil. */
  function Get(s: Store, id: Id): (r: Option<User>)
    ensures r.Some? ==> r.value in s.users && r.value.id == id
    ensures r.None? <==> id !in s.UserIds()
  {
    Rows.Find(s.users, UserKey, id)
  }

  /** The `WHERE name LIKE '%<pattern>%'` filter of `fetch(name:)`. */
  function NameMatches(pattern: string): User -> bool
  {
    (u: User) => SqlText.Like(u.name, pattern)
  }

  /**
   `fetch(name:)`: the users whose name contains `name` (ASCII letters
   compared without case), ascending by name.
   */
  function Fetch(s: Store, name: string): (r: seq<User>)
    ensures SqlText.Ordered(r, UserName)
    ensures forall u :: u in r ==> u in s.users && SqlText.Like(u.name, name)
    ensures forall u :: u in s.users && SqlText.Like(u.name, name) ==> u in r
    ensures multiset(r) <= multiset(s.users)
    ensures forall u :: u in s.users ==>
      multiset(r)[u] == if SqlText.Like(u.name, name) then multiset(s.users)[u] else 0
  {
    Rows.FilterCounts(s.users, NameMatches(name));
    var matching := Rows.Filter(s.users, NameMatches(name));
    var r := SqlText.OrderBy(matching, UserName);
    assert forall u :: u in r <==> u in multiset(matching);
    r
  }

  /**
   `update(_:name:document:)`: a nil argument keeps the copy's value. The whole
   patched copy, including its `settingsId`, is written over the row with its
   id: a missing row is record-not-found, and a `settingsId` naming no
   settings row violates the foreign key.
   */
  function Update(s: Store, copy: User, name: Option<string>, document: Option<string>): (r: Updated<User>)
    ensures r.copy.id == copy.id && r.copy.settingsId == copy.settingsId
    ensures r.copy.name == if name.Some? then name.value else copy.name
    ensures r.copy.document == if document.Some? then document.value else copy.document
    ensures r.write.Ok? <==>
      copy.id in s.UserIds() && (copy.settingsId.None? || copy.settingsId.value in s.SettingsIds())
    ensures r.write.Err? && copy.id !in s.UserIds() ==> r.write.error == RecordNotFound
    ensures r.write.Err? && copy.id in s.UserIds() ==> r.write.error == ForeignKeyViolation
    ensures r.write.Ok? ==> r.write.store.UserIds() == s.UserIds()
    ensures r.write.Ok? ==> r.write.store.(users := s.users) == s
  {
    var patched := copy.(name := name.GetOr(copy.name), document := document.GetOr(copy.document));
    if copy.id !in s.UserIds() then Updated(patched, Err(RecordNotFound))
    else if patched.settingsId.Some? && patched.settingsId.value !in s.SettingsIds() then
      Updated(patched, Err(ForeignKeyViolation))
    else
      Rows.ReplaceKeys(s.users, UserKey, patched);
      Updated(patched, Ok((), s.(users := Rows.Replace(s.users, UserKey, patched))))
  }

  /**
   `delete(_:)`: removes the user with the copy's id and reports whether one was
   removed. ON DELETE CASCADE removes the user's vehicles and `user_group` rows;
   settings, groups and other users' rows are untouched.
   */
  function Delete(s: Store, copy: User): (r: Result<bool>)
    ensures r.Ok?
    ensures r.value <==> copy.id in s.UserIds()
    ensures r.store.UserIds() == s.UserIds() - {copy.id}
    ensures forall u :: u in r.store.users <==> u in s.users && u.id != copy.id
    ensures forall v :: v in r.store.vehicles <==> v in s.vehicles && v.ownerId != copy.id
    ensures forall m :: m in r.store.memberships <==> m in s.memberships && m.userId != copy.id
    ensures r.store.settings == s.settings && r.store.groups == s.groups
  {
    var keep := (u: User) => u.id != copy.id;
    Rows.KeysWithout(s.users, UserKey, keep, copy.id);
    Ok(copy.id in s.UserIds(),
       s.(users := Rows.Filter(s.users, keep),
          vehicles := Rows.Filter(s.vehicles, (v: Vehicle) => v.ownerId != copy.id),
          memberships := set m | m in s.memberships && m.userId != copy.id))
  }

  /** `all()` and `get(by:)` agree: a user is listed exactly when looking up its id finds it. */
  lemma AllMatchesGet(s: Store, u: User)
    requires Valid(s)
    ensures u in All(s) <==> Get(s, u.id) == Some(u)
  {
    if u in s.users {
      Rows.FindMember(s.users, UserKey, u);
    }
  }

  /** The empty search string matches every user: `fetch(name: "")` lists the whole table by name. */
  lemma FetchEmptyListsAll(s: Store)
    ensures multiset(Fetch(s, "")) == multiset(All(s))
  {
    forall u | u in s.users
      ensures SqlText.Like(u.name, "")
    {
      SqlText.EmptyPatternMatchesAll(u.name);
    }
    var r := Fetch(s, "");
    forall u
      ensures multiset(r)[u] == multiset(s.users)[u]
    {
      if u !in s.users {
        assert multiset(r)[u] <= multiset(s.users)[u];
      }
    }
  }

  /** A successful add keeps the store valid, and the new user can be read back by id. */
  lemma AddValid(s: Store, id: Id, name: string, document: string, settingsId: Option<Id>)
    requires Valid(s)
    requires Add(s, id, name, document, settingsId).Ok?
    ensures Valid(Add(s, id, name, document, settingsId).store)
    ensures Get(Add(s, id, name, document, settingsId).store, id) == Some(User(id, name, document, settingsId))
  {
    var r := Add(s, id, name, document, settingsId);
    Rows.AppendUnique(s.users, UserKey, r.value);
    Rows.FindMember(r.store.users, UserKey, r.value);
  }

  /**
   A successful update keeps the store valid, `get` then returns the patched
   copy, and every other user reads as before.
   */
  lemma UpdateValid(s: Store, copy: User, name: Option<string>, document: Option<string>, other: Id)
    requires Valid(s)
    requires Update(s, copy, name, document).write.Ok?
    ensures Valid(Update(s, copy, name, document).write.store)
    ensures Get(Update(s, copy, name, document).write.store, copy.id) == Some(Update(s, copy, name, document).copy)
    ensures other != copy.id ==> Get(Update(s, copy, name, document).write.store, other) == Get(s, other)
  {
    var r := Update(s, copy, name, document);
    Rows.ReplaceKeys(s.users, UserKey, r.copy);
    Rows.ReplaceMembers(s.users, UserKey, r.copy);
    Rows.FindAfterReplace(s.users, UserKey, r.copy, copy.id);
    Rows.FindAfterReplace(s.users, UserKey, r.copy, other);
  }

  /** Writing back an unmodified current copy leaves the store as it was. */
  lemma UpdateWithNothingIsIdentity(s: Store, copy: User)
    requires Valid(s)
    requires Get(s, copy.id) == Some(copy)
    ensures Update(s, copy, None, None) == Updated(copy, Ok((), s))
  {
    Rows.ReplaceSame(s.users, UserKey, copy);
  }

  /** Deleting a user keeps the store valid. */
  lemma DeleteValid(s: Store, copy: User)
    requires Valid(s)
    ensures Valid(Delete(s, copy).store)
  {
    Rows.FilterUnique(s.users, UserKey, (u: User) => u.id != copy.id);
    Rows.FilterUnique(s.vehicles, VehicleKey, (v: Vehicle) => v.ownerId != copy.id);
  }

  /** Deleting a user just added restores the store exactly. */
  lemma AddThenDelete(s: Store, id: Id, name: string, document: string, settingsId: Option<Id>)
    requires Valid(s)
    requires Add(s, id, name, document, settingsId).Ok?
    ensures Delete(Add(s, id, name, document, settingsId).store, Add(s, id, name, document, settingsId).value) == Ok(true, s)
  {
    var r := Add(s, id, name, document, settingsId);
    var keep := (u: User) => u.id != id;
    Rows.FilterAppend(s.users, r.value, keep);
    Rows.FilterKeepsAll(s.users, keep);
    Rows.FilterKeepsAll(s.vehicles, (v: Vehicle) => v.ownerId != id);
    assert (set m | m in s.memberships && m.userId != id) == s.memberships;
  }
}

=== FILE: vehicle_repository.dfy ===
/** `VehicleRepository`: add for an owner, list by owner, get, partial update and delete over `vehicles`. */
module VehicleRepository {
  import opened Wrappers
  import opened Records
  import opened Persistence
  import Rows

  /**
   `add(for:licensePlate:model:manufacture:year:)`: inserts a vehicle under
   `id` whose `ownerId` is the given user's id; that user must still exist.
   */
  function Add(s: Store, owner: User, id: Id, licensePlate: string, model: string, manufacture: string, year: int): (r: Result<Vehicle>)
    ensures r.Ok? <==> id !in s.VehicleIds() && owner.id in s.UserIds()
    ensures r.Err? && id in s.VehicleIds() ==> r.error == PrimaryKeyViolation
    ensures r.Err? && id !in s.VehicleIds() ==> r.error == ForeignKeyViolation
    ensures r.Ok? ==> r.value == Vehicle(id, licensePlate, model, manufacture, year, owner.id)
    ensures r.Ok? ==> r.store.VehicleIds() == s.VehicleIds() + {id}
    ensures r.Ok? ==> r.store.(vehicles := s.vehicles) == s
  {
    var row := Vehicle(id, licensePlate, model, manufacture, year, owner.id);
    if id in s.VehicleIds() then Err(PrimaryKeyViolation)
    else if owner.id !in s.UserIds() then Err(ForeignKeyViolation)
    else
      Rows.KeysAppend(s.vehicles, VehicleKey, row);
      Ok(row, s.(vehicles := s.vehicles + [row]))
  }

  /** `all(by:)`: exactly the vehicles whose `ownerId` is the user's id, in table order. */
  function AllBy(s: Store, owner: User): (r: seq<Vehicle>)
    ensures forall v :: v in r <==> v in s.vehicles && v.ownerId == owner.id
    ensures multiset(r) <= multiset(s.vehicles)
    ensures forall v :: multiset(r)[v] == if v.ownerId == owner.id then multiset(s.vehicles)[v] else 0
  {
    var mine := (v: Vehicle) => v.ownerId == owner.id;
    Rows.FilterCounts(s.vehicles, mine);
    Rows.Filter(s.vehicles, mine)
  }

  /** `get(by:)`: the vehicle with that id, or nil. */
  function Get(s: Store, id: Id): (r: Option<Vehicle>)
    ensures r.Some? ==> r.value in s.vehicles && r.value.id == id
    ensures r.None? <==> id !in s.VehicleIds()
  {
    Rows.Find(s.vehicles, VehicleKey, id)
  }

  /**
   `update(_:licensePlate:model:manufacture:year:)`: a nil argument keeps the
   copy's value; `ownerId` is never patched. The whole copy is written over the
   row with its id: a missing row is record-not-found, and an `ownerId` naming
   no user violates the foreign key.
   */
  function Update(s: Store, copy: Vehicle, licensePlate: Option<string>, model: Option<string>,
                  manufacture: Option<string>, year: Option<int>): (r: Updated<Vehicle>)
    ensures r.copy.id == copy.id && r.copy.ownerId == copy.ownerId
    ensures r.copy.licensePlate == if licensePlate.Some? then licensePlate.value else copy.licensePlate
    ensures r.copy.model == if model.Some? then model.value else copy.model
    ensures r.copy.manufacture == if manufacture.Some? then manufacture.value else copy.manufacture
    ensures r.copy.year == if year.Some? then year.value else copy.year
    ensures r.write.Ok? <==> copy.id in s.VehicleIds() && copy.ownerId in s.UserIds()
    ensures r.write.Err? && copy.id !in s.VehicleIds() ==> r.write.error == RecordNotFound
    ensures r.write.Err? && copy.id in s.VehicleIds() ==> r.write.error == ForeignKeyViolation
    ensures r.write.Ok? ==> r.write.store.VehicleIds() == s.VehicleIds()
    ensures r.write.Ok? ==> r.write.store.(vehicles := s.vehicles) == s
  {
    var patched := copy.(licensePlate := licensePlate.GetOr(copy.licensePlate), model := model.GetOr(copy.model),
                         manufacture := manufacture.GetOr(copy.manufacture), year := year.GetOr(copy.year));
    if copy.id !in s.VehicleIds() then Updated(patched, Err(RecordNotFound))
    else if patched.ownerId !in s.UserIds() then Updated(patched, Err(ForeignKeyViolation))
    else
      Rows.ReplaceKeys(s.vehicles, VehicleKey, patched);
      Updated(patched, Ok((), s.(vehicles := Rows.Replace(s.vehicles, VehicleKey, patched))))
  }

  /** `delete(_:)`: removes the vehicle with the copy's id and reports whether one was removed; nothing references vehicles. */
  function Delete(s: Store, copy: Vehicle): (r: Result<bool>)
    ensures r.Ok?
    ensures r.value <==> copy.id in s.VehicleIds()
    ensures r.store.VehicleIds() == s.VehicleIds() - {copy.id}
    ensures forall v :: v in r.store.vehicles <==> v in s.vehicles && v.id != copy.id
    ensures r.store.(vehicles := s.vehicles) == s
  {
    var keep := (v: Vehicle) => v.id != copy.id;
    Rows.KeysWithout(s.vehicles, VehicleKey, keep, copy.id);
    Ok(copy.id in s.VehicleIds(), s.(vehicles := Rows.Filter(s.vehicles, keep)))
  }

  /** A successful add keeps the store valid, the vehicle reads back by id and is listed under its owner. */
  lemma AddValid(s: Store, owner: User, id: Id, licensePlate: string, model: string, manufacture: string, year: int)
    requires Valid(s)
    requires Add(s, owner, id, licensePlate, model, manufacture, year).Ok?
    ensures Valid(Add(s, owner, id, licensePlate, model, manufacture, year).store)
    ensures Get(Add(s, owner, id, licensePlate, model, manufacture, year).store, id)
         == Some(Vehicle(id, licensePlate, model, manufacture, year, owner.id))
    ensures Vehicle(id, licensePlate, model, manufacture, year, owner.id)
         in AllBy(Add(s, owner, id, licensePlate, model, manufacture, year).store, owner)
  {
    var r := Add(s, owner, id, licensePlate, model, manufacture, year);
    Rows.AppendUnique(s.vehicles, VehicleKey, r.value);
    Rows.FindMember(r.store.vehicles, VehicleKey, r.value);
  }

  /** A successful update keeps the store valid, `get` then returns the patched copy, and other vehicles read as before. */
  lemma UpdateValid(s: Store, copy: Vehicle, licensePlate: Option<string>, model: Option<string>,
                    manufacture: Option<string>, year: Option<int>, other: Id)
    requires Valid(s)
    requires Update(s, copy, licensePlate, model, manufacture, year).write.Ok?
    ensures Valid(Update(s, copy, licensePlate, model, manufacture, year).write.store)
    ensures Get(Update(s, copy, licensePlate, model, manufacture, year).write.store, copy.id)
         == Some(Update(s, copy, licensePlate, model, manufacture, year).copy)
    ensures other != copy.id ==>
      Get(Update(s, copy, licensePlate, model, manufacture, year).write.store, other) == Get(s, other)
  {
    var r := Update(s, copy, licensePlate, model, manufacture, year);
    Rows.ReplaceKeys(s.vehicles, VehicleKey, r.copy);
    Rows.ReplaceMembers(s.vehicles, VehicleKey, r.copy);
    Rows.FindAfterReplace(s.vehicles, VehicleKey, r.copy, copy.id);
    Rows.FindAfterReplace(s.vehicles, VehicleKey, r.copy, other);
  }

  /** Deleting a vehicle keeps the store valid. */
  lemma DeleteValid(s: Store, copy: Vehicle)
    requires Valid(s)
    ensures Valid(Delete(s, copy).store)
  {
    Rows.FilterUnique(s.vehicles, VehicleKey, (v: Vehicle) => v.id != copy.id);
  }

  /** Deleting a vehicle just added restores the store exactly. */
  lemma AddThenDelete(s: Store, owner: User, id: Id, licensePlate: string, model: string, manufacture: string, year: int)
    requires Valid(s)
    requires Add(s, owner, id, licensePlate, model, manufacture, year).Ok?
    ensures Delete(Add(s, owner, id, licensePlate, model, manufacture, year).store,
                   Add(s, owner, id, licensePlate, model, manufacture, year).value) == Ok(true, s)
  {
    var r := Add(s, owner, id, licensePlate, model, manufacture, year);
    var keep := (v: Vehicle) => v.id != id;
    Rows.FilterAppend(s.vehicles, r.value, keep);
    Rows.FilterKeepsAll(s.vehicles, keep);
  }
}

=== FILE: wrappers.dfy ===
/** Optional values, the counterpart of Swift's `T?`. */
module Wrappers {

  datatype Option<+T> = None | Some(value: T) {

    /** Swift's `x ?? default`. */
    function GetOr(default: T): T
    {
      match this
      case Some(v) => v
      case None => default
    }
  }
}
